=== FILE: README.md ===
# SQISign verification skeleton in Dafny

This project is a Dafny model of a small Python teaching skeleton for SQISign-style signature
verification. The skeleton has five layers:

- `field.py`: arithmetic in 𝔽_p² = 𝔽_p[i] with i² = −1 and p ≡ 3 (mod 4).
- `curve.py`: Montgomery curves y² = x³ + Ax² + x and their x-only (Kummer) points (X : Z).
- `magic.py`: the three-point ladder, and the x-only difference of two points.
- `isogeny.py`: 2-isogenies with a validated kernel point, and chains of them.
- `sqisign.py`: the verifier. It hashes the message to a scalar and walks the response chains
  block by block. It accepts iff the response curve and the challenge curve have the same
  coefficient A.

Where the skeleton's bodies are stubs, the model takes them as function-typed parameters with no
invented formulas. These are the xDBL/xADD formulas, the 2-isogeny formulas, the chain strategy,
the deterministic torsion basis and SHA-256.

The modules follow the source files:

| module | file | contents |
|---|---|---|
| `Errors` | errors.dfy | the exceptions the source raises, as a `Result` type |
| `ModArith` | modarith.dfy | modular arithmetic, powers of two, bit lengths, extended Euclid, `pow(s, -1, p)` |
| `Fp2` | fp2.dfy | canonical pairs `Elem(re, im)` modulo p, the ring laws, inversion through the norm |
| `Fp2Pow` | fp2_pow.dfy | square-and-multiply, `pow` with its special exponents, the square root of ePrint 2012/685 (7), Euler's criterion |
| `Field` | field.dfy | `Field` and `FieldElement`: type and field checks around `Fp2` |
| `Curve` | curve.dfy | `Curve` and `KummerPoint`: validation, equality, normalisation, the x-coordinate test, xDBL/xADD checks, the scalar multiplication that is written |
| `Magic` | magic.dfy | `binary`, the three-point ladder, `point_difference`, `get_kernel_point` |
| `Isogeny` | isogeny.dfy | `TwoIsogeny` validation and branching, evaluation, `IsogenyChain` as a left fold |
| `Sqisign` | sqisign.dfy | the parameters, hashing, both response folds, the challenge and both verifiers |

Three facts from number theory are hypotheses, written as ghost predicates in `requires` clauses.
None is an axiom.

- `MinusOneIsNonSquare(p)`: −1 is not a square mod p. This holds for primes p ≡ 3 (mod 4). It
  gives "the norm vanishes only at 0".
- `LagrangeOrder(p)`: a^(p²−1) = 1 for nonzero a in 𝔽_p². It gives Euler's criterion.
- `FrobeniusAdditive(p)`: (a + b)^p = a^p + b^p in 𝔽_p². It gives the converse: every element
  the is-square test accepts has a root that `sqrt` finds.

`Field.RootHypotheses(p)` bundles the three.

Normalisation comes in two versions. `Curve.NormalizeAsWritten` is `_normalize` as written,
shortcut of curve.py line 87 included, and it is what the model of `TwoIsogeny` and
`get_kernel_point` uses, as the source does. `Curve.Normalize` is the corrected version. The
`…Corrected` members (`Isogeny.NewTwoIsogenyCorrected`, `Magic.GetKernelPointCorrected`) use it,
and lemmas show where the two versions part ways (see "## Findings").

Mutation in place, such as `_normalize` and `r *= t`, is modelled as returned values. Exceptions
become `Err` values.

The ladders are proved correct relative to a naming of points, because the formulas they call
are stubs. `names(R, u)` says that R is the x-coordinate of u.a·P + u.b·Q (for the kernel ladder)
or of u·P (for `__mul__`). An x-coordinate forgets the sign and multiples of the order, so one
point may carry many names. The hypotheses ask only what x-only arithmetic does:
- `DoublesLabels`: the doubling formula turns a point named u into one named 2u.
- `AddsLabels`: the addition formula turns R named r, S named s and a difference T named s − r
  or s + r into a point named r + s or s − r. This is required only when x(T) is neither 0 nor
  infinity, the differences for which xADD is defined.
- `OddNamesGeneric`: a point whose P part is odd is neither (1 : 0) nor (0 : 1). For a basis of
  order 2^f with f ≥ 2 such a point has order 2^f.
- `StepsOnMultiples`: the `__mul__` loop body is constrained only on pairs named (r, r + 1),
  which is the ladder's invariant R1 − R0 = P.

Under these hypotheses the kernel ladder returns a point named P + sQ, and `n * P` returns a
point named |n|·P. `Magic.GridFormulasMeetHypotheses` and `Curve.PeriodicBodyStepsOnMultiples`
show that formulas with finitely many values, whose doubling orbits repeat, meet them.

## Model

| member | source | states |
|---|---|---|
| ModArith.ModInverse | field.py:131-135 | Python's `pow(s, -1, p)`: the result is an inverse of s in [0, p). Failure is ZeroDivision, and then no inverse exists. For prime p it fails exactly when p divides s |
| ModArith.ExtendedGcd | field.py:133 | Bezout coefficients: a·x + b·y equals g, and g divides both a and b |
| ModArith.BitLengthBounds | magic.py:7-8 | Python's `n.bit_length()`: 2^(len−1) ≤ n < 2^len for n > 0 |
| ModArith.Pow2Add | sqisign.py:39 | 2^(m+n) = 2^m · 2^n |
| Fp2.Reduce | field.py:65-69 | the constructor's `% p` on both parts: the result is canonical, with parts in [0, p), and congruent to its input |
| Fp2.ReduceEquiv | field.py:68-69 | congruent inputs construct the same element |
| Fp2.Neg | field.py:90-91 | `-a` is canonical, and a + (−a) is congruent to 0 |
| Fp2.Add | field.py:93-99 | `a + b` is the canonical element congruent to the componentwise sum |
| Fp2.Sub | field.py:115-116 | `a - b` is canonical, and adding b back gives something congruent to a |
| Fp2.Mul | field.py:102-108 | `a * b` is the canonical element congruent to the Gaussian product (re·re' − im·im', re·im' + im·re') |
| Fp2.AddComm | field.py:93-99 | addition is commutative |
| Fp2.AddAssoc | field.py:93-99 | addition is associative |
| Fp2.AddZero | field.py:93-99 | 0 is a two-sided additive identity on canonical elements |
| Fp2.SubSelf | field.py:115-116 | a − a is zero |
| Fp2.SubAddCancel | field.py:115-116 | subtracting b and adding b back returns a |
| Fp2.SubZeroIff | field.py:115-116 | a − b is zero iff a = b |
| Fp2.NegNeg | field.py:90-91 | negation is an involution |
| Fp2.MulComm | field.py:102-108 | multiplication is commutative |
| Fp2.MulAssoc | field.py:102-108 | multiplication is associative |
| Fp2.MulDistrib | field.py:93-108 | multiplication distributes over addition |
| Fp2.MulOne | field.py:102-108 | 1 is a two-sided multiplicative identity |
| Fp2.ISquared | field.py:102-108 | i·i = −1 |
| Fp2.Square | field.py:111-113 | the dedicated squaring (re² − im², 2·re·im) agrees with a·a |
| Fp2.NormMultiplicative | field.py:131 | the norm re² + im² is multiplicative |
| Fp2.Norm | field.py:131 | the norm re² + im² is non-negative, and it is zero exactly at 0 |
| Fp2.Inverse | field.py:129-137 | `~a`: success gives a·r = 1. Failure is ZeroDivision, and then a has no inverse. For prime p, failure happens exactly when re² + im² ≡ 0 (mod p) |
| Fp2.InverseUnique | field.py:129-137 | an element has at most one canonical inverse |
| Fp2.InverseOfUnit | field.py:129-137 | if a·w = 1 then `~a` returns exactly w |
| Fp2.NormVanishesOnlyAtZero | field.py:131-135 | when −1 is a non-square mod the prime p, the norm of a canonical element vanishes only at 0 |
| Fp2.NonzeroIsInvertible | field.py:129-137 | under the same hypothesis, every nonzero element is invertible |
| Fp2.NoZeroDivisors | field.py:102-108 | under the same hypothesis, a·b = 0 forces a = 0 or b = 0 |
| Fp2Pow.SquareAndMultiply | field.py:148-155 | the loop keeps canonical values canonical |
| Fp2Pow.SquareAndMultiplyComputesPower | field.py:148-155 | the loop invariant r·t^e = a^e₀: the loop returns r times the exact power t^e |
| Fp2Pow.PowSpecAdd | field.py:148-155 | a^(m+n) = a^m · a^n for the reference power |
| Fp2Pow.PowSpecMul | field.py:148-155 | a^(m·n) = (a^m)^n for the reference power |
| Fp2Pow.Pow | field.py:139-155 | `a ** e` never fails for e ≥ 0. Any failure is ZeroDivision |
| Fp2Pow.PowComputesPower | field.py:139-155 | `a ** e` equals the reference power for e ≥ 0, including the shortcuts e = 1 and e = 2. For e < 0 it inverts a^(−e), which covers e = −1 |
| Fp2Pow.NegativePowerInverts | field.py:142-147 | a negative power multiplies a^(−e) to 1. Over a prime it fails exactly when the norm of a^(−e) vanishes |
| Fp2Pow.Sqrt | field.py:157-171 | the square root returns only r with r² equal to the input. Otherwise it fails with NotASquare |
| Fp2Pow.SqrtZero | field.py:157-171 | the square root of 0 is 0 |
| Fp2Pow.SquaresPassEulerCriterion | field.py:173-180 | under `LagrangeOrder`, every square passes the test (0, or a^((p²−1)/2) = 1) |
| Fp2Pow.SqrtOnlyOnSquares | field.py:157-180 | under `LagrangeOrder`, a successful square root implies the is-square test holds |
| Fp2Pow.IsSquare | field.py:173-180 | `is_square`: 0 is accepted, and a nonzero canonical element is accepted iff a^((p²−1)/2) = 1 (Euler's criterion as the source writes it) |
| Fp2Pow.SquaresHaveRoots | field.py:157-180 | for p ≡ 3 (mod 4), under the three hypotheses, `sqrt` succeeds on every element `is_square` accepts. With h = a^((p−1)/2), u²·h = 1 in both branches of line 163 |
| Fp2Pow.CorrectionFactor | field.py:166 | for h ≠ −1 with h^(p+1) = 1, the correction u = (1 + h)^((p−1)/2) satisfies u²·h = 1 |
| Fp2Pow.SqrtSucceedsExactlyOnSquares | field.py:157-180 | both directions together: `sqrt` succeeds iff `is_square` holds, which is what the test loop of field.py:255-262 checks |
| Fp2Pow.FrobeniusSquaredIsIdentity | field.py:139-155 | under `LagrangeOrder`, a^(p²) = a for every canonical a |
| Field.NewField | field.py:10-16 | a field exists iff p is prime and p % 4 = 3. A non-prime is reported before the residue test |
| Field.Element | field.py:65-69 | a constructed element belongs to its field, is canonical and is congruent to the given parts |
| Field.Coerce | field.py:45-50 | `gf(x)`: an integer is reduced into the field. An element of this field is returned unchanged. An element of another field is a FieldMismatch |
| Field.CoerceOwnElement | field.py:45-49 | coercing an element of the same field is the identity |
| Field.Equals | field.py:80-85 | equality is equality of both parts after coercion. Comparing across fields is a FieldMismatch |
| Field.Negate | field.py:90-91 | the negation of x adds to x to give zero |
| Field.Plus | field.py:93-99 | addition fails exactly on a foreign field, and otherwise adds in the common field |
| Field.Times | field.py:102-108 | multiplication fails exactly on a foreign field, and otherwise multiplies in the common field |
| Field.Minus | field.py:115-116 | `x - o` fails exactly on a foreign field. Adding o back to the result returns x |
| Field.MinusUndoesPlus | field.py:115-116 | `x - o` is `x + (-o)` |
| Field.Invert | field.py:129-137 | the inverse multiplies x to 1. Failure is ZeroDivision, exactly when the norm vanishes mod a prime |
| Field.Divide | field.py:120-123 | the quotient times the divisor is x. A foreign divisor is an error |
| Field.DivisionInvertsMultiplication | field.py:120-123 | over a prime field, x / y succeeds iff y ≠ 0, and then (x / y)·y = x |
| Field.NonzeroIffInvertible | field.py:87-88 | over a prime field, an element is truthy iff it is invertible |
| Field.IsNonzero | field.py:87-88 | `__bool__`: an element is truthy iff it is not 0 |
| Field.Power | field.py:139-155 | the power of a canonical element is the reference power for e ≥ 0. Failure only happens for e < 0 and is ZeroDivision |
| Field.SquareRoot | field.py:157-171 | the root stays in the field and squares back to x. Otherwise the error is NotASquare |
| Field.IsSquareElement | field.py:173-180 | 0 is a square. Over a field that `Field(p)` accepts, under the three hypotheses, `is_square` holds iff `sqrt` succeeds |
| Field.AdditiveIdentities | field.py:93-118 | x − x = 0 and x + 0 = x |
| Curve.NewCurve | curve.py:7-12 | the curve is rejected as singular exactly when A = 2 or A = −2 |
| Curve.SingularIffDiscriminantVanishes | curve.py:10-11 | over a prime field, the rejected coefficients are exactly those with A² = 4 |
| Curve.CurveEquals | curve.py:21-24 | curves are equal iff their coefficients are equal. Coefficients from different fields are a FieldMismatch |
| Curve.NewPoint | curve.py:67-74 | (0:0) is rejected as InvalidProjectivePoint. A foreign coordinate is a FieldMismatch. A built point lies on E with canonical coordinates congruent to the arguments |
| Curve.NewAffinePoint | curve.py:67-74 | with z defaulted to 1 the point is affine, and only a foreign x is rejected |
| Curve.OriginIsNewPoint | curve.py:107 | (1:0) is a valid point |
| Curve.PointEquals | curve.py:93-98 | points on the same curve are equal iff x₁·z₂ = z₁·x₂. Points on different curves are an error |
| Curve.PointEqualsReflexiveSymmetric | curve.py:93-98 | point equality is reflexive and symmetric |
| Curve.PointEqualsTransitive | curve.py:93-98 | over a prime field, point equality is transitive, so it is an equivalence relation |
| Curve.ScalingKeepsClass | curve.py:93-98 | scaling (x, z) by a nonzero λ does not change any comparison |
| Curve.EqualsOriginIffInfinite | curve.py:100-101 | a point is falsy (z = 0) exactly when it equals (1:0) |
| Curve.IsFinite | curve.py:100-101 | a point is truthy iff z ≠ 0. A valid point that is falsy has x ≠ 0 |
| Curve.Pivot | curve.py:91 | the coordinate `_normalize` inverts, z or else x, is canonical and nonzero on a valid point |
| Curve.ScaleAsWritten | curve.py:85-88 | `_scale(s)` keeps the curve. When z·s = 1 the new z is 1. The new x differs from x·s only when x = s, and then it is 1 |
| Curve.Normalize | curve.py:85-91 | corrected `_normalize`: a finite point gets z = 1, and a point at infinity becomes (1:0). The only failure is ZeroDivision |
| Curve.NormalizeSucceedsOnPoints | curve.py:90-91 | over a prime field, normalising a valid point never fails |
| Curve.NormalizeKeepsClass | curve.py:85-91 | the corrected normal form equals the original point |
| Curve.NormalizeIdempotent | curve.py:85-91 | normalising twice gives the same result as normalising once |
| Curve.NormalizeAsWritten | curve.py:85-91 | `_normalize` with the line-87 shortcut. It fails exactly when the pivot has no inverse (ZeroDivision). A finite point gets z = 1, and a point at infinity becomes (1:0) |
| Curve.NormalizeAsWrittenSucceedsOnPoints | curve.py:90-91 | over a prime field, `_normalize` as written never fails on a valid point |
| Curve.NormalizeAsWrittenOffShortcut | curve.py:85-91 | on a valid point where the shortcut does not fire, the as-written and corrected normalisations agree |
| Curve.ShortcutNormalForm | curve.py:87-88 | on a valid point where the shortcut fires, `_normalize` as written returns (1:1) |
| Curve.NormalizeAsWrittenAffine | curve.py:85-91 | a point (x : 1) with canonical x is left as it is |
| Curve.NormalFormFixed | curve.py:85-91 | both shapes of normal form, (x : 1) and (1 : 0), are fixed points of `_normalize` as written |
| Curve.NormalizeAsWrittenIdempotent | curve.py:85-91 | running `_normalize` as written twice gives the same result as running it once |
| Curve.NormalizeAsWrittenCounterexample | curve.py:87-88 | for every p = 2k + 1 ≥ 5, the valid point (k+1 : 2) normalises to (1:1) as written. That is a different point, and the corrected normal form is not |
| Curve.ShortcutIsTaken | curve.py:87-88 | the shortcut fires on (k+1 : 2) and yields (1:1) |
| Curve.ShortcutLeavesTheClass | curve.py:87-88 | (k+1 : 2) and (1:1) are different points |
| Curve.CorrectedStaysInClass | curve.py:85-91 | the corrected normalisation of the same point stays in its class |
| Curve.NormalizeAsWrittenDiffersOnlyThere | curve.py:85-91 | on a valid point, the as-written and corrected normalisations differ exactly when the shortcut fires: finite points with x = 1/z and z² ≠ 1 (`HitsShortcut`) |
| Curve.IsXCoordinate | curve.py:57-58 | x is accepted iff x³ + Ax² + x is a square in the field |
| Curve.MontgomeryRhs | curve.py:57-58 | x³ + Ax² + x is canonical. `Curve.HornerForm` relates it to the nested form the source computes |
| Curve.HornerForm | curve.py:57-58 | the nested form x·(1 + x·(A + x)) equals x³ + Ax² + x |
| Curve.CurvePointsAreXCoordinates | curve.py:57-58 | the x-coordinate of every affine point (x, y) of the curve is accepted |
| Curve.ZeroIsXCoordinate | curve.py:57-58 | x = 0 is always accepted |
| Curve.XDbl | curve.py:32-42 | xDBL runs the stub formula only on a point of this curve. Otherwise it reports FieldMismatch or NotOnThisCurve |
| Curve.XAdd | curve.py:44-55 | xADD runs the stub formula only when all three points lie on this curve |
| Curve.ScalarMul | curve.py:103-111 | a point at infinity is returned unchanged, and n = 0 gives (1:0) |
| Curve.MultiplesLoopComputesN | curve.py:106-111 | the ladder's scalar bookkeeping over `reversed(range(n.bit_length()))` reaches exactly n |
| Curve.LoopFollowsMultiples | curve.py:109-111 | if the step body maps pairs named (r, r + 1) to (2r + bit, 2r + bit + 1), the loop ends on a point named by the integer ladder's result |
| Curve.ScalarMulComputesMultiple | curve.py:103-111 | with (1:0) named 0 and P named 1, and a body that steps on pairs named (r, r + 1), `n * P` is named abs(n)·P, so the sign of n is ignored |
| Curve.PeriodicBodyStepsOnMultiples | curve.py:103-111 | the hypotheses of ScalarMulComputesMultiple are met by a body on a point of order 4, whose values repeat: 4·(1:1) = (1:0) |
| Magic.Bits | magic.py:7-8 | `binary(s)` consists of bits, and is empty iff s ≤ 0 |
| Magic.BitsLength | magic.py:7-8 | `binary(s)` has s's bit length |
| Magic.BitsDenoteScalar | magic.py:7-8 | the bits, least significant first, sum to s (to 0 for s ≤ 0) |
| Magic.AffineTest | magic.py:3-5 | the `z == 1` assertion compares the element with the integer 1 |
| Magic.IsAffine | magic.py:3-5 | an affine point (z = 1) is finite. `Magic.AffineTest` shows that this is what the assertion `P.z == 1` computes |
| Magic.ThreePointLadder | magic.py:2-27 | the ladder rejects non-affine inputs, returns P for s ≤ 0, and succeeds iff all points share P's curve |
| Magic.LadderSteps | magic.py:15-25 | the loop returns P1 on no bits. Otherwise it succeeds iff the three points lie on E |
| Magic.LadderStepsFollowLabels | magic.py:10-25 | loop invariant: with P0 named 2^k·Q, P1 named P + mQ and P2 named P + dQ (d = m − 2^k), the rest of the ladder ends on a point named P + (m + 2^k·rest)Q |
| Magic.ThreePointLadderComputesKernel | magic.py:2-27 | when the formulas double and add names as x-only arithmetic does, and PmQ is named P − Q, the ladder returns a point named P + sQ (P − sQ when PmQ is P + Q) |
| Magic.GridFormulasMeetHypotheses | magic.py:15-25 | the ladder's hypotheses are met by doubling and addition formulas on (Z/4)², whose doubling orbit repeats |
| Magic.GridLadderComputesKernel | magic.py:2-27 | all hypotheses of ThreePointLadderComputesKernel hold at once for the (Z/4)² formulas on three affine points, and the ladder returns (1 + (s mod 4)·i : 1), the point named P + sQ |
| Magic.PointDifference | magic.py:53-85 | the inputs must be affine and on one curve (assertion failures otherwise). Then the affine difference is returned |
| Magic.AffineDifference | magic.py:64-85 | a non-square discriminant is an assertion failure. A result is affine, on E, and its x is a root of (x₁−x₂)²X² − 2·t1·X + (x₁x₂ − 1)² |
| Magic.DifferenceIsRoot | magic.py:64-83 | (root + t1)/(x₁ − x₂)² solves the x(P ± Q) quadratic whenever root² is the discriminant |
| Magic.DifferenceOfEqualX | magic.py:64-83 | equal x-coordinates always fail, over any modulus. When the square test and `sqrt` pass, the failure is the division by (x₁ − x₂)² = 0 |
| Magic.EqualXDiscriminant | magic.py:63-77 | with x₁ = x₂ the subtracted term vanishes, and the discriminant is t1², a square |
| Magic.DifferenceOfEqualXIsDivision | magic.py:64-83 | over a field `Field(p)` accepts, under the root hypotheses, equal x-coordinates pass the square test and `sqrt` and always end in ZeroDivision |
| Magic.DifferenceSucceeds | magic.py:64-85 | over a prime field, distinct x-coordinates with a square discriminant always give a result |
| Magic.GetKernelPoint | magic.py:101-111 | both inputs go through `_normalize` as written. The kernel point lies on xP's curve, and a point at infinity among the inputs is an error |
| Magic.GetKernelPointCorrected | magic.py:101-111 | the same with the corrected normalisation: same curve, and an error for a point at infinity |
| Magic.GetKernelPointOffShortcut | magic.py:106-107 | when the shortcut fires on neither input, the as-written and corrected versions give the same result |
| Magic.GetKernelPointAtShortcut | magic.py:106-107 | when the shortcut fires on xP, the result is the one for the valid point (1:1) in place of xP |
| Magic.SameNormalFormSameKernel | magic.py:106-109 | inputs with the same as-written normal form give the same result |
| Magic.GetKernelPointOnNormalizedInputs | magic.py:106-107 | normalising first (as written) changes nothing: the function depends only on the as-written normal forms |
| Magic.GetKernelPointComputesKernel | magic.py:101-111 | when the as-written normal forms of the inputs are named P and Q, and their difference P − Q, the result is named P + sQ (P − sQ when the difference is P + Q) |
| Isogeny.NewTwoIsogeny | isogeny.py:7-31 | the kernel goes through `_normalize` as written (ZeroDivision iff that fails). It is rejected as NotOrderTwo iff it is infinite or x³ + Ax² + x ≠ 0. The domain is K's curve, and the branch is AtZero iff x = 0 |
| Isogeny.OrderTwoTest | isogeny.py:18 | the expression xK·(1 + xK·(A + xK)) of line 18 is x³ + Ax² + x for canonical x |
| Isogeny.NewTwoIsogenyCorrected | isogeny.py:7-31 | the same construction with the corrected normalisation, with the same error cases and the same result shape |
| Isogeny.NewTwoIsogenyOffShortcut | isogeny.py:15 | when the shortcut does not fire on K, the construction as written and the corrected one agree |
| Isogeny.ShortcutKernelsRejected | isogeny.py:15-19 | on a valid curve, every K where the shortcut fires is rejected as NotOrderTwo, because (1:1) never has order two there |
| Isogeny.RhsAtOneNonzero | isogeny.py:18 | on a nonsingular curve, 1 + A + 1 ≠ 0, so x = 1 fails the order-two test |
| Isogeny.CorrectedAcceptsOrderTwoKernels | isogeny.py:14-31 | the corrected construction accepts every finite K with x·(x² + Axz + z²) = 0. Its only possible error is SingularCurve |
| Isogeny.ShortcutPointHasOrderTwo | isogeny.py:18-20 | a point where the shortcut fires has order two on the curve with A = −(x² + z²) |
| Isogeny.ShortcutRejectsOrderTwoKernel | isogeny.py:15-19 | on that curve, such a point has order two. The construction as written rejects it as NotOrderTwo, and the corrected one does not |
| Isogeny.TwoIsogenyOfNormalized | isogeny.py:16-31 | on an affine kernel, the order-two test rejects exactly the x with x³ + Ax² + x ≠ 0. The codomain is a nonsingular curve of the same field |
| Isogeny.OrderTwoAtNonzero | isogeny.py:18-20 | over a prime field, for x ≠ 0, the test passes iff x² + Ax + 1 = 0 |
| Isogeny.KernelKinds | isogeny.py:20-31 | the AtRoot branch has a root of x² + Ax + 1 as its kernel, and the AtZero branch has (0 : 1) |
| Isogeny.TwoIsogenyErrorsOverPrimeFields | isogeny.py:15-19 | over a prime field, construction fails only as NotOrderTwo or SingularCurve. NotOrderTwo happens exactly when K is infinite or the as-written normal form's x fails the order-two test |
| Isogeny.KernelIsGivenPoint | isogeny.py:10-15 | for K on a curve that `Curve(A)` accepts, a constructed isogeny's stored kernel equals the given point. Shortcut kernels never get this far (`ShortcutKernelsRejected`) |
| Isogeny.CorrectedKernelIsGivenPoint | isogeny.py:10-15 | with the corrected normalisation, the stored kernel equals the given point on any curve |
| Isogeny.AffineOrderTwoAccepted | isogeny.py:14-31 | an affine point with x³ + Ax² + x = 0 is accepted as it stands. The only possible error comes from the codomain |
| Isogeny.OriginHasOrderTwo | isogeny.py:26 | (0 : 1) is a valid point that passes the order-two test |
| Isogeny.Evaluate | isogeny.py:36-37 | `phi(P)` is a point of the codomain. The only failure is the codomain's (0:0) check |
| Isogeny.EvaluateIgnoresCurve | isogeny.py:36-37 | evaluation reads only P.x and P.z |
| Isogeny.NewChain | isogeny.py:40-46 | n < 1 fails the assertion. An empty strategy result fails at `steps[-1]`. The domain is K's curve and the codomain is the last step's |
| Isogeny.ChainHasRequestedLength | isogeny.py:40-46 | the one new fact is that `IsogenyChain(K, n)` succeeds when the strategy does and n ≥ 1. The length n, connectedness and the start on K's curve are the `BuildsChains` hypothesis on the strategy, passed through |
| Isogeny.ChainStaysInField | isogeny.py:40-46 | the codomain of a connected chain is over the same field as its domain |
| Isogeny.ApplySteps | isogeny.py:57-60 | applying no steps returns P. A result lies on the last step's codomain |
| Isogeny.ApplyChain | isogeny.py:57-60 | applying a chain gives a point of its codomain |
| Isogeny.ApplyStepsAppend | isogeny.py:57-60 | the left fold composes: applying s1 + s2 is applying s1 and then s2 |
| Isogeny.ApplySingleStep | isogeny.py:57-60 | a one-step chain is the isogeny itself |
| Sqisign.ParameterShape | sqisign.py:8-10 | f = 2^7 = 128, p + 1 = cof · 2^128 with cof odd, and p ≡ 3 (mod 4) |
| Sqisign.ParameterField | sqisign.py:10 | `Field(p)` succeeds iff p is prime, since the residue condition holds |
| Sqisign.FromBytes | sqisign.py:39 | `int.from_bytes(s, 'big')` is below 2^(8·len) |
| Sqisign.FromBytesOfToBytes | sqisign.py:39 | reading back the big-endian encoding of n gives n |
| Sqisign.ToBytesOfFromBytes | sqisign.py:39 | encoding a byte string's value at its length gives the string back |
| Sqisign.FromBytesAppend | sqisign.py:39 | a big-endian concatenation reads as high · 2^(8·len low) + low |
| Sqisign.HashToInteger | sqisign.py:37-40 | the hash scalar lies in [0, 2^f) |
| Sqisign.HashKeepsLastSixteenBytes | sqisign.py:37-40 | reducing mod 2^128 keeps exactly the last sixteen digest bytes |
| Sqisign.HashMessage | sqisign.py:42-47 | the hashed kernel lies on the curve it is computed for (the commitment curve in `recompute_challenge`) |
| Sqisign.HashMessageComputesKernel | sqisign.py:42-47 | with the as-written normal forms of the basis named P and Q and their difference P − Q, the hashed kernel is named P + hash·Q, with hash < 2^128 |
| Sqisign.ChainCodomain | isogeny.py:40-46 | the codomain of a chain is a nonsingular curve, and n < 1 is an assertion failure |
| Sqisign.UncompressedResponse | sqisign.py:50-56 | no blocks return E unchanged, and a result is a nonsingular curve |
| Sqisign.UncompressedResponseAppend | sqisign.py:50-56 | the response is a left fold: blocks b1 + b2 continue from the curve b1 reaches |
| Sqisign.UncompressedResponseInField | sqisign.py:50-56 | the response curve is over the public key's field |
| Sqisign.BlockKernel | sqisign.py:59-63 | the kernel of a block lies on the current curve |
| Sqisign.BlockKernelComputesKernel | sqisign.py:59-63 | with the as-written normal forms of the basis named, the swap flag exchanges the basis: the kernel is named P + sQ, or Q + sP when swap is set |
| Sqisign.CompressedResponse | sqisign.py:58-67 | no blocks return E unchanged, and a result is a nonsingular curve |
| Sqisign.CompressedResponseAppend | sqisign.py:58-67 | the compressed response is a left fold over its blocks |
| Sqisign.CompressedResponseInField | sqisign.py:58-67 | the response curve is over the public key's field |
| Sqisign.RecomputeChallenge | sqisign.py:69-71 | the challenge is a nonsingular curve |
| Sqisign.ChallengeInField | sqisign.py:69-71 | the challenge curve is over the commitment's field |
| Sqisign.VerifyUncompressed | sqisign.py:73-83 | a singular public key or commitment raises (SingularCurve) rather than returning false |
| Sqisign.VerifyUncompressedAccepts | sqisign.py:73-83 | the verifier returns true iff both curves are valid, both walks succeed, and the two curves have equal coefficients |
| Sqisign.VerifyUncompressedDecides | sqisign.py:73-83 | over one field with valid curves, the verifier reaches a verdict iff both walks succeed |
| Sqisign.VerifyCompressed | sqisign.py:85-95 | a singular public key or commitment raises (SingularCurve) rather than returning false |
| Sqisign.VerifyCompressedAccepts | sqisign.py:85-95 | the compressed verifier returns true iff both walks succeed and end on equal coefficients |
| Sqisign.VerifyCompressedDecides | sqisign.py:85-95 | over one field with valid curves, the compressed verifier reaches a verdict iff both walks succeed |

## Left out

- Operation counters and `cost()` (field.py:17-31, and the counter save/restore in `sqrt` and `is_square`): diagnostic side state with no effect on results.
- `Field.random`, `Curve.random` and the random test inputs: nondeterministic sampling.
- `gmpy2.is_prime`: a foreign call, modelled as the predicate `ModArith.IsPrime`.
- "The norm vanishes only at 0", Euler's criterion and the additivity of the Frobenius map: these need Fermat's little theorem and the binomial theorem, so they are hypotheses (`MinusOneIsNonSquare`, `LagrangeOrder`, `FrobeniusAdditive`), not proved facts.
- `isinstance` checks that raise `TypeError`/`ValueError` on non-elements and non-points: the Dafny types rule those inputs out. Mixed-field checks are modelled.
- The stub bodies are parameters, not formulas:
  - xDBL/xADD (curve.py:40-42, 53-55);
  - the Montgomery ladder body (curve.py:109-110);
  - the 2-isogeny codomain and evaluation (isogeny.py:21-31);
  - `IsogenyChain._compute` (isogeny.py:50-52);
  - `deterministic_basis_two_torsion` (sqisign.py:14-19);
  - SHA-256.
- Isogeny.Evaluate: the codomain coefficient and the image come from the stub formula, so homogeneity and compatibility with scalar multiplication (isogeny.py:90-96) are not stated.
- Isogeny.ChainHasRequestedLength: the strategy's promise that the chain sends K to the identity (isogeny.py:106) is not stated, because chain evaluation rests on the stub formulas.
- Sqisign.HashMessageComputesKernel: the basis contract (deterministic, exact order 2^f, distinct 2^(f−1) multiples, sqisign.py:25-30) is not modelled. Only "the basis points lie on E" is assumed, and the names of the basis points and of their difference are hypotheses.
- Magic.PointDifference: the tests' claim that the result is (a−b)P or (a+b)P (magic.py:98) needs the group law, which is not modelled. The model proves instead that the x-coordinate is a root of the x(P ± Q) quadratic.
- Magic.ThreePointLadder: the count of one xADD and one xDBL per bit is not stated. It is visible in the recursive structure only.
- Magic.GetKernelPoint: the in-place normalisation of the caller's points (magic.py:106-107) is a side effect on the caller, and the model returns only the kernel.
- Isogeny.NewTwoIsogeny: likewise, the caller's K is not mutated. The stored kernel is the normalised copy.
- Isogeny.KernelIsGivenPoint: stated only for K on a curve that `Curve(A)` accepts, the invariant every `Curve` object has. A `Point` value whose curve is singular cannot be built through the source's constructors.
- Magic.ThreePointLadderComputesKernel: that the program's own xDBL and xADD meet `DoublesLabels`, `AddsLabels` and `OddNamesGeneric` is not proved. The formulas are stubs (curve.py:40-55), and the group law is not modelled. The same holds for `Magic.GetKernelPointComputesKernel`, `Sqisign.HashMessageComputesKernel` and `Sqisign.BlockKernelComputesKernel`, which rest on it.
- Curve.ScalarMulComputesMultiple: that a textbook ladder body meets `StepsOnMultiples` is not proved, for the same reason. Such a body meets it only when x(P) is neither 0 nor infinity.
- Curve.ScalarMul: only the parts that are written are modelled (infinity short-circuit, the |n| sign drop, n = 0). The ladder body is a parameter.
- `__repr__`, `__copy__`/`__deepcopy__`, `Curve.zero`, the `__main__` driver and `good_signatures` (sqisign.py:99-134): presentation only.
- Concrete test vectors (curve.py:124-131, isogeny.py:72-107): they depend on the stub formulas.
- Python's integer `&`, `>>` and `int()` conversions: modelled as the arithmetic they compute on non-negative values.

## Findings

| source | as written | input that shows it | evidently intended | confidence | as-written member | corrected member |
|---|---|---|---|---|---|---|
| curve.py:87-88 | `_scale` sets a coordinate to 1 whenever it equals s = ~pivot. This shortcut is meant for the pivot itself (z·~z = 1), but it also fires when x happens to equal ~z | p = 7, point (4 : 2): ~2 = 4, so x is replaced by 1 and z by 2·4 = 1. The result (1 : 1) is not (4 : 2), because 4·1 ≠ 2·1. The same holds for every p = 2k + 1 ≥ 5 and the point (k+1 : 2) | multiply both coordinates by s, giving (x/z : 1) | not executed | Curve.NormalizeAsWrittenCounterexample | Curve.CorrectedStaysInClass |
| isogeny.py:15-19 | `_compute` normalises K with `_normalize`. When the shortcut of curve.py:87 fires, the kernel becomes (1:1), and 1 + A + 1 ≠ 0 on every nonsingular curve, so K is rejected whatever its order | p = 7, A = 1, K = (4 : 2): 4·(16 + 8 + 4) = 112 ≡ 0 (mod 7), so K has order two, but ~2 = 4 = x, so K is normalised to (1:1) and rejected as not of order 2. The same holds for every K where the shortcut fires, on the curve A = −(x² + z²) | accept every point of order two, as the corrected normalisation does | not executed | Isogeny.ShortcutRejectsOrderTwoKernel | Isogeny.CorrectedAcceptsOrderTwoKernels |

=== FILE: curve.dfy ===
/**
 Montgomery curves y^2 = x^3 + A x^2 + x over F_p(i) and their Kummer points: projective
 x-line points (X : Z) where (X : Z) and (sX : sZ) name the same point and Z == 0 is the
 identity. The x-only doubling and differential addition formulas and the body of the
 scalar multiplication loop are left open in curve.py and are parameters here.
 */
module Curve {
  import opened Errors
  import opened ModArith
  import opened Fp2
  import opened Fp2Pow
  import opened Field

  /* ---------------- curves ---------------- */

  /** The curve y^2 = x^3 + A x^2 + x; two curves are equal exactly when their A are. */
  datatype Curve = Curve(A: FieldElement)

  function Modulus(E: Curve): int {
    E.A.gf.p
  }

  /** Every curve of the model has a canonical coefficient. */
  predicate GoodCurve(E: Curve) {
    Canonical(E.A)
  }

  /** The field element 2. */
  function Two(p: int): Elem
    requires p > 1
  {
    Reduce(p, Elem(2, 0))
  }

  /** `Curve.__init__`: A == 2 and A == -2 give singular curves and raise ValueError. */
  function NewCurve(A: FieldElement): (r: Result<Curve>)
    requires Canonical(A)
    ensures r.Ok? ==> r.value == Curve(A)
    ensures r.Err? ==> r.error == SingularCurve
    ensures r.Err? <==> A.v == Two(A.gf.p) || A.v == Neg(A.gf.p, Two(A.gf.p))
  {
    var p := A.gf.p;
    assert Neg(p, Two(p)) == Reduce(p, Elem(-2, 0)) by {
      NegatedInteger(p, 2);
      ReduceEquiv(p, Reduce(p, Elem(-2, 0)), GaussNeg(Two(p)));
      ReduceValid(p, Reduce(p, Elem(-2, 0)));
    }
    var isTwo := Equals(A, Int(2)).value;
    var isMinusTwo := Equals(A, Int(-2)).value;
    assert isTwo <==> A.v == Two(p) by {
      if isTwo {
        CanonicalEquiv(p, A.v, Two(p), Elem(2, 0));
      }
    }
    assert isMinusTwo <==> A.v == Reduce(p, Elem(-2, 0)) by {
      if isMinusTwo {
        CanonicalEquiv(p, A.v, Reduce(p, Elem(-2, 0)), Elem(-2, 0));
      }
    }
    if isTwo || isMinusTwo then Err(SingularCurve) else Ok(Curve(A))
  }

  /**
   Over a field, the rejected coefficients are exactly those whose curve is singular:
   x^2 + A x + 1 has a double root iff its discriminant A^2 - 4 vanishes.
   */
  lemma SingularIffDiscriminantVanishes(A: FieldElement)
    requires Canonical(A) && IsPrime(A.gf.p) && MinusOneIsNonSquare(A.gf.p)
    ensures NewCurve(A).Err? <==> Mul(A.gf.p, A.v, A.v) == Reduce(A.gf.p, Elem(4, 0))
  {
    var p, a := A.gf.p, A.v;
    var t := Two(p);
    assert Mul(p, t, t) == Reduce(p, Elem(4, 0)) by {
      GaussMulEquiv(p, t, Elem(2, 0), t, Elem(2, 0));
      ReduceEquiv(p, GaussMul(t, t), Elem(4, 0));
    }
    var d, s := Sub(p, a, t), Add(p, a, t);
    DifferenceOfSquares(p, a, t);
    SubZeroIff(p, Mul(p, a, a), Mul(p, t, t));
    SubZeroIff(p, a, t);
    AddZeroIff(p, a, t);
    if Mul(p, a, a) == Mul(p, t, t) {
      NoZeroDivisors(p, d, s);
    } else if a == t {
      MulZero(p, s);
    } else if a == Neg(p, t) {
      MulZero(p, d);
    }
  }

  /** `Curve.__eq__`: compares the coefficients, raising TypeError across fields. */
  function CurveEquals(E1: Curve, E2: Curve): (r: Result<bool>)
    requires GoodCurve(E1) && GoodCurve(E2)
    ensures r.Err? <==> E1.A.gf != E2.A.gf
    ensures r.Err? ==> r.error == FieldMismatch
    ensures r.Ok? ==> (r.value <==> E1 == E2)
  {
    Equals(E1.A, Elt(E2.A))
  }

  /* ---------------- Kummer points ---------------- */

  /** The projective x-line point (x : z) of the curve E. */
  datatype Point = Point(E: Curve, x: Elem, z: Elem)

  /** What `KummerPoint.__init__` establishes: canonical coordinates, not both zero. */
  predicate GoodPoint(P: Point) {
    GoodCurve(P.E) && Valid(Modulus(P.E), P.x) && Valid(Modulus(P.E), P.z)
    && (P.x != Zero() || P.z != Zero())
  }

  /** The pair an integer or element operand denotes before reduction. */
  function OperandValue(o: Operand): Elem {
    match o
    case Int(n) => Elem(n, 0)
    case Elt(e) => e.v
  }

  /** An operand that is an element of a field other than F. */
  predicate Foreign(F: Field, o: Operand) {
    o.Elt? && o.e.gf != F
  }

  /**
   `KummerPoint.__init__` (also `E(x, z)`): both coordinates are coerced into the field of
   E (TypeError for elements of another field), and (0 : 0) raises ValueError.
   */
  function NewPoint(E: Curve, x: Operand, z: Operand): (r: Result<Point>)
    requires GoodCurve(E)
    requires x.Elt? ==> Canonical(x.e)
    requires z.Elt? ==> Canonical(z.e)
    ensures r.Err? <==> Foreign(E.A.gf, x) || Foreign(E.A.gf, z)
                        || (Reduce(Modulus(E), OperandValue(x)) == Zero()
                            && Reduce(Modulus(E), OperandValue(z)) == Zero())
    ensures r.Err? ==> (r.error == FieldMismatch <==> Foreign(E.A.gf, x) || Foreign(E.A.gf, z))
    ensures r.Err? ==> r.error == FieldMismatch || r.error == InvalidProjectivePoint
    ensures r.Ok? ==> GoodPoint(r.value) && r.value.E == E
    ensures r.Ok? ==> r.value.x == Reduce(Modulus(E), OperandValue(x))
                      && r.value.z == Reduce(Modulus(E), OperandValue(z))
  {
    var F := E.A.gf;
    var X :- Coerce(F, x);
    var Z :- Coerce(F, z);
    CoercedValue(F, x);
    CoercedValue(F, z);
    if !IsNonzero(X) && !IsNonzero(Z) then Err(InvalidProjectivePoint)
    else Ok(Point(E, X.v, Z.v))
  }

  /** Coercion into F yields the reduction of the operand's pair. */
  lemma CoercedValue(F: Field, o: Operand)
    requires F.p > 1 && (o.Elt? ==> Canonical(o.e))
    ensures Coerce(F, o).Ok? ==> Coerce(F, o).value.v == Reduce(F.p, OperandValue(o))
  {
    if Coerce(F, o).Ok? {
      match o
      case Int(n) =>
        CanonicalEquiv(F.p, Coerce(F, o).value.v, Reduce(F.p, Elem(n, 0)), Elem(n, 0));
      case Elt(e) =>
        ReduceValid(F.p, e.v);
    }
  }

  /** `E(x)`: the affine point (x : 1), which is never (0 : 0). */
  function NewAffinePoint(E: Curve, x: Operand): (r: Result<Point>)
    requires GoodCurve(E)
    requires x.Elt? ==> Canonical(x.e)
    ensures r.Err? <==> Foreign(E.A.gf, x)
    ensures r.Err? ==> r.error == FieldMismatch
    ensures r.Ok? ==> GoodPoint(r.value) && r.value.E == E && r.value.z == One()
    ensures r.Ok? ==> r.value.x == Reduce(Modulus(E), OperandValue(x))
  {
    SmallResidues(Modulus(E));
    NewPoint(E, x, Int(1))
  }

  /** `E(1, 0)`, the identity of the x-line, which `Curve.zero` returns. */
  function Origin(E: Curve): Point {
    Point(E, One(), Zero())
  }

  lemma OriginIsNewPoint(E: Curve)
    requires GoodCurve(E)
    ensures NewPoint(E, Int(1), Int(0)) == Ok(Origin(E))
    ensures GoodPoint(Origin(E))
  {
    SmallResidues(Modulus(E));
  }

  /** `KummerPoint.__bool__`: a point is truthy unless it is the identity, z == 0. */
  function IsFinite(P: Point): (r: bool)
    ensures r <==> P.z.re != 0 || P.z.im != 0
    ensures GoodPoint(P) && !r ==> P.x != Zero()
  {
    P.z != Zero()
  }

  /**
   `KummerPoint.__eq__`: TypeError unless both points lie on the same curve (comparing the
   curves may itself raise across fields); otherwise projective equality x1 z2 == z1 x2.
   */
  function PointEquals(P: Point, Q: Point): (r: Result<bool>)
    requires GoodCurve(P.E) && GoodCurve(Q.E)
    ensures r.Err? <==> P.E != Q.E
    ensures r.Err? ==> (r.error == FieldMismatch <==> P.E.A.gf != Q.E.A.gf)
    ensures r.Err? ==> r.error == FieldMismatch || r.error == DifferentCurves
    ensures r.Ok? ==> (r.value <==> Mul(Modulus(P.E), P.x, Q.z) == Mul(Modulus(P.E), P.z, Q.x))
  {
    var same :- CurveEquals(P.E, Q.E);
    if !same then Err(DifferentCurves)
    else Ok(Mul(Modulus(P.E), P.x, Q.z) == Mul(Modulus(P.E), P.z, Q.x))
  }

  /** A point equals the identity E(1, 0) exactly when its z-coordinate is zero. */
  lemma EqualsOriginIffInfinite(P: Point)
    requires GoodPoint(P)
    ensures PointEquals(P, Origin(P.E)) == Ok(!IsFinite(P))
  {
    var p := Modulus(P.E);
    MulZero(p, P.x);
    MulOne(p, P.z);
  }

  /** Projective equality is reflexive and symmetric. */
  lemma PointEqualsReflexiveSymmetric(P: Point, Q: Point)
    requires GoodPoint(P) && GoodPoint(Q) && P.E == Q.E
    ensures PointEquals(P, P) == Ok(true)
    ensures PointEquals(P, Q) == PointEquals(Q, P)
  {
    var p := Modulus(P.E);
    MulComm(p, P.x, P.z);
    MulComm(p, P.x, Q.z);
    MulComm(p, P.z, Q.x);
  }

  /** Over a field, projective equality is transitive: it is an equivalence on points. */
  lemma PointEqualsTransitive(P: Point, Q: Point, R: Point)
    requires GoodPoint(P) && GoodPoint(Q) && GoodPoint(R)
    requires P.E == Q.E == R.E
    requires IsPrime(Modulus(P.E)) && MinusOneIsNonSquare(Modulus(P.E))
    requires PointEquals(P, Q) == Ok(true) && PointEquals(Q, R) == Ok(true)
    ensures PointEquals(P, R) == Ok(true)
  {
    var p := Modulus(P.E);
    var x1, z1, x2, z2, x3, z3 := P.x, P.z, Q.x, Q.z, R.x, R.z;
    assert Mul(p, x1, z2) == Mul(p, z1, x2);
    assert Mul(p, x2, z3) == Mul(p, z2, x3);
    if z2 != Zero() {
      // x1 z3 z2 == z1 x2 z3 == z1 z2 x3, then cancel z2
      assert Mul(p, Mul(p, x1, z3), z2) == Mul(p, Mul(p, z1, x3), z2) by {
        calc {
          Mul(p, Mul(p, x1, z3), z2);
          { MulAssoc(p, x1, z3, z2); MulComm(p, z3, z2); MulAssoc(p, x1, z2, z3); }
          Mul(p, Mul(p, x1, z2), z3);
          Mul(p, Mul(p, z1, x2), z3);
          { MulAssoc(p, z1, x2, z3); }
          Mul(p, z1, Mul(p, x2, z3));
          Mul(p, z1, Mul(p, z2, x3));
          { MulAssoc(p, z1, z2, x3); MulComm(p, z1, z2); MulAssoc(p, z2, z1, x3);
            MulComm(p, z2, Mul(p, z1, x3)); }
          Mul(p, Mul(p, z1, x3), z2);
        }
      }
      CancelNonzero(p, Mul(p, x1, z3), Mul(p, z1, x3), z2);
    } else {
      assert x2 != Zero();
      MulZero(p, x1);
      MulZero(p, x3);
      assert Mul(p, z1, x2) == Zero();
      NoZeroDivisors(p, z1, x2);
      assert Mul(p, x2, z3) == Zero();
      NoZeroDivisors(p, x2, z3);
      MulZero(p, x1);
    }
  }

  /** Over a field a nonzero factor cancels: u c == v c implies u == v. */
  lemma CancelNonzero(p: int, u: Elem, v: Elem, c: Elem)
    requires IsPrime(p) && MinusOneIsNonSquare(p)
    requires Valid(p, u) && Valid(p, v) && Valid(p, c) && c != Zero()
    requires Mul(p, u, c) == Mul(p, v, c)
    ensures u == v
  {
    var d := Sub(p, u, v);
    assert Mul(p, d, c) == Zero() by {
      calc {
        Mul(p, d, c);
        { MulDistribRight(p, u, Neg(p, v), c); }
        Add(p, Mul(p, u, c), Mul(p, Neg(p, v), c));
        { MulComm(p, Neg(p, v), c); MulNeg(p, c, v); MulComm(p, c, v); }
        Sub(p, Mul(p, u, c), Mul(p, v, c));
        { SubSelf(p, Mul(p, v, c)); }
        Zero();
      }
    }
    NoZeroDivisors(p, d, c);
    SubZeroIff(p, u, v);
  }

  /* ---------------- normalization ---------------- */

  /** Both coordinates multiplied by s. */
  function Scale(P: Point, s: Elem): Point
    requires Modulus(P.E) > 1
  {
    Point(P.E, Mul(Modulus(P.E), P.x, s), Mul(Modulus(P.E), P.z, s))
  }

  /** Scaling by a nonzero factor does not change which point is named. */
  lemma ScalingKeepsClass(P: Point, s: Elem, Q: Point)
    requires GoodPoint(P) && GoodPoint(Q) && P.E == Q.E
    requires IsPrime(Modulus(P.E)) && MinusOneIsNonSquare(Modulus(P.E))
    requires Valid(Modulus(P.E), s) && s != Zero()
    ensures PointEquals(Scale(P, s), Q) == PointEquals(P, Q)
  {
    var p := Modulus(P.E);
    var l, r := Mul(p, P.x, Q.z), Mul(p, P.z, Q.x);
    assert Mul(p, Mul(p, P.x, s), Q.z) == Mul(p, l, s) by {
      MulAssoc(p, P.x, s, Q.z);
      MulComm(p, s, Q.z);
      MulAssoc(p, P.x, Q.z, s);
    }
    assert Mul(p, Mul(p, P.z, s), Q.x) == Mul(p, r, s) by {
      MulAssoc(p, P.z, s, Q.x);
      MulComm(p, s, Q.x);
      MulAssoc(p, P.z, Q.x, s);
    }
    if Mul(p, l, s) == Mul(p, r, s) {
      CancelNonzero(p, l, r, s);
    }
  }

  /**
   `_scale` as written, with its `x == s` and `z == s` shortcuts: a coordinate that happens to EQUAL the factor s
   is replaced by one instead of being multiplied by s.
   */
  function ScaleAsWritten(P: Point, s: Elem): (r: Point)
    requires Modulus(P.E) > 1
    ensures r.E == P.E
    ensures Mul(Modulus(P.E), P.z, s) == One() ==> r.z == One()
    ensures r.x != Mul(Modulus(P.E), P.x, s) ==> P.x == s && r.x == One()
  {
    Point(P.E,
          if P.x == s then One() else Mul(Modulus(P.E), P.x, s),
          if P.z == s then One() else Mul(Modulus(P.E), P.z, s))
  }

  /** The coordinate `_normalize` inverts: z, or x when z is zero. */
  function Pivot(P: Point): (r: Elem)
    ensures GoodPoint(P) ==> Valid(Modulus(P.E), r) && r != Zero()
  {
    if P.z != Zero() then P.z else P.x
  }

  /** `_normalize` as written: scale by the inverse of the pivot, with the `x == s` shortcut of `_scale`. */
  function NormalizeAsWritten(P: Point): (r: Result<Point>)
    requires Modulus(P.E) > 1
    ensures r.Err? <==> Inverse(Modulus(P.E), Pivot(P)).Err?
    ensures r.Err? ==> r.error == ZeroDivision
    ensures r.Ok? ==> r.value.E == P.E && Valid(Modulus(P.E), r.value.x) && Valid(Modulus(P.E), r.value.z)
    ensures r.Ok? && IsFinite(P) ==> r.value.z == One()
    ensures r.Ok? && !IsFinite(P) ==> r.value == Origin(P.E)
  {
    var p := Modulus(P.E);
    var s :- Inverse(p, Pivot(P));
    assert !IsFinite(P) ==> Mul(p, P.x, s) == One();
    assert !IsFinite(P) ==> s != Zero() && Mul(p, P.z, s) == Zero() by {
      MulZero(p, s);
      MulZero(p, P.x);
    }
    Ok(ScaleAsWritten(P, s))
  }

  /**
   Where the `x == s` shortcut of `_scale` misfires: a finite point whose x happens to equal 1/z while
   z^2 != 1.
   */
  predicate HitsShortcut(P: Point)
    requires Modulus(P.E) > 1
  {
    IsFinite(P) && Inverse(Modulus(P.E), P.z) == Ok(P.x) && Mul(Modulus(P.E), P.z, P.z) != One()
  }

  /**
   The corrected `_normalize`: both coordinates multiplied by the inverse of the pivot, so a
   finite point becomes (x/z : 1) and the identity becomes (1 : 0).
   */
  function Normalize(P: Point): (r: Result<Point>)
    requires Modulus(P.E) > 1
    ensures r.Err? ==> r.error == ZeroDivision
    ensures r.Ok? ==> r.value.E == P.E && Valid(Modulus(P.E), r.value.x) && Valid(Modulus(P.E), r.value.z)
    ensures r.Ok? && IsFinite(P) ==> r.value.z == One()
    ensures r.Ok? && !IsFinite(P) ==> r.value == Origin(P.E)
  {
    var p := Modulus(P.E);
    var s :- Inverse(p, Pivot(P));
    assert !IsFinite(P) ==> Mul(p, P.x, s) == One();
    assert !IsFinite(P) ==> Mul(p, P.z, s) == Zero() by {
      MulZero(p, s);
    }
    Ok(Scale(P, s))
  }

  /** Over a field every point can be normalized. */
  lemma NormalizeSucceedsOnPoints(P: Point)
    requires GoodPoint(P) && IsPrime(Modulus(P.E)) && MinusOneIsNonSquare(Modulus(P.E))
    ensures Normalize(P).Ok?
  {
    NonzeroIsInvertible(Modulus(P.E), Pivot(P));
  }

  /** Normalizing names the same point. */
  lemma NormalizeKeepsClass(P: Point)
    requires GoodPoint(P) && Normalize(P).Ok?
    ensures PointEquals(P, Normalize(P).value) == Ok(true)
  {
    var p := Modulus(P.E);
    var s := Inverse(p, Pivot(P)).value;
    calc {
      Mul(p, P.x, Mul(p, P.z, s));
      { MulAssoc(p, P.x, P.z, s); }
      Mul(p, Mul(p, P.x, P.z), s);
      { MulComm(p, P.x, P.z); }
      Mul(p, Mul(p, P.z, P.x), s);
      { MulAssoc(p, P.z, P.x, s); }
      Mul(p, P.z, Mul(p, P.x, s));
    }
  }

  /** The inverse of one is one. */
  lemma InverseOfOne(p: int)
    requires p > 1
    ensures Inverse(p, One()) == Ok(One())
  {
    SmallResidues(p);
    MulOne(p, One());
    InverseOfUnit(p, One(), One());
  }

  /** Normalizing a normalized point changes nothing. */
  lemma NormalizeIdempotent(P: Point)
    requires Modulus(P.E) > 1 && Normalize(P).Ok?
    ensures Normalize(Normalize(P).value) == Normalize(P)
  {
    var R := Normalize(P).value;
    NormalizedPivot(P);
    NormalizeAtPivotOne(R);
    ScaleByOne(R);
  }

  /** A normalized point has pivot one. */
  lemma NormalizedPivot(P: Point)
    requires Modulus(P.E) > 1 && Normalize(P).Ok?
    ensures Pivot(Normalize(P).value) == One()
  {
    SmallResidues(Modulus(P.E));
  }

  lemma NormalizeAtPivotOne(R: Point)
    requires Modulus(R.E) > 1 && Pivot(R) == One()
    ensures Normalize(R) == Ok(Scale(R, One()))
  {
    InverseOfOne(Modulus(R.E));
    NormalizeWith(R, One());
  }

  lemma ScaleByOne(R: Point)
    requires Modulus(R.E) > 1 && Valid(Modulus(R.E), R.x) && Valid(Modulus(R.E), R.z)
    ensures Scale(R, One()) == R
  {
    MulOne(Modulus(R.E), R.x);
    MulOne(Modulus(R.E), R.z);
  }

  /**
   The `x == s` shortcut of `_scale` only matters in one situation: a finite point whose x equals
   1/z while z^2 != 1. There the as-written result has x == 1 where the corrected one has
   x/z == 1/z^2 != 1; in every other situation both agree.
   */
  lemma NormalizeAsWrittenDiffersOnlyThere(P: Point)
    requires GoodPoint(P)
    ensures NormalizeAsWritten(P) != Normalize(P) <==> HitsShortcut(P)
  {
    var inv := Inverse(Modulus(P.E), Pivot(P));
    if inv.Ok? {
      NormalizeWith(P, inv.value);
      ScaleAsWrittenVersusScale(P, inv.value);
    }
  }

  /** Away from the shortcut, `_normalize` as written computes the corrected normal form. */
  lemma NormalizeAsWrittenOffShortcut(P: Point)
    requires GoodPoint(P) && !HitsShortcut(P)
    ensures NormalizeAsWritten(P) == Normalize(P)
  {
    NormalizeAsWrittenDiffersOnlyThere(P);
  }

  /** In the shortcut case `_normalize` as written turns the point into (1 : 1). */
  lemma ShortcutNormalForm(P: Point)
    requires GoodPoint(P) && HitsShortcut(P)
    ensures NormalizeAsWritten(P) == Ok(Point(P.E, One(), One()))
  {
    NormalizeWith(P, P.x);
  }

  /** Over a field `_normalize` as written never fails on a point. */
  lemma NormalizeAsWrittenSucceedsOnPoints(P: Point)
    requires GoodPoint(P) && IsPrime(Modulus(P.E)) && MinusOneIsNonSquare(Modulus(P.E))
    ensures NormalizeAsWritten(P).Ok?
  {
    NonzeroIsInvertible(Modulus(P.E), Pivot(P));
  }

  /** `_normalize` as written leaves an affine point alone. */
  lemma NormalizeAsWrittenAffine(N: Point)
    requires Modulus(N.E) > 1 && Valid(Modulus(N.E), N.x) && N.z == One()
    ensures NormalizeAsWritten(N) == Ok(N)
  {
    assert Inverse(Modulus(N.E), Pivot(N)) == Ok(One()) by {
      assert Pivot(N) == One();
      InverseOfOne(Modulus(N.E));
    }
    AsWrittenWith(N, One());
    ScaleAsWrittenByOne(N);
  }

  /** Scaling an affine point by one, shortcut included, leaves it as it is. */
  lemma ScaleAsWrittenByOne(N: Point)
    requires Modulus(N.E) > 1 && Valid(Modulus(N.E), N.x) && N.z == One()
    ensures ScaleAsWritten(N, One()) == N
  {
    assert ScaleAsWritten(N, One()).x == N.x by {
      MulOne(Modulus(N.E), N.x);
    }
  }

  /** Running `_normalize` as written twice gives what running it once gives. */
  lemma NormalizeAsWrittenIdempotent(P: Point)
    requires Modulus(P.E) > 1 && NormalizeAsWritten(P).Ok?
    ensures NormalizeAsWritten(NormalizeAsWritten(P).value) == NormalizeAsWritten(P)
  {
    NormalFormFixed(NormalizeAsWritten(P).value);
  }

  /** Both shapes of normal form, (x : 1) and (1 : 0), are fixed by `_normalize` as written. */
  lemma NormalFormFixed(R: Point)
    requires Modulus(R.E) > 1 && Valid(Modulus(R.E), R.x) && Valid(Modulus(R.E), R.z)
    requires R.z == One() || R == Origin(R.E)
    ensures NormalizeAsWritten(R) == Ok(R)
  {
    if R.z == One() {
      NormalizeAsWrittenAffine(R);
    } else {
      MulOne(Modulus(R.E), R.z);
      PivotOneFixed(R);
    }
  }

  /** A point (1 : z) with z z-times-one == z is its own normal form. */
  lemma PivotOneFixed(R: Point)
    requires Modulus(R.E) > 1 && R.x == One() && R.z != One()
    requires Pivot(R) == One() && Mul(Modulus(R.E), R.z, One()) == R.z
    ensures NormalizeAsWritten(R) == Ok(R)
  {
    InverseOfOne(Modulus(R.E));
    AsWrittenWith(R, One());
  }

  lemma AsWrittenWith(P: Point, s: Elem)
    requires Modulus(P.E) > 1 && Inverse(Modulus(P.E), Pivot(P)) == Ok(s)
    ensures NormalizeAsWritten(P) == Ok(ScaleAsWritten(P, s))
  {
  }

  /** Normalization scales by the inverse of the pivot. */
  lemma NormalizeWith(P: Point, s: Elem)
    requires Modulus(P.E) > 1 && Inverse(Modulus(P.E), Pivot(P)) == Ok(s)
    ensures Normalize(P) == Ok(Scale(P, s))
    ensures NormalizeAsWritten(P) == Ok(ScaleAsWritten(P, s))
  {
  }

  /** With s the inverse of the pivot, the two scalings differ only in the shortcut case. */
  lemma ScaleAsWrittenVersusScale(P: Point, s: Elem)
    requires GoodPoint(P) && Valid(Modulus(P.E), s)
    requires Mul(Modulus(P.E), Pivot(P), s) == One()
    ensures ScaleAsWritten(P, s) != Scale(P, s)
            <==> IsFinite(P) && P.x == s && Mul(Modulus(P.E), P.z, P.z) != One()
  {
    var p := Modulus(P.E);
    if IsFinite(P) {
      // the z-coordinate: when z == s the product z s is one anyway
      if P.x == s {
        InverseSquare(p, P.z, s);
      }
    } else {
      // the identity: x s == 1, so x == s also gives one, and z == 0 != s
      MulZero(p, P.x);
    }
  }

  /** For z s == 1: s^2 == 1 exactly when z^2 == 1. */
  lemma InverseSquare(p: int, z: Elem, s: Elem)
    requires p > 1 && Valid(p, z) && Valid(p, s)
    requires Mul(p, z, s) == One()
    ensures Mul(p, s, s) == One() <==> Mul(p, z, z) == One()
  {
    var zz, ss := Mul(p, z, z), Mul(p, s, s);
    assert Mul(p, zz, ss) == One() by {
      MulRegroup(p, z, z, s, s);
      MulOne(p, One());
    }
    MulOne(p, zz);
    MulOne(p, ss);
  }

  /**
   The input that shows it: on any curve over F_p(i) with p == 2k + 1 > 3, the point
   (k + 1 : 2), whose x is 1/2 (over F_7(i) the point (4 : 2), which is (2 : 1)), normalizes
   to (1 : 1), a different point, while the corrected normalization stays in its class.
   */
  lemma NormalizeAsWrittenCounterexample(E: Curve, k: int)
    requires GoodCurve(E) && Modulus(E) == 2 * k + 1 && k >= 2
    ensures GoodPoint(Point(E, Elem(k + 1, 0), Elem(2, 0)))
    ensures NormalizeAsWritten(Point(E, Elem(k + 1, 0), Elem(2, 0))) == Ok(Point(E, One(), One()))
    ensures PointEquals(Point(E, Elem(k + 1, 0), Elem(2, 0)), Point(E, One(), One())) == Ok(false)
    ensures Normalize(Point(E, Elem(k + 1, 0), Elem(2, 0)))
            != NormalizeAsWritten(Point(E, Elem(k + 1, 0), Elem(2, 0)))
  {
    ShortcutIsTaken(E, k);
    ShortcutLeavesTheClass(E, k);
    CorrectedStaysInClass(E, k);
  }

  lemma ShortcutIsTaken(E: Curve, k: int)
    requires GoodCurve(E) && Modulus(E) == 2 * k + 1 && k >= 2
    ensures NormalizeAsWritten(Point(E, Elem(k + 1, 0), Elem(2, 0))) == Ok(Point(E, One(), One()))
  {
    var P := Point(E, Elem(k + 1, 0), Elem(2, 0));
    HalfIsInverseOfTwo(k);
    NormalizeWith(P, P.x);
  }

  lemma ShortcutLeavesTheClass(E: Curve, k: int)
    requires GoodCurve(E) && Modulus(E) == 2 * k + 1 && k >= 2
    ensures GoodPoint(Point(E, Elem(k + 1, 0), Elem(2, 0)))
    ensures PointEquals(Point(E, Elem(k + 1, 0), Elem(2, 0)), Point(E, One(), One())) == Ok(false)
  {
    var P := Point(E, Elem(k + 1, 0), Elem(2, 0));
    assert GoodPoint(P) && P.x != P.z;
    AffineComparison(P);
  }

  lemma CorrectedStaysInClass(E: Curve, k: int)
    requires GoodCurve(E) && Modulus(E) == 2 * k + 1 && k >= 2
    ensures Normalize(Point(E, Elem(k + 1, 0), Elem(2, 0))).Ok?
    ensures PointEquals(Point(E, Elem(k + 1, 0), Elem(2, 0)),
                        Normalize(Point(E, Elem(k + 1, 0), Elem(2, 0))).value) == Ok(true)
  {
    var P := Point(E, Elem(k + 1, 0), Elem(2, 0));
    HalfIsInverseOfTwo(k);
    NormalizeWith(P, P.x);
    NormalizeKeepsClass(P);
  }

  /** 1/2 == k + 1 modulo 2k + 1. */
  lemma HalfIsInverseOfTwo(k: int)
    requires k >= 1
    ensures Inverse(2 * k + 1, Elem(2, 0)) == Ok(Elem(k + 1, 0))
  {
    var p := 2 * k + 1;
    assert Mul(p, Elem(2, 0), Elem(k + 1, 0)) == One() by {
      assert GaussMul(Elem(2, 0), Elem(k + 1, 0)) == Elem(p + 1, 0);
      ModUnique(p + 1, 1, 1, p);
      ModUnique(0, 0, 0, p);
    }
    InverseOfUnit(p, Elem(2, 0), Elem(k + 1, 0));
  }

  /** A point equals the affine point (1 : 1) exactly when its coordinates agree. */
  lemma AffineComparison(P: Point)
    requires GoodPoint(P)
    ensures PointEquals(P, Point(P.E, One(), One())) == Ok(P.x == P.z)
  {
    MulOne(Modulus(P.E), P.x);
    MulOne(Modulus(P.E), P.z);
  }

  /* ---------------- x-coordinates of the curve ---------------- */

  /** The right-hand side x^3 + A x^2 + x of the curve equation. */
  function MontgomeryRhs(p: int, a: Elem, x: Elem): (r: Elem)
    requires p > 1
    ensures Valid(p, r)
  {
    var xx := Mul(p, x, x);
    Add(p, Add(p, Mul(p, x, xx), Mul(p, a, xx)), x)
  }

  /**
   `is_x_coordinate`: x is the abscissa of a point of the curve over the field exactly
   when x^3 + A x^2 + x is a square. `A + x` raises TypeError for a foreign x.
   */
  function IsXCoordinate(E: Curve, x: FieldElement): (r: Result<bool>)
    requires GoodCurve(E) && Canonical(x)
    ensures r.Err? <==> x.gf != E.A.gf
    ensures r.Err? ==> r.error == FieldMismatch
    ensures r.Ok? ==> (r.value <==> IsSquare(Modulus(E), MontgomeryRhs(Modulus(E), E.A.v, x.v)))
  {
    var t :- Plus(E.A, Elt(x));
    var u := Times(x, Elt(t)).value;
    var w := Plus(u, Int(1)).value;
    var v := Times(x, Elt(w)).value;
    assert v.v == MontgomeryRhs(Modulus(E), E.A.v, x.v) by {
      SmallResidues(Modulus(E));
      HornerForm(Modulus(E), E.A.v, x.v);
    }
    Ok(IsSquareElement(v))
  }

  /** x (x (A + x) + 1) == x^3 + A x^2 + x */
  lemma HornerForm(p: int, a: Elem, x: Elem)
    requires p > 1 && Valid(p, x)
    ensures Mul(p, x, Add(p, Mul(p, x, Add(p, a, x)), One())) == MontgomeryRhs(p, a, x)
  {
    var xx := Mul(p, x, x);
    calc {
      Mul(p, x, Mul(p, x, Add(p, a, x)));
      { MulAssoc(p, x, x, Add(p, a, x)); }
      Mul(p, xx, Add(p, a, x));
      { MulDistrib(p, xx, a, x); }
      Add(p, Mul(p, xx, a), Mul(p, xx, x));
      { MulComm(p, xx, a); MulComm(p, xx, x); AddComm(p, Mul(p, a, xx), Mul(p, x, xx)); }
      Add(p, Mul(p, x, xx), Mul(p, a, xx));
    }
    MulDistrib(p, x, Mul(p, x, Add(p, a, x)), One());
    MulOne(p, x);
  }

  /** The abscissa of every affine point (x, y) of the curve passes the test ... */
  lemma CurvePointsAreXCoordinates(E: Curve, x: FieldElement, y: Elem)
    requires GoodCurve(E) && Canonical(x) && x.gf == E.A.gf
    requires Modulus(E) % 2 == 1 && LagrangeOrder(Modulus(E))
    requires Valid(Modulus(E), y)
    requires Mul(Modulus(E), y, y) == MontgomeryRhs(Modulus(E), E.A.v, x.v)
    ensures IsXCoordinate(E, x) == Ok(true)
  {
    var p := Modulus(E);
    assert IsSquare(p, MontgomeryRhs(p, E.A.v, x.v)) by {
      SquaresPassEulerCriterion(p, y);
    }
  }

  /** ... in particular x == 0, the abscissa of the point (0, 0) of order two. */
  lemma ZeroIsXCoordinate(E: Curve)
    requires GoodCurve(E)
    ensures IsXCoordinate(E, Element(E.A.gf, 0, 0)) == Ok(true)
  {
    var p := Modulus(E);
    SmallResidues(p);
    var xx := Mul(p, Zero(), Zero());
    MulZero(p, Zero());
    MulZero(p, E.A.v);
    AddZero(p, Zero());
  }

  /* ---------------- x-only arithmetic ---------------- */

  /**
   The doubling formula (A, X1, Z1) -> (X, Z) of [2]P and the differential addition formula
   (X2, Z2, X3, Z3, X1, Z1) -> (X, Z) of P + Q from P, Q and P - Q; curve.py leaves both open.
   */
  datatype XFormulas = XFormulas(
    dbl: (Elem, Elem, Elem) -> (Elem, Elem),
    add: (Elem, Elem, Elem, Elem, Elem, Elem) -> (Elem, Elem))

  /** `xDBL`: ValueError for a point of another curve, TypeError across fields. */
  function XDbl(f: XFormulas, E: Curve, P: Point): (r: Result<Point>)
    requires GoodCurve(E) && GoodCurve(P.E)
    ensures r.Ok? <==> P.E == E
    ensures r.Err? ==> r.error == (if P.E.A.gf != E.A.gf then FieldMismatch else NotOnThisCurve)
    ensures r.Ok? ==> r.value == DblPoint(f, E, P)
  {
    var same :- CurveEquals(P.E, E);
    if !same then Err(NotOnThisCurve)
    else Ok(DblPoint(f, E, P))
  }

  /** The point of E whose coordinates the doubling formula gives for P. */
  function DblPoint(f: XFormulas, E: Curve, P: Point): Point {
    var (X, Z) := f.dbl(E.A.v, P.x, P.z);
    Point(E, X, Z)
  }

  /**
   `xADD`: the chained test `P.E == Q.E == PQ.E == self` compares neighbours left to right
   and stops at the first inequality (or TypeError).
   */
  function XAdd(f: XFormulas, E: Curve, P: Point, Q: Point, PQ: Point): (r: Result<Point>)
    requires GoodCurve(E) && GoodCurve(P.E) && GoodCurve(Q.E) && GoodCurve(PQ.E)
    ensures r.Ok? <==> P.E == E && Q.E == E && PQ.E == E
    ensures r.Err? ==> r.error == FieldMismatch || r.error == NotOnThisCurve
    ensures r.Err? && P.E.A.gf == Q.E.A.gf == PQ.E.A.gf == E.A.gf ==> r.error == NotOnThisCurve
    ensures r.Ok? ==> r.value == AddPoint(f, E, P, Q, PQ)
  {
    var b1 :- CurveEquals(P.E, Q.E);
    if !b1 then Err(NotOnThisCurve)
    else
      var b2 :- CurveEquals(Q.E, PQ.E);
      if !b2 then Err(NotOnThisCurve)
      else
        var b3 :- CurveEquals(PQ.E, E);
        if !b3 then Err(NotOnThisCurve)
        else Ok(AddPoint(f, E, P, Q, PQ))
  }

  /** The point of E whose coordinates the differential addition formula gives for P, Q, P - Q. */
  function AddPoint(f: XFormulas, E: Curve, P: Point, Q: Point, PQ: Point): Point {
    var (X, Z) := f.add(P.x, P.z, Q.x, Q.z, PQ.x, PQ.z);
    Point(E, X, Z)
  }

  /* ---------------- scalar multiplication ---------------- */

  /** The loop body left open in the source: it sees R0, R1, the point, n and k. */
  type LadderBody = (Point, Point, Point, nat, nat) -> (Point, Point)

  /**
   The loop of `KummerPoint.__mul__`: k runs from `n.bit_length() - 1` down to 0, each
   iteration maps (R0, R1) through the loop body, and R0 is the result.
   */
  function LadderLoop(body: LadderBody, P: Point, n: nat, R0: Point, R1: Point, k: int): Point
    decreases k + 1
  {
    if k < 0 then R0
    else
      var next := body(R0, R1, P, n, k);
      LadderLoop(body, P, n, next.0, next.1, k - 1)
  }

  /**
   `KummerPoint.__mul__` (and `__rmul__`): the identity is returned as is; otherwise the
   sign of the scalar is dropped and the loop runs from (R0, R1) == (E(1, 0), P).
   */
  function ScalarMul(body: LadderBody, P: Point, n: int): (R: Point)
    ensures !IsFinite(P) ==> R == P
    ensures IsFinite(P) && n == 0 ==> R == Origin(P.E)
  {
    if !IsFinite(P) then P
    else LadderLoop(body, P, Abs(n), Origin(P.E), P, BitLength(Abs(n)) - 1)
  }

  function Abs(n: int): nat {
    if n < 0 then -n else n
  }

  /**
   The textbook Montgomery ladder on the multiples (r0, r1) of the point: bit 1 maps it to
   (r0 + r1, 2 r1), bit 0 to (2 r0, r0 + r1).
   */
  function MultiplesLoop(n: nat, r0: int, r1: int, k: int): int
    decreases k + 1
  {
    if k < 0 then r0
    else if Bit(n, k) == 1 then MultiplesLoop(n, r0 + r1, 2 * r1, k - 1)
    else MultiplesLoop(n, 2 * r0, r0 + r1, k - 1)
  }

  /** With r0 == n >> (k + 1) and r1 == r0 + 1 the remaining iterations produce n. */
  lemma {:induction false} MultiplesLoopInvariant(n: nat, r0: int, k: int)
    requires k >= -1
    requires r0 == n / Pow2(k + 1)
    ensures MultiplesLoop(n, r0, r0 + 1, k) == n
    decreases k + 1
  {
    if k >= 0 {
      ShiftStep(n, k);
      MultiplesLoopInvariant(n, n / Pow2(k), k - 1);
    }
  }

  /** Started from (0, 1) at the top bit, the ladder on multiples yields n. */
  lemma MultiplesLoopComputesN(n: nat)
    ensures MultiplesLoop(n, 0, 1, BitLength(n) - 1) == n
  {
    ShiftPastTop(n);
    MultiplesLoopInvariant(n, 0, BitLength(n) - 1);
  }

  /**
   `names(R, m)` reads R as the x-coordinate of the multiple m P. A point may carry many
   names: every m' == +-m modulo the order of P names the same x-coordinate.
   */
  type MultipleNaming = (Point, int) -> bool

  /**
   The loop body performs a Montgomery ladder step: on a pair named (r, r + 1), so that
   R1 - R0 == P, bit 1 gives (2r + 1, 2r + 2) and bit 0 gives (2r, 2r + 1). Only such pairs
   are constrained, which is all a textbook step with xADD(R0, R1, P) and xDBL can promise;
   that promise needs x(P) to be neither 0 nor infinity.
   */
  ghost predicate StepsOnMultiples(body: LadderBody, P: Point, n: nat, names: MultipleNaming) {
    forall R0, R1, k: nat, r {:trigger body(R0, R1, P, n, k), names(R0, r)} ::
      names(R0, r) && names(R1, r + 1)
      ==> names(body(R0, R1, P, n, k).0, 2 * r + Bit(n, k))
          && names(body(R0, R1, P, n, k).1, 2 * r + Bit(n, k) + 1)
  }

  /** What a step on a pair named (r, r + 1) gives. */
  lemma StepNames(body: LadderBody, P: Point, n: nat, names: MultipleNaming,
                  R0: Point, R1: Point, r: int, k: nat)
    requires StepsOnMultiples(body, P, n, names)
    requires names(R0, r) && names(R1, r + 1)
    ensures names(body(R0, R1, P, n, k).0, 2 * r + Bit(n, k))
    ensures names(body(R0, R1, P, n, k).1, 2 * r + Bit(n, k) + 1)
  {
  }

  /** One step of the integer ladder on a pair (r, r + 1). */
  lemma MultiplesLoopStep(n: nat, r: int, k: int)
    requires k >= 0
    ensures MultiplesLoop(n, r, r + 1, k)
            == MultiplesLoop(n, 2 * r + Bit(n, k), 2 * r + Bit(n, k) + 1, k - 1)
  {
  }

  /** Names that every step respects are respected by the whole loop. */
  lemma {:induction false} LoopFollowsMultiples(body: LadderBody, P: Point, n: nat,
      names: MultipleNaming, R0: Point, R1: Point, r: int, k: int)
    requires StepsOnMultiples(body, P, n, names)
    requires names(R0, r) && names(R1, r + 1)
    ensures names(LadderLoop(body, P, n, R0, R1, k), MultiplesLoop(n, r, r + 1, k))
    decreases k + 1
  {
    if k >= 0 {
      var next := body(R0, R1, P, n, k);
      var r' := 2 * r + Bit(n, k);
      StepNames(body, P, n, names, R0, R1, r, k);
      LoopFollowsMultiples(body, P, n, names, next.0, next.1, r', k - 1);
      MultiplesLoopStep(n, r, k);
    }
  }

  /**
   The loop of `__mul__` computes |n| times the point when its body is a Montgomery ladder
   step: for any naming of points as multiples of P with E(1, 0) named 0 and P named 1
   that the body respects, the result is named |n|.
   */
  lemma ScalarMulComputesMultiple(body: LadderBody, P: Point, n: int, names: MultipleNaming)
    requires IsFinite(P)
    requires names(Origin(P.E), 0) && names(P, 1)
    requires StepsOnMultiples(body, P, Abs(n), names)
    ensures names(ScalarMul(body, P, n), Abs(n))
  {
    LoopFollowsMultiples(body, P, Abs(n), names, Origin(P.E), P, 0, BitLength(Abs(n)) - 1);
    MultiplesLoopComputesN(Abs(n));
  }

  /* ---------------- a ladder body with finitely many values ---------------- */

  /** The coordinates of m P for a point P of order 4, written as (1 : 0), (1 : 1), (2 : 1), (3 : 1). */
  function CyclicCoordinates(m: int): (Elem, Elem) {
    if m % 4 == 0 then (One(), Zero()) else (Elem(m % 4, 0), One())
  }

  function CyclicNames(R: Point, m: int): bool {
    (R.x, R.z) == CyclicCoordinates(m)
  }

  /** The residue mod 4 that `CyclicCoordinates` gives a point. */
  function CyclicIndex(R: Point): int {
    if R.z == Zero() then 0 else R.x.re
  }

  /** A ladder step on the cyclic group of order 4 through `CyclicCoordinates`. */
  function CyclicBody(R0: Point, R1: Point, P: Point, n: nat, k: nat): (Point, Point) {
    var m := 2 * CyclicIndex(R0) + Bit(n, k);
    var (x0, z0) := CyclicCoordinates(m);
    var (x1, z1) := CyclicCoordinates(m + 1);
    (Point(R0.E, x0, z0), Point(R0.E, x1, z1))
  }

  lemma CyclicIndexOfName(R: Point, m: int)
    requires CyclicNames(R, m)
    ensures CyclicIndex(R) == m % 4
  {
  }

  /**
   The hypotheses of `ScalarMulComputesMultiple` are met by a body whose values repeat:
   on (1 : 1) named 1, the cyclic body respects the names for every n, and 4 times the
   point comes back to E(1, 0).
   */
  lemma PeriodicBodyStepsOnMultiples(E: Curve, n: nat)
    ensures IsFinite(Point(E, One(), One()))
    ensures CyclicNames(Origin(E), 0) && CyclicNames(Point(E, One(), One()), 1)
    ensures StepsOnMultiples(CyclicBody, Point(E, One(), One()), n, CyclicNames)
    ensures ScalarMul(CyclicBody, Point(E, One(), One()), 4) == Origin(E)
  {
    var P := Point(E, One(), One());
    forall R0, R1, k: nat, r | CyclicNames(R0, r) && CyclicNames(R1, r + 1)
      ensures CyclicNames(CyclicBody(R0, R1, P, n, k).0, 2 * r + Bit(n, k))
      ensures CyclicNames(CyclicBody(R0, R1, P, n, k).1, 2 * r + Bit(n, k) + 1)
    {
      CyclicStep(R0, R1, P, n, k, r);
    }
    PeriodicBodyReturns(E);
  }

  /** The cyclic body on a pair named (r, r + 1). */
  lemma CyclicStep(R0: Point, R1: Point, P: Point, n: nat, k: nat, r: int)
    requires CyclicNames(R0, r)
    ensures CyclicNames(CyclicBody(R0, R1, P, n, k).0, 2 * r + Bit(n, k))
    ensures CyclicNames(CyclicBody(R0, R1, P, n, k).1, 2 * r + Bit(n, k) + 1)
  {
    var b := Bit(n, k);
    var m := 2 * CyclicIndex(R0) + b;
    CyclicIndexOfName(R0, r);
    CyclicShift(r, b);
    CyclicCoordinatesMod(m, 2 * r + b);
    CyclicCoordinatesMod(m + 1, 2 * r + b + 1);
  }

  /** `CyclicCoordinates` depends only on the residue mod 4. */
  lemma CyclicCoordinatesMod(m: int, m': int)
    requires m % 4 == m' % 4
    ensures CyclicCoordinates(m) == CyclicCoordinates(m')
  {
  }

  /** 2 (r mod 4) + b and 2 r + b agree mod 4. */
  lemma CyclicShift(r: int, b: int)
    ensures (2 * (r % 4) + b) % 4 == (2 * r + b) % 4
    ensures (2 * (r % 4) + b + 1) % 4 == (2 * r + b + 1) % 4
  {
    var q, rr := r / 4, r % 4;
    assert 2 * r + b == 2 * rr + b + (2 * q) * 4;
    assert 2 * r + b + 1 == 2 * rr + b + 1 + (2 * q) * 4;
    ModAddMultiple(2 * rr + b, 2 * q, 4);
    ModAddMultiple(2 * rr + b + 1, 2 * q, 4);
  }

  /** 4 (1 : 1) == (1 : 0) through the cyclic body. */
  lemma PeriodicBodyReturns(E: Curve)
    ensures ScalarMul(CyclicBody, Point(E, One(), One()), 4) == Origin(E)
  {
    var P := Point(E, One(), One());
    assert BitLength(4) == 3 by {
      assert BitLength(1) == 1 + BitLength(0);
    }
    assert Bit(4, 2) == 1 && Bit(4, 1) == 0 && Bit(4, 0) == 0 by {
      assert Pow2(2) == 4 && Pow2(1) == 2 && Pow2(0) == 1;
    }
    var (a0, a1) := CyclicBody(Origin(E), P, P, 4, 2);
    assert (a0.x, a0.z) == CyclicCoordinates(1);
    var (b0, b1) := CyclicBody(a0, a1, P, 4, 1);
    assert (b0.x, b0.z) == CyclicCoordinates(2);
    var (c0, c1) := CyclicBody(b0, b1, P, 4, 0);
    assert c0 == Origin(E);
  }
}

=== FILE: errors.dfy ===
/**
 The failure kinds raised by the field, curve, isogeny and protocol code, and a
 failure-compatible Result type so that `:-` propagates them the way an uncaught
 Python exception propagates to the caller.
 */
module Errors {

  /** One constructor per distinct `raise` (or failing `assert`) of the source. */
  datatype Error =
    | NotPrime                  // ValueError: the field modulus is not prime
    | ModulusNotThreeModFour    // NotImplementedError: p % 4 != 3
    | FieldMismatch             // TypeError: elements of distinct fields combined or compared
    | ZeroDivision              // ZeroDivisionError: inverting an element of zero norm
    | NotASquare                // ArithmeticError: the square root does not square back
    | SingularCurve             // ValueError: Montgomery coefficient A == 2 or A == -2
    | InvalidProjectivePoint    // ValueError: the projective pair (0:0)
    | NotOnThisCurve            // ValueError: xDBL/xADD given a point of another curve
    | DifferentCurves           // TypeError: comparing points of distinct curves
    | NotOrderTwo               // ValueError: 2-isogeny kernel is not of order 2
    | AssertionFailed           // AssertionError: a failing `assert` in the source
    | EmptyChain                // IndexError: `steps[-1]` of an empty chain

  datatype Result<+T> = Ok(value: T) | Err(error: Error) {

    predicate IsFailure() {
      Err?
    }

    function PropagateFailure<U>(): Result<U>
      requires Err?
    {
      Err(error)
    }

    function Extract(): T
      requires Ok?
    {
      value
    }
  }
}

=== FILE: field.dfy ===
/**
 The checked layer of field.py: a field object `Field(p)` validated on construction,
 elements tagged with their field, and the operators that coerce Python integers into
 the field and raise TypeError when elements of two distinct fields meet. The
 arithmetic itself is that of module Fp2 and Fp2Pow on canonical pairs.
 */
module Field {
  import opened Errors
  import opened ModArith
  import opened Fp2
  import opened Fp2Pow

  /** F_p(i) with i^2 = -1. Two fields are equal exactly when their moduli are. */
  datatype Field = Field(p: int)

  /** What `Field(p)` establishes: p is prime and p = 3 (mod 4). */
  predicate WellFormed(F: Field) {
    IsPrime(F.p) && F.p % 4 == 3
  }

  /** `Field.__init__`: primality is checked before the residue of p modulo 4. */
  function NewField(p: int): (r: Result<Field>)
    ensures r.Ok? <==> IsPrime(p) && p % 4 == 3
    ensures r.Ok? ==> r.value.p == p && WellFormed(r.value)
    ensures r.Err? ==> (r.error == NotPrime <==> !IsPrime(p))
    ensures r.Err? ==> r.error == NotPrime || r.error == ModulusNotThreeModFour
  {
    if !IsPrime(p) then Err(NotPrime)
    else if p % 4 != 3 then Err(ModulusNotThreeModFour)
    else Ok(Field(p))
  }

  /** An element re + im*i of the field gf, stored as its canonical pair. */
  datatype FieldElement = FieldElement(gf: Field, v: Elem)

  /** The elements the constructor can produce: both coordinates reduced modulo p. */
  predicate Canonical(x: FieldElement) {
    x.gf.p > 1 && Valid(x.gf.p, x.v)
  }

  /** `FieldElement(gf, re, im)`: both integers are reduced modulo p. */
  function Element(F: Field, re: int, im: int): (x: FieldElement)
    requires F.p > 1
    ensures x.gf == F && Canonical(x)
    ensures Equiv(F.p, x.v, Elem(re, im))
  {
    FieldElement(F, Reduce(F.p, Elem(re, im)))
  }

  /** The right operand of a Python operator: a plain integer or a field element. */
  datatype Operand = Int(n: int) | Elt(e: FieldElement)

  /**
   `Field.__call__` with one argument: an integer becomes the element (n : 0), an element
   of this field is returned as is, an element of another field raises TypeError.
   */
  function Coerce(F: Field, o: Operand): (r: Result<FieldElement>)
    requires F.p > 1
    ensures r.Err? <==> o.Elt? && o.e.gf != F
    ensures r.Err? ==> r.error == FieldMismatch
    ensures r.Ok? ==> r.value.gf == F
    ensures r.Ok? && o.Int? ==> Canonical(r.value) && Equiv(F.p, r.value.v, Elem(o.n, 0))
    ensures r.Ok? && o.Elt? ==> r.value == o.e
  {
    match o
    case Int(n) => Ok(Element(F, n, 0))
    case Elt(e) => if e.gf != F then Err(FieldMismatch) else Ok(e)
  }

  /** The right operand after the coercion every binary operator applies to non-elements. */
  function AsElement(F: Field, o: Operand): FieldElement
    requires F.p > 1
  {
    match o
    case Int(n) => Element(F, n, 0)
    case Elt(e) => e
  }

  /** `__eq__`: raises TypeError across fields, otherwise compares both coordinates. */
  function Equals(x: FieldElement, o: Operand): (r: Result<bool>)
    requires x.gf.p > 1
    ensures r.Err? <==> o.Elt? && o.e.gf != x.gf
    ensures r.Err? ==> r.error == FieldMismatch
    ensures r.Ok? && o.Elt? ==> (r.value <==> x.v == o.e.v)
    ensures r.Ok? && o.Int? && Canonical(x) ==> (r.value <==> Equiv(x.gf.p, x.v, Elem(o.n, 0)))
  {
    var y := AsElement(x.gf, o);
    if y.gf != x.gf then Err(FieldMismatch)
    else
      assert o.Int? && Canonical(x) ==> (x.v == y.v <==> Equiv(x.gf.p, x.v, Elem(o.n, 0))) by {
        if o.Int? && Canonical(x) && Equiv(x.gf.p, x.v, Elem(o.n, 0)) {
          CanonicalEquiv(x.gf.p, x.v, y.v, Elem(o.n, 0));
        }
      }
      Ok(x.v == y.v)
  }

  /** Two canonical pairs congruent to the same pair are equal. */
  lemma CanonicalEquiv(p: int, a: Elem, b: Elem, c: Elem)
    requires p > 1 && Valid(p, a) && Valid(p, b)
    requires Equiv(p, a, c) && Equiv(p, b, c)
    ensures a == b
  {
    ReduceEquiv(p, a, b);
    ReduceValid(p, a);
    ReduceValid(p, b);
  }

  /** `__bool__`: an element is truthy unless both coordinates are zero. */
  function IsNonzero(x: FieldElement): (r: bool)
    ensures r <==> x.v != Zero()
  {
    x.v.re != 0 || x.v.im != 0
  }

  /** `__neg__` */
  function Negate(x: FieldElement): (r: FieldElement)
    requires x.gf.p > 1
    ensures r.gf == x.gf && Canonical(r)
    ensures Add(x.gf.p, x.v, r.v) == Zero()
  {
    assert Add(x.gf.p, x.v, Neg(x.gf.p, x.v)) == Zero() by {
      SubSelf(x.gf.p, x.v);
    }
    FieldElement(x.gf, Neg(x.gf.p, x.v))
  }

  /** `__add__` (and `__radd__`): the integer operand is coerced first, a foreign element raises. */
  function Plus(x: FieldElement, o: Operand): (r: Result<FieldElement>)
    requires x.gf.p > 1
    ensures r.Err? <==> o.Elt? && o.e.gf != x.gf
    ensures r.Err? ==> r.error == FieldMismatch
    ensures r.Ok? ==> r.value == FieldElement(x.gf, Add(x.gf.p, x.v, AsElement(x.gf, o).v))
  {
    var y := AsElement(x.gf, o);
    if y.gf != x.gf then Err(FieldMismatch)
    else Ok(FieldElement(x.gf, Add(x.gf.p, x.v, y.v)))
  }

  /** `__mul__` (and `__rmul__`). */
  function Times(x: FieldElement, o: Operand): (r: Result<FieldElement>)
    requires x.gf.p > 1
    ensures r.Err? <==> o.Elt? && o.e.gf != x.gf
    ensures r.Err? ==> r.error == FieldMismatch
    ensures r.Ok? ==> r.value == FieldElement(x.gf, Mul(x.gf.p, x.v, AsElement(x.gf, o).v))
  {
    var y := AsElement(x.gf, o);
    if y.gf != x.gf then Err(FieldMismatch)
    else Ok(FieldElement(x.gf, Mul(x.gf.p, x.v, y.v)))
  }

  /** The integer or element -o, negated in its own field before the addition sees it. */
  function NegateOperand(o: Operand): Operand
    requires o.Elt? ==> o.e.gf.p > 1
  {
    match o
    case Int(n) => Int(-n)
    case Elt(e) => Elt(Negate(e))
  }

  /** `__sub__`: self + (-other). */
  function Minus(x: FieldElement, o: Operand): (r: Result<FieldElement>)
    requires x.gf.p > 1
    requires o.Elt? ==> o.e.gf.p > 1
    ensures r.Err? <==> o.Elt? && o.e.gf != x.gf
    ensures r.Ok? ==> r.value.gf == x.gf
    ensures r.Ok? ==> Add(x.gf.p, r.value.v, AsElement(x.gf, o).v) == Reduce(x.gf.p, x.v)
  {
    MinusUndoesPlus(x, o);
    Plus(x, NegateOperand(o))
  }

  lemma MinusUndoesPlus(x: FieldElement, o: Operand)
    requires x.gf.p > 1
    requires o.Elt? ==> o.e.gf.p > 1
    ensures var r := Plus(x, NegateOperand(o));
            r.Ok? ==> Add(x.gf.p, r.value.v, AsElement(x.gf, o).v) == Reduce(x.gf.p, x.v)
  {
    var p := x.gf.p;
    var r := Plus(x, NegateOperand(o));
    if r.Ok? {
      var y := AsElement(x.gf, o);
      var n := AsElement(x.gf, NegateOperand(o));
      assert r.value.v == Add(p, x.v, n.v);
      assert Equiv(p, n.v, GaussNeg(y.v)) by {
        match o
        case Int(k) =>
          NegatedInteger(p, k);
        case Elt(e) =>
      }
      MinusThenPlus(p, x.v, y.v, n.v);
    }
  }

  /** The reduction of -k is congruent to the negated reduction of k. */
  lemma NegatedInteger(p: int, k: int)
    requires p > 1
    ensures Equiv(p, Reduce(p, Elem(-k, 0)), GaussNeg(Reduce(p, Elem(k, 0))))
  {
    var a := Reduce(p, Elem(k, 0));
    CongNeg(p, a.re, k);
    CongNeg(p, a.im, 0);
    assert Equiv(p, GaussNeg(a), Elem(-k, 0));
  }

  /** (x + n) + y == x when n + y == 0. */
  lemma MinusThenPlus(p: int, x: Elem, y: Elem, n: Elem)
    requires p > 1
    requires Equiv(p, n, GaussNeg(y))
    ensures Add(p, Add(p, x, n), y) == Reduce(p, x)
  {
    AddAssoc(p, x, n, y);
    GaussAddEquiv(p, n, GaussNeg(y), y, y);
    assert Add(p, n, y) == Reduce(p, Zero()) by {
      ReduceEquiv(p, GaussAdd(n, y), GaussAdd(GaussNeg(y), y));
    }
    assert Add(p, x, Add(p, n, y)) == Reduce(p, x) by {
      GaussAddEquiv(p, x, x, Add(p, n, y), Zero());
      ReduceEquiv(p, GaussAdd(x, Add(p, n, y)), x);
    }
  }

  /** `__invert__`: ZeroDivisionError exactly when the norm is not invertible modulo p. */
  function Invert(x: FieldElement): (r: Result<FieldElement>)
    requires x.gf.p > 1
    ensures r.Ok? ==> r.value.gf == x.gf && Canonical(r.value)
    ensures r.Ok? ==> Mul(x.gf.p, x.v, r.value.v) == One()
    ensures r.Err? ==> r.error == ZeroDivision
    ensures IsPrime(x.gf.p) ==> (r.Err? <==> Norm(x.v) % x.gf.p == 0)
  {
    var w :- Inverse(x.gf.p, x.v);
    Ok(FieldElement(x.gf, w))
  }

  /**
   `__truediv__`: an integer divisor is coerced first; then the divisor is inverted (in its
   own field), so a zero divisor raises ZeroDivisionError before a field mismatch is seen.
   */
  function Divide(x: FieldElement, o: Operand): (r: Result<FieldElement>)
    requires x.gf.p > 1
    requires o.Elt? ==> o.e.gf.p > 1
    ensures r.Ok? ==> r.value.gf == x.gf && Canonical(r.value)
    ensures r.Ok? ==> Mul(x.gf.p, r.value.v, AsElement(x.gf, o).v) == Reduce(x.gf.p, x.v)
    ensures o.Elt? && o.e.gf != x.gf ==> r.Err?
    ensures r.Err? ==> r.error == ZeroDivision || r.error == FieldMismatch
  {
    var y := AsElement(x.gf, o);
    var w :- Invert(y);
    var q :- Times(x, Elt(w));
    assert Mul(x.gf.p, q.v, y.v) == Reduce(x.gf.p, x.v) by {
      DivideThenMultiply(x.gf.p, x.v, y.v, w.v);
    }
    Ok(q)
  }

  /** (x * w) * y == x when y * w == 1. */
  lemma DivideThenMultiply(p: int, x: Elem, y: Elem, w: Elem)
    requires p > 1
    requires Mul(p, y, w) == One()
    ensures Mul(p, Mul(p, x, w), y) == Reduce(p, x)
  {
    MulAssoc(p, x, w, y);
    MulComm(p, w, y);
    assert Mul(p, x, One()) == Reduce(p, x);
  }

  /** `__pow__` on a field element. */
  function Power(x: FieldElement, e: int): (r: Result<FieldElement>)
    requires x.gf.p > 1
    ensures Canonical(x) && e >= 0 ==> r == Ok(FieldElement(x.gf, PowSpec(x.gf.p, x.v, e)))
    ensures r.Err? ==> e < 0 && r.error == ZeroDivision
  {
    PowComputesPowerIfCanonical(x, e);
    var w :- Pow(x.gf.p, x.v, e);
    Ok(FieldElement(x.gf, w))
  }

  lemma PowComputesPowerIfCanonical(x: FieldElement, e: int)
    requires x.gf.p > 1
    ensures Canonical(x) && e >= 0 ==> Pow(x.gf.p, x.v, e) == Ok(PowSpec(x.gf.p, x.v, e))
  {
    if Canonical(x) {
      PowComputesPower(x.gf.p, x.v, e);
    }
  }

  /** `sqrt`: a root that squares back to the input, or ArithmeticError. */
  function SquareRoot(x: FieldElement): (r: Result<FieldElement>)
    requires x.gf.p > 1
    ensures r.Ok? ==> r.value.gf == x.gf && Canonical(r.value)
    ensures r.Ok? ==> Mul(x.gf.p, r.value.v, r.value.v) == x.v
    ensures r.Err? ==> r.error == NotASquare
  {
    var w :- Sqrt(x.gf.p, x.v);
    Ok(FieldElement(x.gf, w))
  }

  /**
   `is_square`: zero counts as a square, and over a field that `Field(p)` accepts the
   test passes exactly on the elements whose `sqrt` succeeds.
   */
  function IsSquareElement(x: FieldElement): (r: bool)
    requires x.gf.p > 1
    ensures !IsNonzero(x) ==> r
    ensures Canonical(x) && WellFormed(x.gf) && RootHypotheses(x.gf.p) ==> (r <==> SquareRoot(x).Ok?)
  {
    var p := x.gf.p;
    assert Canonical(x) && WellFormed(x.gf) && RootHypotheses(p) ==> (IsSquare(p, x.v) <==> Sqrt(p, x.v).Ok?) by {
      if Canonical(x) && WellFormed(x.gf) && RootHypotheses(p) {
        SqrtSucceedsExactlyOnSquares(p, x.v);
      }
    }
    IsSquare(p, x.v)
  }

  /**
   The facts about F_p(i) the square-root lemmas take as hypotheses: -1 is not a square
   modulo p, Lagrange's theorem in the multiplicative group, and the Frobenius map is additive.
   */
  ghost predicate RootHypotheses(p: int)
    requires p > 1
  {
    MinusOneIsNonSquare(p) && LagrangeOrder(p) && FrobeniusAdditive(p)
  }

  /* ---------------- the behaviour the tests of field.py check ---------------- */

  /** Re-coercing an element of the field returns it unchanged: gf(a) == a. */
  lemma CoerceOwnElement(x: FieldElement)
    requires x.gf.p > 1
    ensures Coerce(x.gf, Elt(x)) == Ok(x)
  {
  }

  /** a - a == 0 and a + 0 == 0 + a == a for every element of the field. */
  lemma AdditiveIdentities(x: FieldElement)
    requires Canonical(x)
    ensures Minus(x, Elt(x)) == Ok(Element(x.gf, 0, 0))
    ensures Plus(x, Int(0)) == Ok(x)
  {
    var p := x.gf.p;
    SmallResidues(p);
    assert Minus(x, Elt(x)).value.v == Zero() by {
      var n := Negate(x);
      assert Add(p, x.v, n.v) == Zero();
    }
    AddZero(p, x.v);
  }

  /** x / y * y == x whenever the division succeeds, and it does for every nonzero y. */
  lemma DivisionInvertsMultiplication(x: FieldElement, y: FieldElement)
    requires Canonical(x) && Canonical(y) && y.gf == x.gf
    requires WellFormed(x.gf) && MinusOneIsNonSquare(x.gf.p)
    ensures Divide(x, Elt(y)).Ok? <==> IsNonzero(y)
    ensures Divide(x, Elt(y)).Ok? ==> Times(Divide(x, Elt(y)).value, Elt(y)) == Ok(x)
  {
    var p := x.gf.p;
    var d := Divide(x, Elt(y));
    NonzeroIffInvertible(y);
    if IsNonzero(y) {
      assert d.Ok?;
      assert Mul(p, d.value.v, y.v) == x.v by {
        ReduceValid(p, x.v);
      }
    } else {
      assert d.Err?;
    }
  }

  /** A nonzero element of a well-formed field has an inverse, and only nonzero ones do. */
  lemma NonzeroIffInvertible(x: FieldElement)
    requires Canonical(x) && WellFormed(x.gf) && MinusOneIsNonSquare(x.gf.p)
    ensures IsNonzero(x) <==> Invert(x).Ok?
  {
    var p := x.gf.p;
    if IsNonzero(x) {
      NonzeroIsInvertible(p, x.v);
    } else {
      assert x.v == Zero();
      SmallResidues(p);
    }
  }
}

=== FILE: fp2.dfy ===
/**
 Arithmetic of the quadratic extension F_p(i), i^2 = -1, on canonical pairs.

 An element re + im*i is stored as a pair of residues in [0, p); every operation
 computes the Gaussian-integer result and reduces it modulo p, exactly as each
 `FieldElement` operation builds its result through the field constructor. The ring
 laws are proved once, through the fact that reduction respects congruence.
 */
module Fp2 {
  import opened ModArith
  import opened Errors

  /** re + im*i; canonical in F_p(i) when both parts lie in [0, p). */
  datatype Elem = Elem(re: int, im: int)

  predicate Valid(p: int, a: Elem) {
    0 <= a.re < p && 0 <= a.im < p
  }

  function Zero(): Elem { Elem(0, 0) }
  function One(): Elem { Elem(1, 0) }
  function I(): Elem { Elem(0, 1) }

  /** The canonical pair of an arbitrary integer pair, as the element constructor computes it. */
  function Reduce(p: int, a: Elem): (r: Elem)
    requires p > 1
    ensures Valid(p, r)
    ensures Equiv(p, r, a)
  {
    CongReduce(p, a.re);
    CongReduce(p, a.im);
    Elem(a.re % p, a.im % p)
  }

  /** Two integer pairs denote the same element of F_p(i). */
  predicate Equiv(p: int, a: Elem, b: Elem)
    requires p > 1
  {
    Cong(p, a.re, b.re) && Cong(p, a.im, b.im)
  }

  /** Congruent pairs reduce to the same canonical element; a canonical pair is its own reduction. */
  lemma ReduceEquiv(p: int, a: Elem, b: Elem)
    requires p > 1
    requires Equiv(p, a, b)
    ensures Reduce(p, a) == Reduce(p, b)
  {
  }

  lemma ReduceValid(p: int, a: Elem)
    requires p > 1
    requires Valid(p, a)
    ensures Reduce(p, a) == a
  {
    ModUnique(a.re, 0, a.re, p);
    ModUnique(a.im, 0, a.im, p);
  }

  /* ---------------- Gaussian-integer operations (no reduction) ---------------- */

  function GaussAdd(a: Elem, b: Elem): Elem {
    Elem(a.re + b.re, a.im + b.im)
  }

  function GaussNeg(a: Elem): Elem {
    Elem(-a.re, -a.im)
  }

  /** (a + bi)(c + di) = (ac - bd) + (ad + bc)i */
  function GaussMul(a: Elem, b: Elem): Elem {
    Elem(a.re * b.re - a.im * b.im, a.re * b.im + a.im * b.re)
  }

  lemma GaussMulEquiv(p: int, a: Elem, a': Elem, b: Elem, b': Elem)
    requires p > 1
    requires Equiv(p, a, a') && Equiv(p, b, b')
    ensures Equiv(p, GaussMul(a, b), GaussMul(a', b'))
  {
    CongMul(p, a.re, a'.re, b.re, b'.re);
    CongMul(p, a.im, a'.im, b.im, b'.im);
    CongMul(p, a.re, a'.re, b.im, b'.im);
    CongMul(p, a.im, a'.im, b.re, b'.re);
    CongSub(p, a.re * b.re, a'.re * b'.re, a.im * b.im, a'.im * b'.im);
    CongAdd(p, a.re * b.im, a'.re * b'.im, a.im * b.re, a'.im * b'.re);
  }

  lemma GaussAddEquiv(p: int, a: Elem, a': Elem, b: Elem, b': Elem)
    requires p > 1
    requires Equiv(p, a, a') && Equiv(p, b, b')
    ensures Equiv(p, GaussAdd(a, b), GaussAdd(a', b'))
  {
    CongAdd(p, a.re, a'.re, b.re, b'.re);
    CongAdd(p, a.im, a'.im, b.im, b'.im);
  }

  lemma GaussNegEquiv(p: int, a: Elem, a': Elem)
    requires p > 1
    requires Equiv(p, a, a')
    ensures Equiv(p, GaussNeg(a), GaussNeg(a'))
  {
    CongNeg(p, a.re, a'.re);
    CongNeg(p, a.im, a'.im);
  }

  lemma GaussMulAssoc(a: Elem, b: Elem, c: Elem)
    ensures GaussMul(GaussMul(a, b), c) == GaussMul(a, GaussMul(b, c))
  {
    var ab := GaussMul(a, b);
    var bc := GaussMul(b, c);
    assert ab.re * c.re - ab.im * c.im == a.re * bc.re - a.im * bc.im by {
      AssocComponent(a.re, a.im, b.re, b.im, c.re, c.im);
    }
    assert ab.re * c.im + ab.im * c.re == a.re * bc.im + a.im * bc.re by {
      AssocComponent'(a.re, a.im, b.re, b.im, c.re, c.im);
    }
  }

  /** The real part of (a*b)*c and of a*(b*c), expanded into the same four monomials. */
  lemma AssocComponent(a1: int, a2: int, b1: int, b2: int, c1: int, c2: int)
    ensures (a1 * b1 - a2 * b2) * c1 - (a1 * b2 + a2 * b1) * c2
         == a1 * (b1 * c1 - b2 * c2) - a2 * (b1 * c2 + b2 * c1)
  {
    IntDistribRight(a1 * b1, a2 * b2, c1);
    IntDistribRight(a1 * b2, a2 * b1, c2);
    IntDistribLeft(a1, b1 * c1, b2 * c2);
    IntDistribLeft(a2, b1 * c2, b2 * c1);
    IntMulAssoc(a1, b1, c1);
    IntMulAssoc(a2, b2, c1);
    IntMulAssoc(a1, b2, c2);
    IntMulAssoc(a2, b1, c2);
  }

  /** The imaginary part of (a*b)*c and of a*(b*c), expanded into the same four monomials. */
  lemma AssocComponent'(a1: int, a2: int, b1: int, b2: int, c1: int, c2: int)
    ensures (a1 * b1 - a2 * b2) * c2 + (a1 * b2 + a2 * b1) * c1
         == a1 * (b1 * c2 + b2 * c1) + a2 * (b1 * c1 - b2 * c2)
  {
    IntDistribRight(a1 * b1, a2 * b2, c2);
    IntDistribRight(a1 * b2, a2 * b1, c1);
    IntDistribLeft(a1, b1 * c2, b2 * c1);
    IntDistribLeft(a2, b1 * c1, b2 * c2);
    IntMulAssoc(a1, b1, c2);
    IntMulAssoc(a2, b2, c2);
    IntMulAssoc(a1, b2, c1);
    IntMulAssoc(a2, b1, c1);
  }

  lemma GaussMulDistrib(a: Elem, b: Elem, c: Elem)
    ensures GaussMul(a, GaussAdd(b, c)) == GaussAdd(GaussMul(a, b), GaussMul(a, c))
  {
    var x, y := a.re, a.im;
    var s := GaussAdd(b, c);
    assert x * s.re - y * s.im == (x * b.re - y * b.im) + (x * c.re - y * c.im) by {
      assert x * s.re == x * b.re + x * c.re;
      assert y * s.im == y * b.im + y * c.im;
    }
    assert x * s.im + y * s.re == (x * b.im + y * b.re) + (x * c.im + y * c.re) by {
      assert x * s.im == x * b.im + x * c.im;
      assert y * s.re == y * b.re + y * c.re;
    }
  }

  /* ---------------- field operations (field.py) ---------------- */

  /** `-a`: both parts negated modulo p; the canonical element that cancels a. */
  function Neg(p: int, a: Elem): (r: Elem)
    requires p > 1
    ensures Valid(p, r) && Equiv(p, GaussAdd(r, a), Zero())
  {
    var r := Reduce(p, GaussNeg(a));
    assert Equiv(p, GaussAdd(r, a), Zero()) by {
      GaussAddEquiv(p, r, GaussNeg(a), a, a);
      assert GaussAdd(GaussNeg(a), a) == Zero();
    }
    r
  }

  /** `a + b`: the canonical element congruent to the componentwise sum. */
  function Add(p: int, a: Elem, b: Elem): (r: Elem)
    requires p > 1
    ensures Valid(p, r) && Equiv(p, r, GaussAdd(a, b))
  {
    Reduce(p, GaussAdd(a, b))
  }

  /** `a - b` is `a + (-b)`: the canonical element that b adds back to a. */
  function Sub(p: int, a: Elem, b: Elem): (r: Elem)
    requires p > 1
    ensures Valid(p, r) && Equiv(p, GaussAdd(r, b), a)
  {
    var n := Neg(p, b);
    var r := Add(p, a, n);
    assert Equiv(p, GaussAdd(r, b), a) by {
      GaussAddEquiv(p, r, GaussAdd(a, n), b, b);
      assert GaussAdd(GaussAdd(a, n), b) == GaussAdd(a, GaussAdd(n, b));
      GaussAddEquiv(p, a, a, GaussAdd(n, b), Zero());
      assert GaussAdd(a, Zero()) == a;
    }
    r
  }

  /** `a * b`: the canonical element congruent to the Gaussian product, where i^2 == -1. */
  function Mul(p: int, a: Elem, b: Elem): (r: Elem)
    requires p > 1
    ensures Valid(p, r) && Equiv(p, r, GaussMul(a, b))
  {
    Reduce(p, GaussMul(a, b))
  }

  /** `a._square()`: the dedicated squaring formula (re^2 - im^2) + (2 re im) i. */
  function Square(p: int, a: Elem): (r: Elem)
    requires p > 1
    ensures r == Mul(p, a, a)
  {
    assert 2 * a.re * a.im == a.re * a.im + a.im * a.re;
    Reduce(p, Elem(a.re * a.re - a.im * a.im, 2 * a.re * a.im))
  }

  /** `a + a`. */
  function Double(p: int, a: Elem): Elem
    requires p > 1
  {
    Add(p, a, a)
  }

  /** The constant -1 as the field constructor builds it from the integer -1. */
  function MinusOne(p: int): (r: Elem)
    requires p > 1
    ensures r == Neg(p, One())
  {
    Reduce(p, Elem(-1, 0))
  }

  /** The residues of the constants 0, 1 and -1, which the constructor computes for zero, one and minus one. */
  lemma SmallResidues(p: int)
    requires p > 1
    ensures 0 % p == 0 && 1 % p == 1 && (-1) % p == p - 1
  {
    ModUnique(0, 0, 0, p);
    ModUnique(1, 0, 1, p);
    ModUnique(-1, -1, p - 1, p);
  }

  /* ---------------- ring laws ---------------- */

  lemma AddComm(p: int, a: Elem, b: Elem)
    requires p > 1
    ensures Add(p, a, b) == Add(p, b, a)
  {
  }

  lemma AddAssoc(p: int, a: Elem, b: Elem, c: Elem)
    requires p > 1
    ensures Add(p, Add(p, a, b), c) == Add(p, a, Add(p, b, c))
  {
    GaussAddEquiv(p, Add(p, a, b), GaussAdd(a, b), c, c);
    GaussAddEquiv(p, a, a, Add(p, b, c), GaussAdd(b, c));
    assert GaussAdd(GaussAdd(a, b), c) == GaussAdd(a, GaussAdd(b, c));
  }

  lemma AddZero(p: int, a: Elem)
    requires p > 1 && Valid(p, a)
    ensures Add(p, a, Zero()) == a
    ensures Add(p, Zero(), a) == a
  {
    ReduceValid(p, a);
  }

  /** a - a == 0 */
  lemma SubSelf(p: int, a: Elem)
    requires p > 1
    ensures Sub(p, a, a) == Zero()
  {
    GaussAddEquiv(p, a, a, Neg(p, a), GaussNeg(a));
    ReduceValid(p, Zero());
  }

  lemma MulComm(p: int, a: Elem, b: Elem)
    requires p > 1
    ensures Mul(p, a, b) == Mul(p, b, a)
  {
    assert GaussMul(a, b) == GaussMul(b, a);
  }

  lemma MulAssoc(p: int, a: Elem, b: Elem, c: Elem)
    requires p > 1
    ensures Mul(p, Mul(p, a, b), c) == Mul(p, a, Mul(p, b, c))
  {
    GaussMulEquiv(p, Mul(p, a, b), GaussMul(a, b), c, c);
    GaussMulEquiv(p, a, a, Mul(p, b, c), GaussMul(b, c));
    GaussMulAssoc(a, b, c);
  }

  lemma MulDistrib(p: int, a: Elem, b: Elem, c: Elem)
    requires p > 1
    ensures Mul(p, a, Add(p, b, c)) == Add(p, Mul(p, a, b), Mul(p, a, c))
  {
    GaussMulEquiv(p, a, a, Add(p, b, c), GaussAdd(b, c));
    GaussAddEquiv(p, Mul(p, a, b), GaussMul(a, b), Mul(p, a, c), GaussMul(a, c));
    GaussMulDistrib(a, b, c);
  }

  lemma MulDistribRight(p: int, a: Elem, b: Elem, c: Elem)
    requires p > 1
    ensures Mul(p, Add(p, a, b), c) == Add(p, Mul(p, a, c), Mul(p, b, c))
  {
    MulComm(p, Add(p, a, b), c);
    MulDistrib(p, c, a, b);
    MulComm(p, a, c);
    MulComm(p, b, c);
  }

  /** (a b)(c d) == (a c)(b d) */
  lemma MulRegroup(p: int, a: Elem, b: Elem, c: Elem, d: Elem)
    requires p > 1
    ensures Mul(p, Mul(p, a, b), Mul(p, c, d)) == Mul(p, Mul(p, a, c), Mul(p, b, d))
  {
    calc {
      Mul(p, Mul(p, a, b), Mul(p, c, d));
      { MulAssoc(p, a, b, Mul(p, c, d)); }
      Mul(p, a, Mul(p, b, Mul(p, c, d)));
      { MulAssoc(p, b, c, d); MulComm(p, b, c); MulAssoc(p, c, b, d); }
      Mul(p, a, Mul(p, c, Mul(p, b, d)));
      { MulAssoc(p, a, c, Mul(p, b, d)); }
      Mul(p, Mul(p, a, c), Mul(p, b, d));
    }
  }

  lemma MulOne(p: int, a: Elem)
    requires p > 1 && Valid(p, a)
    ensures Mul(p, a, One()) == a
    ensures Mul(p, One(), a) == a
  {
    ReduceValid(p, a);
  }

  lemma MulZero(p: int, a: Elem)
    requires p > 1
    ensures Mul(p, a, Zero()) == Zero()
    ensures Mul(p, Zero(), a) == Zero()
  {
    ReduceValid(p, Zero());
  }

  /** a * (-b) == -(a * b) */
  lemma MulNeg(p: int, a: Elem, b: Elem)
    requires p > 1
    ensures Mul(p, a, Neg(p, b)) == Neg(p, Mul(p, a, b))
  {
    GaussMulEquiv(p, a, a, Neg(p, b), GaussNeg(b));
    GaussNegEquiv(p, Mul(p, a, b), GaussMul(a, b));
    assert GaussMul(a, GaussNeg(b)) == GaussNeg(GaussMul(a, b)) by {
      IntMulNeg(a.re, b.re);
      IntMulNeg(a.im, b.im);
      IntMulNeg(a.re, b.im);
      IntMulNeg(a.im, b.re);
    }
  }

  lemma NegNeg(p: int, a: Elem)
    requires p > 1 && Valid(p, a)
    ensures Neg(p, Neg(p, a)) == a
  {
    GaussNegEquiv(p, Neg(p, a), GaussNeg(a));
    ReduceValid(p, a);
  }

  /** i * i == -1 */
  lemma ISquared(p: int)
    requires p > 1
    ensures Mul(p, I(), I()) == MinusOne(p)
  {
  }

  /** (a - b) + b == a */
  lemma SubAddCancel(p: int, a: Elem, b: Elem)
    requires p > 1
    ensures Add(p, Sub(p, a, b), b) == Reduce(p, a)
  {
    AddAssoc(p, a, Neg(p, b), b);
    AddComm(p, Neg(p, b), b);
    SubSelf(p, b);
    assert GaussAdd(a, Zero()) == a;
  }

  /** a - b == 0 exactly when a == b. */
  lemma SubZeroIff(p: int, a: Elem, b: Elem)
    requires p > 1 && Valid(p, a) && Valid(p, b)
    ensures Sub(p, a, b) == Zero() <==> a == b
  {
    if Sub(p, a, b) == Zero() {
      SubAddCancel(p, a, b);
      AddZero(p, b);
      ReduceValid(p, a);
    } else if a == b {
      SubSelf(p, a);
    }
  }

  /** a + b == 0 exactly when a == -b. */
  lemma AddZeroIff(p: int, a: Elem, b: Elem)
    requires p > 1 && Valid(p, a) && Valid(p, b)
    ensures Add(p, a, b) == Zero() <==> a == Neg(p, b)
  {
    NegNeg(p, b);
    assert Sub(p, a, Neg(p, b)) == Add(p, a, b);
    SubZeroIff(p, a, Neg(p, b));
  }

  /** (a - b)(a + b) == a^2 - b^2 */
  lemma DifferenceOfSquares(p: int, a: Elem, b: Elem)
    requires p > 1
    ensures Mul(p, Sub(p, a, b), Add(p, a, b)) == Sub(p, Mul(p, a, a), Mul(p, b, b))
  {
    var s, t := Sub(p, a, b), Add(p, a, b);
    var gs, gt := GaussAdd(a, GaussNeg(b)), GaussAdd(a, b);
    assert Equiv(p, s, gs) by {
      GaussAddEquiv(p, a, a, Neg(p, b), GaussNeg(b));
    }
    assert Equiv(p, GaussMul(s, t), GaussMul(gs, gt)) by {
      GaussMulEquiv(p, s, gs, t, gt);
    }
    var aa, bb := Mul(p, a, a), Mul(p, b, b);
    var sq := GaussAdd(aa, Neg(p, bb));
    var gsq := GaussAdd(GaussMul(a, a), GaussNeg(GaussMul(b, b)));
    assert Equiv(p, sq, gsq) by {
      GaussNegEquiv(p, bb, GaussMul(b, b));
      GaussAddEquiv(p, aa, GaussMul(a, a), Neg(p, bb), GaussNeg(GaussMul(b, b)));
    }
    assert GaussMul(gs, gt) == gsq by {
      DiffSquaresComponents(a.re, a.im, b.re, b.im);
    }
    ReduceEquiv(p, GaussMul(s, t), sq);
  }

  lemma DiffSquaresComponents(x: int, y: int, u: int, v: int)
    ensures (x + -u) * (x + u) - (y + -v) * (y + v) == (x * x - y * y) + -(u * u - v * v)
    ensures (x + -u) * (y + v) + (y + -v) * (x + u) == (x * y + y * x) + -(u * v + v * u)
  {
    IntDistribRight(x, -u, x + u);
    IntDistribRight(y, -v, y + v);
    IntDistribRight(x, -u, y + v);
    IntDistribRight(y, -v, x + u);
  }

  /** a (b - c) == a b - a c */
  lemma MulSub(p: int, a: Elem, b: Elem, c: Elem)
    requires p > 1
    ensures Mul(p, a, Sub(p, b, c)) == Sub(p, Mul(p, a, b), Mul(p, a, c))
  {
    MulDistrib(p, a, b, Neg(p, c));
    MulNeg(p, a, c);
  }

  /** (a - b) c == a c - b c */
  lemma MulSubRight(p: int, a: Elem, b: Elem, c: Elem)
    requires p > 1
    ensures Mul(p, Sub(p, a, b), c) == Sub(p, Mul(p, a, c), Mul(p, b, c))
  {
    MulComm(p, Sub(p, a, b), c);
    MulSub(p, c, a, b);
    MulComm(p, a, c);
    MulComm(p, b, c);
  }

  /** (a + b) - (b + b) == a - b */
  lemma SumMinusDouble(p: int, a: Elem, b: Elem)
    requires p > 1
    ensures Sub(p, Add(p, a, b), Double(p, b)) == Sub(p, a, b)
  {
    var ab, bb := Add(p, a, b), Add(p, b, b);
    assert Equiv(p, GaussNeg(bb), GaussNeg(GaussAdd(b, b))) by {
      GaussNegEquiv(p, bb, GaussAdd(b, b));
    }
    assert Equiv(p, GaussAdd(ab, Neg(p, bb)), GaussAdd(GaussAdd(a, b), GaussNeg(GaussAdd(b, b)))) by {
      GaussAddEquiv(p, ab, GaussAdd(a, b), Neg(p, bb), GaussNeg(GaussAdd(b, b)));
    }
    assert Equiv(p, GaussAdd(a, Neg(p, b)), GaussAdd(a, GaussNeg(b))) by {
      GaussAddEquiv(p, a, a, Neg(p, b), GaussNeg(b));
    }
    assert GaussAdd(GaussAdd(a, b), GaussNeg(GaussAdd(b, b))) == GaussAdd(a, GaussNeg(b));
    ReduceEquiv(p, GaussAdd(ab, Neg(p, bb)), GaussAdd(a, Neg(p, b)));
  }

  /** ((a - c) - a) + c == 0 */
  lemma SubtractAndRestore(p: int, a: Elem, c: Elem)
    requires p > 1
    ensures Add(p, Sub(p, Sub(p, a, c), a), c) == Zero()
  {
    var d := Sub(p, a, c);
    var e := Sub(p, d, a);
    assert Equiv(p, d, GaussAdd(a, GaussNeg(c))) by {
      GaussAddEquiv(p, a, a, Neg(p, c), GaussNeg(c));
    }
    assert Equiv(p, e, GaussAdd(GaussAdd(a, GaussNeg(c)), GaussNeg(a))) by {
      GaussAddEquiv(p, d, GaussAdd(a, GaussNeg(c)), Neg(p, a), GaussNeg(a));
    }
    assert Equiv(p, GaussAdd(e, c), GaussAdd(GaussAdd(GaussAdd(a, GaussNeg(c)), GaussNeg(a)), c)) by {
      GaussAddEquiv(p, e, GaussAdd(GaussAdd(a, GaussNeg(c)), GaussNeg(a)), c, c);
    }
    assert GaussAdd(GaussAdd(GaussAdd(a, GaussNeg(c)), GaussNeg(a)), c) == Zero();
    ReduceEquiv(p, GaussAdd(e, c), Zero());
    ReduceValid(p, Zero());
  }

  /* ---------------- the norm and inversion ---------------- */

  /** The norm re^2 + im^2 as an integer, before any reduction. */
  function Norm(a: Elem): (n: int)
    ensures n >= 0
    ensures n == 0 <==> a == Zero()
  {
    NormZero(a.re, a.im);
    a.re * a.re + a.im * a.im
  }

  /** A sum of two squares vanishes only when both terms do. */
  lemma NormZero(x: int, y: int)
    ensures x * x >= 0 && y * y >= 0
    ensures x * x + y * y == 0 <==> x == 0 && y == 0
  {
    SquarePositive(x);
    SquarePositive(y);
  }

  /** The square of a nonzero integer is positive. */
  lemma SquarePositive(x: int)
    ensures x * x >= 0
    ensures x != 0 ==> x * x > 0
  {
    if x < 0 {
      assert x * x == (-x) * (-x);
      assert (-x) * (-x) >= (-x) * 1;
    } else {
      assert x * x >= x * 1;
    }
  }

  lemma NormMultiplicative(a: Elem, b: Elem)
    ensures Norm(GaussMul(a, b)) == Norm(a) * Norm(b)
  {
    NormIdentity(a.re, a.im, b.re, b.im);
  }

  /** (xu - yv)^2 + (xv + yu)^2 == (x^2 + y^2)(u^2 + v^2) */
  lemma NormIdentity(x: int, y: int, u: int, v: int)
    ensures (x * u - y * v) * (x * u - y * v) + (x * v + y * u) * (x * v + y * u)
         == (x * x + y * y) * (u * u + v * v)
  {
    var A, B, C, D := x * u, y * v, x * v, y * u;
    IntSquareOfSum(A, B);
    IntSquareOfSum(C, D);
    IntRegroup(x, y, u, v);
    IntRegroup(y, x, v, u);
    IntRegroup(x, y, v, u);
    IntRegroup(y, x, u, v);
    IntDistribRight(x * x, y * y, u * u + v * v);
    IntDistribLeft(x * x, u * u, v * v);
    IntDistribLeft(y * y, u * u, v * v);
    assert A * B == C * D;
  }

  lemma NormEquiv(p: int, a: Elem, b: Elem)
    requires p > 1
    requires Equiv(p, a, b)
    ensures Cong(p, Norm(a), Norm(b))
  {
    CongMul(p, a.re, b.re, a.re, b.re);
    CongMul(p, a.im, b.im, a.im, b.im);
    CongAdd(p, a.re * a.re, b.re * b.re, a.im * a.im, b.im * b.im);
  }

  /**
   `~a`: the inverse through the norm, (re - im i) / (re^2 + im^2). It fails exactly
   when the norm has no inverse modulo p; then no element at all is an inverse of a.
   */
  function Inverse(p: int, a: Elem): (r: Result<Elem>)
    requires p > 1
    ensures r.Ok? ==> Valid(p, r.value) && Mul(p, a, r.value) == One()
    ensures r.Err? ==> r.error == ZeroDivision && forall b :: Mul(p, a, b) != One()
    ensures IsPrime(p) ==> (r.Err? <==> Norm(a) % p == 0)
  {
    var s2 := Norm(a);
    match ModInverse(s2, p)
    case Err(e) =>
      NotInvertible(p, a);
      Err(e)
    case Ok(s) =>
      var b := Reduce(p, Elem(a.re * s, -a.im * s));
      InverseFromNorm(p, a, s);
      Ok(b)
  }

  /** An inverse is unique. */
  lemma InverseUnique(p: int, a: Elem, u: Elem, w: Elem)
    requires p > 1 && Valid(p, u) && Valid(p, w)
    requires Mul(p, a, u) == One() && Mul(p, a, w) == One()
    ensures u == w
  {
    calc {
      u;
      { MulOne(p, u); }
      Mul(p, One(), u);
      { MulComm(p, a, w); }
      Mul(p, Mul(p, w, a), u);
      { MulAssoc(p, w, a, u); }
      Mul(p, w, One());
      { MulOne(p, w); }
      w;
    }
  }

  /** Whatever inverse of a is known, `Inverse` finds that one. */
  lemma InverseOfUnit(p: int, a: Elem, w: Elem)
    requires p > 1 && Valid(p, w)
    requires Mul(p, a, w) == One()
    ensures Inverse(p, a) == Ok(w)
  {
    var r := Inverse(p, a);
    var m := Mul(p, a, w);
    assert r.Err? ==> m != One();
    InverseUnique(p, a, r.value, w);
  }

  /** Zero has no inverse. */
  lemma InvertibleIsNonzero(p: int, a: Elem)
    requires p > 1
    ensures Inverse(p, a).Ok? ==> a != Zero()
  {
    var r := Inverse(p, a);
    var w := if r.Ok? then r.value else Zero();
    MulZero(p, w);
  }

  lemma InverseFromNorm(p: int, a: Elem, s: int)
    requires p > 1
    requires IsInverse(Norm(a), s, p)
    ensures Mul(p, a, Reduce(p, Elem(a.re * s, -a.im * s))) == One()
  {
    var b := Elem(a.re * s, -a.im * s);
    GaussMulEquiv(p, a, a, Reduce(p, b), b);
    var c := GaussMul(a, b);
    assert c.re == Norm(a) * s by {
      IntMulAssoc(a.re, a.re, s);
      IntMulNeg(a.im, a.im * s);
      IntMulAssoc(a.im, a.im, s);
      IntDistribRight(a.re * a.re, a.im * a.im, s);
    }
    assert c.im == 0 by {
      IntMulNeg(a.re, a.im * s);
      IntMulAssoc(a.re, a.im, s);
      IntMulAssoc(a.im, a.re, s);
    }
    ModUnique(1, 0, 1, p);
    ModUnique(0, 0, 0, p);
  }

  /** The norm is multiplicative, so a*b == 1 makes Norm(b) an inverse of Norm(a) modulo p. */
  lemma NormOfInverse(p: int, a: Elem, b: Elem)
    requires p > 1
    requires Mul(p, a, b) == One()
    ensures IsInverse(Norm(a), Norm(b), p)
  {
    var c := GaussMul(a, b);
    NormEquiv(p, Mul(p, a, b), c);
    NormMultiplicative(a, b);
    ModUnique(1, 0, 1, p);
  }

  lemma NotInvertible(p: int, a: Elem)
    requires p > 1
    requires forall v :: !IsInverse(Norm(a), v, p)
    ensures forall b :: Mul(p, a, b) != One()
  {
    forall b | Mul(p, a, b) == One()
      ensures false
    {
      NormOfInverse(p, a, b);
    }
  }

  /* ---------------- what p = 3 (mod 4) buys, as a hypothesis ---------------- */

  /** x is a square root of -1 modulo p. */
  predicate SquaresToMinusOne(p: int, x: int)
    requires p > 1
  {
    (x * x + 1) % p == 0
  }

  /**
   -1 is not a square modulo p. Euler's criterion gives this for every prime
   p = 3 (mod 4); the model takes it as a hypothesis instead of proving it.
   */
  ghost predicate MinusOneIsNonSquare(p: int)
    requires p > 1
  {
    forall x :: 0 <= x < p ==> !SquaresToMinusOne(p, x)
  }

  /** If im*w == 1 (mod p) then (re*w)^2 + 1 == Norm(re + im i) * w^2 (mod p). */
  lemma ScaledNorm(p: int, re: int, im: int, w: int)
    requires p > 1
    requires Cong(p, im * w, 1)
    ensures Cong(p, ((re * w) % p) * ((re * w) % p) + 1, Norm(Elem(re, im)) * (w * w))
  {
    var x := (re * w) % p;
    CongReduce(p, re * w);
    CongMul(p, x, re * w, x, re * w);
    CongMul(p, im * w, 1, im * w, 1);
    CongAdd(p, x * x, (re * w) * (re * w), 1, (im * w) * (im * w));
    assert (re * w) * (re * w) + (im * w) * (im * w) == Norm(Elem(re, im)) * (w * w);
  }

  /** A multiple of a number divisible by p is divisible by p. */
  lemma MultipleOfZero(p: int, n: int, k: int)
    requires p > 1
    requires n % p == 0
    ensures (n * k) % p == 0
  {
    ModMulLeft(n, k, p);
    ModUnique(0, 0, 0, p);
  }

  /** A nonzero imaginary part with a norm divisible by p yields a square root of -1 modulo p. */
  lemma RootOfMinusOne(p: int, a: Elem) returns (x: int)
    requires IsPrime(p)
    requires Valid(p, a) && a.im != 0
    requires Norm(a) % p == 0
    ensures 0 <= x < p && SquaresToMinusOne(p, x)
  {
    var inv := ModInverse(a.im, p);
    assert inv.Ok? by {
      ModUnique(a.im, 0, a.im, p);
    }
    var w := inv.value;
    assert Cong(p, a.im * w, 1) by {
      ModUnique(1, 0, 1, p);
    }
    x := (a.re * w) % p;
    var n := Norm(a) * (w * w);
    assert Cong(p, x * x + 1, n) by {
      ScaledNorm(p, a.re, a.im, w);
    }
    assert n % p == 0 by {
      MultipleOfZero(p, Norm(a), w * w);
    }
  }

  /** p does not divide re^2 when it does not divide re (p prime). */
  lemma SquareOfUnit(p: int, re: int)
    requires IsPrime(p)
    requires 0 < re < p
    ensures (re * re) % p != 0
  {
    var inv := ModInverse(re, p);
    assert inv.Ok? by {
      ModUnique(re, 0, re, p);
    }
    var w := inv.value;
    var t := (re * w) * (re * w);
    assert Cong(p, t, 1) by {
      ModUnique(1, 0, 1, p);
      CongMul(p, re * w, 1, re * w, 1);
    }
    ModUnique(1, 0, 1, p);
    if (re * re) % p == 0 {
      IntRegroup(re, re, w, w);
      MultipleOfZero(p, re * re, w * w);
      assert false;
    }
  }

  /** When -1 is a non-square modulo the prime p, only zero has a norm divisible by p. */
  lemma NormVanishesOnlyAtZero(p: int, a: Elem)
    requires IsPrime(p) && MinusOneIsNonSquare(p)
    requires Valid(p, a)
    requires Norm(a) % p == 0
    ensures a == Zero()
  {
    if a.im != 0 {
      var x := RootOfMinusOne(p, a);
      assert false;
    } else if a.re != 0 {
      SquareOfUnit(p, a.re);
      assert false;
    }
  }

  /** Under the same hypothesis every nonzero element is invertible. */
  lemma NonzeroIsInvertible(p: int, a: Elem)
    requires IsPrime(p) && MinusOneIsNonSquare(p)
    requires Valid(p, a) && a != Zero()
    ensures Inverse(p, a).Ok?
  {
    if Norm(a) % p == 0 {
      NormVanishesOnlyAtZero(p, a);
    }
  }

  /** ... and F_p(i) has no zero divisors. */
  lemma NoZeroDivisors(p: int, a: Elem, b: Elem)
    requires IsPrime(p) && MinusOneIsNonSquare(p)
    requires Valid(p, a) && Valid(p, b)
    requires Mul(p, a, b) == Zero()
    ensures a == Zero() || b == Zero()
  {
    if a != Zero() {
      NonzeroIsInvertible(p, a);
      var w := Inverse(p, a).value;
      calc {
        b;
        { MulOne(p, b); }
        Mul(p, One(), b);
        { MulComm(p, a, w); }
        Mul(p, Mul(p, w, a), b);
        { MulAssoc(p, w, a, b); }
        Mul(p, w, Mul(p, a, b));
        { MulZero(p, w); }
        Zero();
      }
    }
  }
}

=== FILE: fp2_pow.dfy ===
/**
 Exponentiation, square roots and the quadratic-residue test of F_p(i): the
 square-and-multiply `__pow__` with its special exponents, the square root of
 equation (7) of ePrint 2012/685 guarded by a square-back check, and the
 Euler-criterion `is_square`.
 */
module Fp2Pow {
  import opened Errors
  import opened ModArith
  import opened Fp2

  /* ---------------- the reference power ---------------- */

  /** a^n as n-fold multiplication: the meaning every exponentiation below is measured against. */
  function PowSpec(p: int, a: Elem, n: nat): (r: Elem)
    requires p > 1
    ensures Valid(p, r)
  {
    if n == 0 then One() else Mul(p, a, PowSpec(p, a, n - 1))
  }

  lemma PowSpecOne(p: int, a: Elem)
    requires p > 1 && Valid(p, a)
    ensures PowSpec(p, a, 1) == a
  {
    MulOne(p, a);
  }

  lemma PowSpecTwo(p: int, a: Elem)
    requires p > 1 && Valid(p, a)
    ensures PowSpec(p, a, 2) == Mul(p, a, a)
  {
    PowSpecOne(p, a);
  }

  /** a^(m+n) == a^m * a^n */
  lemma {:induction false} PowSpecAdd(p: int, a: Elem, m: nat, n: nat)
    requires p > 1
    ensures PowSpec(p, a, m + n) == Mul(p, PowSpec(p, a, m), PowSpec(p, a, n))
    decreases m
  {
    if m == 0 {
      MulOne(p, PowSpec(p, a, n));
    } else {
      PowSpecAdd(p, a, m - 1, n);
      MulAssoc(p, a, PowSpec(p, a, m - 1), PowSpec(p, a, n));
    }
  }

  /** a^(m*n) == (a^m)^n */
  lemma {:induction false} PowSpecMul(p: int, a: Elem, m: nat, n: nat)
    requires p > 1
    ensures PowSpec(p, a, m * n) == PowSpec(p, PowSpec(p, a, m), n)
    decreases n
  {
    if n > 0 {
      assert m * n == m + m * (n - 1);
      PowSpecAdd(p, a, m, m * (n - 1));
      PowSpecMul(p, a, m, n - 1);
    }
  }

  /** (a*a)^k == a^(2k): one squaring step of the loop halves the exponent. */
  lemma PowSpecOfSquare(p: int, a: Elem, k: nat)
    requires p > 1 && Valid(p, a)
    ensures PowSpec(p, Mul(p, a, a), k) == PowSpec(p, a, 2 * k)
  {
    PowSpecTwo(p, a);
    PowSpecMul(p, a, 2, k);
  }

  /** Every positive power of an idempotent element e (e*e == e) is e itself. */
  lemma {:induction false} PowSpecOfIdempotent(p: int, e: Elem, n: nat)
    requires p > 1 && Valid(p, e) && Mul(p, e, e) == e
    requires n >= 1
    ensures PowSpec(p, e, n) == e
  {
    if n == 1 {
      PowSpecOne(p, e);
    } else {
      PowSpecOfIdempotent(p, e, n - 1);
      assert PowSpec(p, e, n) == Mul(p, e, PowSpec(p, e, n - 1));
    }
  }

  /** 0^n == 0 for n >= 1. */
  lemma PowSpecOfZero(p: int, n: nat)
    requires p > 1 && n >= 1
    ensures PowSpec(p, Zero(), n) == Zero()
  {
    MulZero(p, Zero());
    PowSpecOfIdempotent(p, Zero(), n);
  }

  /** 1^n == 1. */
  lemma PowSpecOfOne(p: int, n: nat)
    requires p > 1
    ensures PowSpec(p, One(), n) == One()
  {
    if n >= 1 {
      MulOne(p, One());
      PowSpecOfIdempotent(p, One(), n);
    }
  }

  /* ---------------- square-and-multiply ---------------- */

  /**
   The `while e` loop of `__pow__` from the state (r, t, e): when the low bit of e is
   set r absorbs t, then t is squared and e shifted right by one.
   */
  function SquareAndMultiply(p: int, r: Elem, t: Elem, e: nat): (out: Elem)
    requires p > 1
    ensures Valid(p, r) ==> Valid(p, out)
    decreases e
  {
    if e == 0 then r
    else SquareAndMultiply(p, if e % 2 == 1 then Mul(p, r, t) else r, Mul(p, t, t), e / 2)
  }

  /** The loop keeps r * t^e invariant, so it ends with r0 * t0^e0. */
  lemma {:induction false} SquareAndMultiplyComputesPower(p: int, r: Elem, t: Elem, e: nat)
    requires p > 1 && Valid(p, r) && Valid(p, t)
    ensures SquareAndMultiply(p, r, t, e) == Mul(p, r, PowSpec(p, t, e))
    decreases e
  {
    if e == 0 {
      MulOne(p, r);
    } else {
      var t2 := Mul(p, t, t);
      var h := e / 2;
      SquareAndMultiplyComputesPower(p, if e % 2 == 1 then Mul(p, r, t) else r, t2, h);
      assert PowSpec(p, t2, h) == PowSpec(p, t, 2 * h) by {
        PowSpecOfSquare(p, t, h);
      }
      if e % 2 == 1 {
        assert e == 2 * h + 1;
        MulAssoc(p, r, t, PowSpec(p, t, 2 * h));
      }
    }
  }

  /**
   `__pow__`: exponent 1 returns the element itself, -1 inverts, 2 squares, any other
   negative exponent inverts the positive power, and the rest run square-and-multiply
   from one. Only an inversion can fail.
   */
  function Pow(p: int, a: Elem, e: int): (r: Result<Elem>)
    requires p > 1
    ensures e >= 0 ==> r.Ok?
    ensures r.Err? ==> r.error == ZeroDivision
    decreases if e < 0 then 1 else 0
  {
    if e == 1 then Ok(a)
    else if e == -1 then Inverse(p, a)
    else if e == 2 then Ok(Square(p, a))
    else if e < 0 then Inverse(p, Pow(p, a, -e).value)
    else Ok(SquareAndMultiply(p, One(), a, e))
  }

  /** Every branch of `__pow__` agrees with the reference power (or its inverse for e < 0). */
  lemma PowComputesPower(p: int, a: Elem, e: int)
    requires p > 1 && Valid(p, a)
    ensures e >= 0 ==> Pow(p, a, e) == Ok(PowSpec(p, a, e))
    ensures e < 0 ==> Pow(p, a, e) == Inverse(p, PowSpec(p, a, -e))
  {
    if e == 1 || e == -1 {
      PowSpecOne(p, a);
    } else if e == 2 || e == -2 {
      PowSpecTwo(p, a);
    } else if e >= 0 {
      LoopComputesPower(p, a, e);
    } else {
      LoopComputesPower(p, a, -e);
    }
  }

  /** Square-and-multiply from one computes a^e. */
  lemma LoopComputesPower(p: int, a: Elem, e: nat)
    requires p > 1 && Valid(p, a)
    ensures SquareAndMultiply(p, One(), a, e) == PowSpec(p, a, e)
  {
    SquareAndMultiplyComputesPower(p, One(), a, e);
    MulOne(p, PowSpec(p, a, e));
  }


  /** For a negative exponent a successful result is the inverse of a^|e|. */
  lemma NegativePowerInverts(p: int, a: Elem, e: int)
    requires p > 1 && Valid(p, a) && e < 0
    ensures Pow(p, a, e).Ok? ==> Mul(p, PowSpec(p, a, -e), Pow(p, a, e).value) == One()
    ensures IsPrime(p) ==> (Pow(p, a, e).Err? <==> Norm(PowSpec(p, a, -e)) % p == 0)
  {
    PowComputesPower(p, a, e);
  }

  /* ---------------- square root and the residue test ---------------- */

  /**
   `sqrt`: with e1 = (p-1)/2 and e2 = (p+1)/4, u is i when a^e1 == -1 and (1 + a^e1)^e1
   otherwise; the candidate u * a^e2 is returned only when it squares back to a.
   */
  function Sqrt(p: int, a: Elem): (r: Result<Elem>)
    requires p > 1
    ensures r.Ok? ==> Valid(p, r.value) && Mul(p, r.value, r.value) == a
    ensures r.Err? ==> r.error == NotASquare
  {
    SqrtWith(p, a, (p - 1) / 2, (p + 1) / 4)
  }

  /** The body of `sqrt` for given exponents e1 and e2. */
  function SqrtWith(p: int, a: Elem, e1: nat, e2: nat): (r: Result<Elem>)
    requires p > 1
    ensures r.Ok? ==> Valid(p, r.value) && Mul(p, r.value, r.value) == a
    ensures r.Err? ==> r.error == NotASquare
  {
    var h := Pow(p, a, e1).value;
    var u := if h == MinusOne(p) then I() else Pow(p, Add(p, h, One()), e1).value;
    var ret := Mul(p, u, Pow(p, a, e2).value);
    if Square(p, ret) != a then Err(NotASquare) else Ok(ret)
  }

  /** (p^2 - 1) / 2, half the order of the multiplicative group of F_p(i). */
  function EulerExponent(p: int): (n: nat)
    requires p > 1
    ensures p % 2 == 1 ==> 2 * n == p * p - 1
  {
    HalfOrderNonnegative(p);
    if p % 2 == 1 then OddSquareMinusOne(p); (p * p - 1) / 2 else (p * p - 1) / 2
  }

  lemma HalfOrderNonnegative(p: int)
    requires p > 1
    ensures (p * p - 1) / 2 >= 0
  {
    assert p * p >= p * 1;
  }

  /** `is_square`: zero, or a^((p^2-1)/2) == 1. */
  function IsSquare(p: int, a: Elem): (r: bool)
    requires p > 1
    ensures a == Zero() ==> r
    ensures Valid(p, a) && a != Zero() ==> (r <==> PowSpec(p, a, EulerExponent(p)) == One())
  {
    var n := EulerExponent(p);
    assert Valid(p, a) ==> Pow(p, a, n) == Ok(PowSpec(p, a, n)) by {
      if Valid(p, a) {
        PowComputesPower(p, a, n);
      }
    }
    a == Zero() || Pow(p, a, n) == Ok(One())
  }

  lemma PowOfZero(p: int, e: int)
    requires p > 1 && e >= 1
    ensures Pow(p, Zero(), e) == Ok(Zero())
  {
    PowComputesPower(p, Zero(), e);
    PowSpecOfZero(p, e);
  }

  lemma PowOfOne(p: int, e: int)
    requires p > 1 && e >= 0
    ensures Pow(p, One(), e) == Ok(One())
  {
    PowComputesPower(p, One(), e);
    PowSpecOfOne(p, e);
  }

  /** The square root of zero is zero. */
  lemma SqrtZero(p: int)
    requires p > 1 && p % 4 == 3
    ensures Sqrt(p, Zero()) == Ok(Zero())
  {
    SqrtExponents(p);
    var e1, e2 := (p - 1) / 2, (p + 1) / 4;
    SqrtWithZero(p, e1, e2);
    SqrtAt(p, Zero(), e1, e2);
  }

  /** `sqrt` is its body at the exponents e1 = (p-1)/2 and e2 = (p+1)/4. */
  lemma SqrtAt(p: int, a: Elem, e1: nat, e2: nat)
    requires p > 1 && e1 == (p - 1) / 2 && e2 == (p + 1) / 4
    ensures Sqrt(p, a) == SqrtWith(p, a, e1, e2)
  {
  }

  lemma SqrtWithZero(p: int, e1: nat, e2: nat)
    requires p > 1 && e1 >= 1 && e2 >= 1
    ensures SqrtWith(p, Zero(), e1, e2) == Ok(Zero())
  {
    ZeroCandidate(p, e1, e2);
    assert Square(p, Zero()) == Zero() by {
      MulZero(p, Zero());
    }
  }

  /** At a == 0 the candidate of `sqrt` is 0: h == 0, so u == 1 and u 0^e2 == 0. */
  lemma ZeroCandidate(p: int, e1: nat, e2: nat)
    requires p > 1 && e1 >= 1 && e2 >= 1
    ensures var h := Pow(p, Zero(), e1).value;
            var u := if h == MinusOne(p) then I() else Pow(p, Add(p, h, One()), e1).value;
            Mul(p, u, Pow(p, Zero(), e2).value) == Zero()
  {
    CorrectionAtZero(p, e1);
    assert Pow(p, Zero(), e2).value == Zero() by {
      PowOfZero(p, e2);
    }
    MulZero(p, One());
  }

  /** At a == 0 the correction factor u of `sqrt` is one: h == 0 is not -1, and 1^e1 == 1. */
  lemma CorrectionAtZero(p: int, e1: nat)
    requires p > 1 && e1 >= 1
    ensures var h := Pow(p, Zero(), e1).value;
            (if h == MinusOne(p) then I() else Pow(p, Add(p, h, One()), e1).value) == One()
  {
    assert Pow(p, Zero(), e1).value == Zero() by {
      PowOfZero(p, e1);
    }
    assert MinusOne(p) != Zero();
    assert Add(p, Zero(), One()) == One() by {
      AddZero(p, One());
    }
    PowOfOne(p, e1);
  }




  /**
   Lagrange's theorem in the multiplicative group of F_p(i), which has p^2 - 1 elements:
   every nonzero element raised to p^2 - 1 is one. Taken as a hypothesis of the lemmas
   that need it.
   */
  ghost predicate LagrangeOrder(p: int)
    requires p > 1
  {
    forall b :: Valid(p, b) && b != Zero() ==> PowSpec(p, b, p * p - 1) == One()
  }

  /** For odd p, p^2 - 1 is even. */
  lemma OddSquareMinusOne(p: int)
    requires p > 1 && p % 2 == 1
    ensures 2 * ((p * p - 1) / 2) == p * p - 1
  {
    var h := (p - 1) / 2;
    assert p == 2 * h + 1;
    assert p * p - 1 == 2 * (2 * h * h + 2 * h);
  }

  /** (b*b)^k computed by `__pow__` is b^(2k). */
  lemma PowOfSquare(p: int, b: Elem, k: nat)
    requires p > 1 && Valid(p, b)
    ensures Pow(p, Mul(p, b, b), k) == Ok(PowSpec(p, b, 2 * k))
  {
    PowComputesPower(p, Mul(p, b, b), k);
    PowSpecOfSquare(p, b, k);
  }

  /** Euler's criterion, the direction that holds for every square: b^2 passes `is_square`. */
  lemma SquaresPassEulerCriterion(p: int, b: Elem)
    requires p > 1 && p % 2 == 1 && LagrangeOrder(p)
    requires Valid(p, b)
    ensures IsSquare(p, Mul(p, b, b))
  {
    if b == Zero() {
      MulZero(p, b);
    } else {
      var k := EulerExponent(p);
      PowOfSquare(p, b, k);
      assert PowSpec(p, b, p * p - 1) == One();
    }
  }

  /** A successful square root certifies its input as a square. */
  lemma SqrtOnlyOnSquares(p: int, a: Elem)
    requires p > 1 && p % 2 == 1 && LagrangeOrder(p)
    ensures Sqrt(p, a).Ok? ==> IsSquare(p, a)
  {
    if Sqrt(p, a).Ok? {
      SquaresPassEulerCriterion(p, Sqrt(p, a).value);
    }
  }

  /**
   The freshman's dream in characteristic p: (a + b)^p == a^p + b^p. It follows from the
   binomial theorem, which this model does not develop; taken as a hypothesis of the lemmas
   that need it.
   */
  ghost predicate FrobeniusAdditive(p: int)
    requires p > 1
  {
    forall a, b :: Valid(p, a) && Valid(p, b) ==>
      PowSpec(p, Add(p, a, b), p) == Add(p, PowSpec(p, a, p), PowSpec(p, b, p))
  }

  /** Over a field, c x == c with c != 0 forces x == 1. */
  lemma CancelLeft(p: int, c: Elem, x: Elem)
    requires IsPrime(p) && MinusOneIsNonSquare(p)
    requires Valid(p, c) && Valid(p, x) && c != Zero()
    requires Mul(p, c, x) == c
    ensures x == One()
  {
    MulSub(p, c, x, One());
    MulOne(p, c);
    SubSelf(p, c);
    NoZeroDivisors(p, c, Sub(p, x, One()));
    SubZeroIff(p, x, One());
  }

  /** For p == 2 e + 1: e (p + 1) == (p^2 - 1) / 2. */
  lemma HalfOrderSplit(p: int, e: int)
    requires e >= 1 && p == 2 * e + 1
    ensures e * (p + 1) == EulerExponent(p)
  {
    assert p * p == 4 * (e * e) + 4 * e + 1;
    assert e * (p + 1) == 2 * (e * e) + 2 * e;
  }

  /** If a passes the Euler criterion, then h = a^((p-1)/2) satisfies h^(p+1) == 1. */
  lemma EulerPowerOrder(p: int, a: Elem)
    requires p > 1 && p % 2 == 1
    requires PowSpec(p, a, EulerExponent(p)) == One()
    ensures PowSpec(p, PowSpec(p, a, (p - 1) / 2), p + 1) == One()
  {
    var e1 := (p - 1) / 2;
    HalfOrderSplit(p, e1);
    PowSpecMul(p, a, e1, p + 1);
  }

  /** With c = h + 1 != 0 and h^(p+1) == 1: c^(p-1) h == 1, by the Frobenius c^p == h^p + 1. */
  lemma CorrectionFactor(p: int, h: Elem)
    requires IsPrime(p) && MinusOneIsNonSquare(p) && FrobeniusAdditive(p)
    requires Valid(p, h) && h != MinusOne(p) && PowSpec(p, h, p + 1) == One()
    ensures Mul(p, PowSpec(p, Add(p, h, One()), p - 1), h) == One()
  {
    var c := Add(p, h, One());
    var hp, q := PowSpec(p, h, p), PowSpec(p, c, p - 1);
    assert c != Zero() by {
      AddZeroIff(p, h, One());
    }
    assert Mul(p, h, hp) == One() by {
      PowSplitLast(p, h, p + 1);
    }
    assert Mul(p, c, q) == Add(p, hp, One()) by {
      PowSplitLast(p, c, p);
      FrobeniusShift(p, h);
    }
    ShiftedUnit(p, h, hp, q);
    CancelLeft(p, c, Mul(p, q, h));
  }

  /** The freshman's dream at b == 1: (h + 1)^p == h^p + 1. */
  lemma FrobeniusShift(p: int, h: Elem)
    requires p > 1 && FrobeniusAdditive(p) && Valid(p, h)
    ensures PowSpec(p, Add(p, h, One()), p) == Add(p, PowSpec(p, h, p), One())
  {
    PowSpecOfOne(p, p);
  }


  /** The ring identity behind `ConjugateRelation`: h' h == 1 and c q == h' + 1 give c (q h) == c. */
  lemma ShiftedUnit(p: int, h: Elem, h': Elem, q: Elem)
    requires p > 1 && Valid(p, h)
    requires Mul(p, h, h') == One() && Mul(p, Add(p, h, One()), q) == Add(p, h', One())
    ensures Mul(p, Add(p, h, One()), Mul(p, q, h)) == Add(p, h, One())
  {
    var c := Add(p, h, One());
    MulAssoc(p, c, q, h);
    MulComm(p, h, h');
    MulDistribRight(p, h', One(), h);
    MulOne(p, h);
    AddComm(p, One(), h);
  }


  /** a^n == a a^(n-1) for n >= 1. */
  lemma PowSplitLast(p: int, a: Elem, n: nat)
    requires p > 1 && n >= 1
    ensures PowSpec(p, a, n) == Mul(p, a, PowSpec(p, a, n - 1))
  {
  }



  /** (-1)(-1) == 1 */
  lemma MinusOneSquared(p: int)
    requires p > 1
    ensures Mul(p, MinusOne(p), MinusOne(p)) == One()
  {
    MulNeg(p, MinusOne(p), One());
    MulOne(p, MinusOne(p));
    NegNeg(p, One());
  }

  /**
   The converse of `SqrtOnlyOnSquares`, for p == 3 (mod 4): every element `is_square`
   accepts has a square root that `sqrt` finds. With h = a^((p-1)/2) the candidate squares
   to u^2 h a, and u^2 h == 1 in both branches: i^2 (-1) == 1, and (1 + h)^(p-1) h == 1.
   */
  lemma SquaresHaveRoots(p: int, a: Elem)
    requires IsPrime(p) && p % 4 == 3 && MinusOneIsNonSquare(p) && FrobeniusAdditive(p)
    requires Valid(p, a) && IsSquare(p, a)
    ensures Sqrt(p, a).Ok?
  {
    if a == Zero() {
      SqrtZero(p);
    } else {
      SqrtExponents(p);
      assert PowSpec(p, a, EulerExponent(p)) == One();
      EulerPowerOrder(p, a);
      SqrtWithSucceeds(p, a, (p - 1) / 2, (p + 1) / 4);
    }
  }

  /** The exponents of `sqrt` for p == 3 (mod 4): e1 = (p-1)/2 and 2 e2 == e1 + 1. */
  lemma SqrtExponents(p: int)
    requires p > 1 && p % 4 == 3
    ensures (p - 1) / 2 >= 1 && (p + 1) / 4 >= 1 && 2 * ((p + 1) / 4) == (p - 1) / 2 + 1
    ensures (p - 1) / 2 + (p - 1) / 2 == p - 1 && p % 2 == 1
  {
    var k := p / 4;
    assert p == 4 * k + 3;
    assert (p - 1) / 2 == 2 * k + 1;
    assert (p + 1) / 4 == k + 1;
  }

  /**
   The body of `sqrt` succeeds once h = a^e1 satisfies h^(p+1) == 1, for e1 + e1 == p - 1
   and 2 e2 == e1 + 1: the candidate u a^e2 squares to u^2 h a, and u^2 h == 1.
   */
  lemma SqrtWithSucceeds(p: int, a: Elem, e1: nat, e2: nat)
    requires IsPrime(p) && MinusOneIsNonSquare(p) && FrobeniusAdditive(p) && Valid(p, a)
    requires e1 >= 1 && e1 + e1 == p - 1 && 2 * e2 == e1 + 1
    requires PowSpec(p, PowSpec(p, a, e1), p + 1) == One()
    ensures SqrtWith(p, a, e1, e2).Ok?
  {
    PowComputesPower(p, a, e1);
    PowComputesPower(p, a, e2);
    var h := PowSpec(p, a, e1);
    var c := Add(p, h, One());
    PowComputesPower(p, c, e1);
    var u := if h == MinusOne(p) then I() else PowSpec(p, c, e1);
    var b := PowSpec(p, a, e2);
    CorrectionSquares(p, h, e1);
    HalfPowerSquares(p, a, e1, e2);
    CandidateSquares(p, u, b, h, a);
  }

  /** u^2 h == 1 for the u `sqrt` picks: i when h == -1, (1 + h)^e1 otherwise. */
  lemma CorrectionSquares(p: int, h: Elem, e1: nat)
    requires IsPrime(p) && MinusOneIsNonSquare(p) && FrobeniusAdditive(p)
    requires Valid(p, h) && e1 + e1 == p - 1 && PowSpec(p, h, p + 1) == One()
    ensures var u := if h == MinusOne(p) then I() else PowSpec(p, Add(p, h, One()), e1);
            Mul(p, Mul(p, u, u), h) == One()
  {
    if h == MinusOne(p) {
      ISquared(p);
      MinusOneSquared(p);
    } else {
      PowSpecAdd(p, Add(p, h, One()), e1, e1);
      CorrectionFactor(p, h);
    }
  }

  /** (a^e2)^2 == a^e1 a when 2 e2 == e1 + 1. */
  lemma HalfPowerSquares(p: int, a: Elem, e1: nat, e2: nat)
    requires p > 1 && Valid(p, a) && 2 * e2 == e1 + 1
    ensures Mul(p, PowSpec(p, a, e2), PowSpec(p, a, e2)) == Mul(p, PowSpec(p, a, e1), a)
  {
    PowSpecAdd(p, a, e2, e2);
    PowSpecLast(p, a, e2 + e2);
  }

  /** a^n == a^(n-1) a for n >= 1. */
  lemma PowSpecLast(p: int, a: Elem, n: nat)
    requires p > 1 && Valid(p, a) && n >= 1
    ensures PowSpec(p, a, n) == Mul(p, PowSpec(p, a, n - 1), a)
  {
    PowSpecAdd(p, a, n - 1, 1);
    PowSpecOne(p, a);
  }


  /** u^2 h == 1 and b^2 == h a give (u b)^2 == a. */
  lemma CandidateSquares(p: int, u: Elem, b: Elem, h: Elem, a: Elem)
    requires p > 1 && Valid(p, a)
    requires Mul(p, Mul(p, u, u), h) == One() && Mul(p, b, b) == Mul(p, h, a)
    ensures Mul(p, Mul(p, u, b), Mul(p, u, b)) == a
  {
    MulRegroup(p, u, b, u, b);
    MulAssoc(p, Mul(p, u, u), h, a);
    MulOne(p, a);
  }



  /**
   Both directions together: over F_p(i) with p == 3 (mod 4), `sqrt` succeeds exactly on
   the elements `is_square` accepts.
   */
  lemma SqrtSucceedsExactlyOnSquares(p: int, a: Elem)
    requires IsPrime(p) && p % 4 == 3 && MinusOneIsNonSquare(p)
    requires LagrangeOrder(p) && FrobeniusAdditive(p)
    requires Valid(p, a)
    ensures Sqrt(p, a).Ok? <==> IsSquare(p, a)
  {
    SqrtExponents(p);
    assert Sqrt(p, a).Ok? ==> IsSquare(p, a) by {
      SqrtOnlyOnSquares(p, a);
    }
    assert IsSquare(p, a) ==> Sqrt(p, a).Ok? by {
      if IsSquare(p, a) {
        SquaresHaveRoots(p, a);
      }
    }
  }

  /** a^n == a whenever a^(n-1) == 1 or a == 0. */
  lemma PowReturnsBase(p: int, a: Elem, n: nat)
    requires p > 1 && Valid(p, a) && n >= 1
    requires a != Zero() ==> PowSpec(p, a, n - 1) == One()
    ensures Pow(p, a, n) == Ok(a)
  {
    PowComputesPower(p, a, n);
    if a == Zero() {
      PowSpecOfZero(p, n);
    } else {
      PowSpecAdd(p, a, n - 1, 1);
      PowSpecOne(p, a);
      MulOne(p, a);
    }
  }

  /** a^(p^2) == a: raising to the field size is the identity. */
  lemma FrobeniusSquaredIsIdentity(p: int, a: Elem)
    requires p > 1 && LagrangeOrder(p)
    requires Valid(p, a)
    ensures Pow(p, a, p * p) == Ok(a)
  {
    assert p * p >= 1;
    PowReturnsBase(p, a, p * p);
  }
}

=== FILE: isogeny.dfy ===
/**
 2-isogenies whose kernel is a point of order two, and chains of them. The codomain and
 evaluation formulas of a single 2-isogeny and the strategy that splits a chain into steps
 are left open in isogeny.py; they are parameters here. The normalization of the kernel
 (through `_normalize` as written, the `x == s` shortcut of `_scale` included), the order-two
 test, the choice between the two kinds of kernel and the folding of a chain are modelled
 as written; `NewTwoIsogenyCorrected` is the same construction over the corrected
 normalization.
 */
module Isogeny {
  import opened Errors
  import opened ModArith
  import opened Fp2
  import opened Field
  import opened Curve

  /* ---------------- single 2-isogenies ---------------- */

  /**
   The two kinds of kernel `_compute` distinguishes: (alpha : 1) for a root alpha of
   x^2 + A x + 1, and (0 : 1), the point (0, 0).
   */
  datatype Kind = AtRoot | AtZero

  /**
   The open formulas of a 2-isogeny: the coefficient of the codomain from (A, xK), and the
   image (X, Z) of (x : z) from (A, xK, x, z), each for either kind of kernel.
   */
  datatype IsogenyFormulas = IsogenyFormulas(
    codomain: (Kind, Elem, Elem) -> Elem,
    image: (Kind, Elem, Elem, Elem, Elem) -> (Elem, Elem))

  /** A 2-isogeny from `domain` to `codomain` with the normalized kernel point `kernel`. */
  datatype TwoIsogeny = TwoIsogeny(kernel: Point, domain: Curve, codomain: Curve, kind: Kind)

  /** What a successfully constructed 2-isogeny satisfies. */
  predicate GoodIsogeny(phi: TwoIsogeny) {
    GoodCurve(phi.domain) && GoodCurve(phi.codomain)
    && phi.codomain.A.gf == phi.domain.A.gf
    && phi.kernel.E == phi.domain && GoodPoint(phi.kernel) && phi.kernel.z == One()
  }

  /**
   x (x (A + x) + 1), the value `_compute` requires to vanish, in the order it is computed:
   the right-hand side x^3 + A x^2 + x of the curve equation at x.
   */
  function OrderTwoTest(p: int, a: Elem, x: Elem): (r: Elem)
    requires p > 1
    ensures Valid(p, x) ==> r == MontgomeryRhs(p, a, x)
  {
    var t := Mul(p, x, Add(p, Mul(p, x, Add(p, a, x)), One()));
    assert Valid(p, x) ==> t == MontgomeryRhs(p, a, x) by {
      if Valid(p, x) {
        HornerForm(p, a, x);
      }
    }
    t
  }

  /** The field element (reduced) that an open formula returns as a coefficient. */
  function InField(E: Curve, v: Elem): (x: FieldElement)
    requires GoodCurve(E)
    ensures x.gf == E.A.gf && Canonical(x)
  {
    FieldElement(E.A.gf, Reduce(Modulus(E), v))
  }

  /**
   `TwoIsogeny.__init__` and `_compute`: the kernel is normalized by `_normalize` as written
   (in place in the source); the identity and every point whose normal form has a nonzero
   y-coordinate (x^3 + A x^2 + x != 0) raise ValueError; a nonzero abscissa selects the
   AtRoot formulas, zero the AtZero ones, and the codomain is the curve of the coefficient
   the formula yields.
   */
  function NewTwoIsogeny(g: IsogenyFormulas, K: Point): (r: Result<TwoIsogeny>)
    requires GoodPoint(K)
    ensures r.Err? ==> r.error in {ZeroDivision, NotOrderTwo, SingularCurve}
    ensures r.Err? && r.error == ZeroDivision <==> NormalizeAsWritten(K).Err?
    ensures NormalizeAsWritten(K).Ok? ==>
              (r.Err? && r.error == NotOrderTwo
               <==> !IsFinite(K) || MontgomeryRhs(Modulus(K.E), K.E.A.v, NormalizeAsWritten(K).value.x) != Zero())
    ensures r.Ok? ==> GoodIsogeny(r.value)
    ensures r.Ok? ==> NormalizeAsWritten(K).Ok? && r.value.domain == K.E && r.value.kernel == NormalizeAsWritten(K).value
    ensures r.Ok? ==> MontgomeryRhs(Modulus(K.E), K.E.A.v, r.value.kernel.x) == Zero()
    ensures r.Ok? ==> (r.value.kind == AtZero <==> r.value.kernel.x == Zero())
  {
    var N :- NormalizeAsWritten(K);
    if !IsFinite(N) then Err(NotOrderTwo) else TwoIsogenyOfNormalized(g, K.E, N)
  }

  /** The construction as intended: the kernel normalized by the corrected `Normalize`. */
  function NewTwoIsogenyCorrected(g: IsogenyFormulas, K: Point): (r: Result<TwoIsogeny>)
    requires GoodPoint(K)
    ensures r.Err? ==> r.error in {ZeroDivision, NotOrderTwo, SingularCurve}
    ensures r.Err? && r.error == ZeroDivision <==> Normalize(K).Err?
    ensures Normalize(K).Ok? ==>
              (r.Err? && r.error == NotOrderTwo
               <==> !IsFinite(K) || MontgomeryRhs(Modulus(K.E), K.E.A.v, Normalize(K).value.x) != Zero())
    ensures r.Ok? ==> GoodIsogeny(r.value)
    ensures r.Ok? ==> Normalize(K).Ok? && r.value.domain == K.E && r.value.kernel == Normalize(K).value
    ensures r.Ok? ==> MontgomeryRhs(Modulus(K.E), K.E.A.v, r.value.kernel.x) == Zero()
    ensures r.Ok? ==> (r.value.kind == AtZero <==> r.value.kernel.x == Zero())
  {
    var N :- Normalize(K);
    if !IsFinite(N) then Err(NotOrderTwo) else TwoIsogenyOfNormalized(g, K.E, N)
  }

  /** The part of `_compute` after the normalization of the kernel. */
  function TwoIsogenyOfNormalized(g: IsogenyFormulas, E: Curve, N: Point): (r: Result<TwoIsogeny>)
    requires GoodCurve(E) && N.E == E && Valid(Modulus(E), N.x)
    requires N.z == One()
    ensures r.Err? ==> r.error in {NotOrderTwo, SingularCurve}
    ensures r.Err? && r.error == NotOrderTwo <==> MontgomeryRhs(Modulus(E), E.A.v, N.x) != Zero()
    ensures r.Ok? ==> GoodIsogeny(r.value) && r.value.domain == E && r.value.kernel == N
    ensures r.Ok? ==> MontgomeryRhs(Modulus(E), E.A.v, N.x) == Zero()
    ensures r.Ok? ==> (r.value.kind == AtZero <==> N.x == Zero())
  {
    var p, a, x := Modulus(E), E.A.v, N.x;
    assert GoodPoint(N) by { SmallResidues(p); }
    if OrderTwoTest(p, a, x) != Zero() then Err(NotOrderTwo)
    else
      SmallResidues(p);
      var kind := if x != Zero() then AtRoot else AtZero;
      var C :- NewCurve(InField(E, g.codomain(kind, a, x)));
      assert GoodPoint(N);
      Ok(TwoIsogeny(N, E, C, kind))
  }

  /** The quadratic x^2 + A x + 1 whose roots are the abscissas of the AtRoot kernels. */
  function RootQuadratic(p: int, a: Elem, x: Elem): Elem
    requires p > 1
  {
    Add(p, Add(p, Mul(p, x, x), Mul(p, a, x)), One())
  }

  /** x (x (A + x) + 1) vanishes at a nonzero x exactly when x is a root of x^2 + A x + 1. */
  lemma OrderTwoAtNonzero(p: int, a: Elem, x: Elem)
    requires IsPrime(p) && MinusOneIsNonSquare(p)
    requires Valid(p, a) && Valid(p, x) && x != Zero()
    ensures OrderTwoTest(p, a, x) == Zero() <==> RootQuadratic(p, a, x) == Zero()
  {
    var inner := Add(p, Mul(p, x, Add(p, a, x)), One());
    InnerFactor(p, a, x);
    if OrderTwoTest(p, a, x) == Zero() {
      NoZeroDivisors(p, x, inner);
    } else if inner == Zero() {
      MulZero(p, x);
    }
  }

  /** The inner factor of the order-two test is x^2 + A x + 1. */
  lemma InnerFactor(p: int, a: Elem, x: Elem)
    requires p > 1
    ensures Add(p, Mul(p, x, Add(p, a, x)), One()) == RootQuadratic(p, a, x)
  {
    MulDistrib(p, x, a, x);
    MulComm(p, x, a);
    AddComm(p, Mul(p, a, x), Mul(p, x, x));
  }

  /**
   The comment on the `if xK:` branch of `TwoIsogeny._compute` holds: over a prime field an AtRoot kernel is (alpha : 1) with
   alpha^2 + A alpha + 1 == 0, and an AtZero kernel is (0 : 1).
   */
  lemma KernelKinds(g: IsogenyFormulas, K: Point)
    requires GoodPoint(K) && IsPrime(Modulus(K.E)) && MinusOneIsNonSquare(Modulus(K.E))
    requires NewTwoIsogeny(g, K).Ok?
    ensures NewTwoIsogeny(g, K).value.kind == AtRoot ==>
              RootQuadratic(Modulus(K.E), K.E.A.v, NewTwoIsogeny(g, K).value.kernel.x) == Zero()
    ensures NewTwoIsogeny(g, K).value.kind == AtZero ==>
              NewTwoIsogeny(g, K).value.kernel == Point(K.E, Zero(), One())
  {
    var phi := NewTwoIsogeny(g, K).value;
    var p, a, x := Modulus(K.E), K.E.A.v, phi.kernel.x;
    if phi.kind == AtRoot {
      OrderTwoAtNonzero(p, a, x);
    }
  }

  /**
   Over a prime field the kernel is always normalized, so ZeroDivisionError cannot occur;
   ValueError is raised exactly for the identity and for kernels whose normal form, as
   `_normalize` writes it, fails the test.
   */
  lemma TwoIsogenyErrorsOverPrimeFields(g: IsogenyFormulas, K: Point)
    requires GoodPoint(K) && IsPrime(Modulus(K.E)) && MinusOneIsNonSquare(Modulus(K.E))
    ensures NewTwoIsogeny(g, K).Err? ==> NewTwoIsogeny(g, K).error in {NotOrderTwo, SingularCurve}
    ensures NewTwoIsogeny(g, K).Err? && NewTwoIsogeny(g, K).error == NotOrderTwo <==>
              !IsFinite(K) || MontgomeryRhs(Modulus(K.E), K.E.A.v, NormalizeAsWritten(K).value.x) != Zero()
  {
    NormalizeAsWrittenSucceedsOnPoints(K);
  }

  /** Away from the `x == s` shortcut of `_scale` the construction is the intended one. */
  lemma NewTwoIsogenyOffShortcut(g: IsogenyFormulas, K: Point)
    requires GoodPoint(K) && !HitsShortcut(K)
    ensures NewTwoIsogeny(g, K) == NewTwoIsogenyCorrected(g, K)
  {
    NormalizeAsWrittenOffShortcut(K);
  }

  /** x^3 + A x^2 + x at x == 1 is A + 2. */
  lemma RhsAtOne(p: int, a: Elem)
    requires p > 1 && Valid(p, a)
    ensures MontgomeryRhs(p, a, One()) == Add(p, a, Two(p))
  {
    SmallResidues(p);
    MulOne(p, One());
    MulOne(p, a);
    AddComm(p, One(), a);
    AddAssoc(p, a, One(), One());
  }

  /**
   Every kernel in the shortcut position is rejected: `_normalize` turns it into (1 : 1),
   where the test evaluates to A + 2, which is nonzero on every curve `Curve` accepts.
   */
  lemma ShortcutKernelsRejected(g: IsogenyFormulas, K: Point)
    requires GoodPoint(K) && HitsShortcut(K) && NewCurve(K.E.A).Ok?
    ensures NewTwoIsogeny(g, K) == Err(NotOrderTwo)
  {
    ShortcutNormalForm(K);
    var N := NormalizeAsWritten(K).value;
    assert N.x == One();
    RhsAtOneNonzero(K.E.A);
    assert MontgomeryRhs(Modulus(K.E), K.E.A.v, N.x) != Zero();
    var r := NewTwoIsogeny(g, K);
    assert r.Err? && r.error == NotOrderTwo;
  }

  /** On a nonsingular curve, A != -2, the point (1 : 1) does not have order two. */
  lemma RhsAtOneNonzero(A: FieldElement)
    requires Canonical(A) && NewCurve(A).Ok?
    ensures MontgomeryRhs(A.gf.p, A.v, One()) != Zero()
  {
    var p := A.gf.p;
    assert A.v != Neg(p, Two(p));
    RhsAtOne(p, A.v);
    AddZeroIff(p, A.v, Two(p));
  }

  /**
   x^2 + A x z + z^2: the quadratic factor of the order-two condition on projective
   coordinates.
   */
  function ProjectiveQuadratic(p: int, a: Elem, x: Elem, z: Elem): Elem
    requires p > 1
  {
    Add(p, Add(p, Mul(p, x, x), Mul(p, Mul(p, a, x), z)), Mul(p, z, z))
  }

  /**
   A finite (x : z) with x (x^2 + A x z + z^2) == 0: a point of order two, stated on the
   projective coordinates, without normalizing.
   */
  predicate HasOrderTwo(K: Point)
    requires GoodCurve(K.E)
  {
    var p := Modulus(K.E);
    IsFinite(K) && Mul(p, K.x, ProjectiveQuadratic(p, K.E.A.v, K.x, K.z)) == Zero()
  }

  /** With z s == 1: (x s)^2 + A (x s) + 1 == s^2 (x^2 + A x z + z^2). */
  lemma ScaledQuadratic(p: int, a: Elem, x: Elem, z: Elem, s: Elem)
    requires p > 1 && Valid(p, s) && Mul(p, z, s) == One()
    ensures RootQuadratic(p, a, Mul(p, x, s)) == Mul(p, Mul(p, s, s), ProjectiveQuadratic(p, a, x, z))
  {
    var X, ss, ax := Mul(p, x, s), Mul(p, s, s), Mul(p, a, x);
    SmallResidues(p);
    MulDistrib(p, ss, Add(p, Mul(p, x, x), Mul(p, ax, z)), Mul(p, z, z));
    MulDistrib(p, ss, Mul(p, x, x), Mul(p, ax, z));
    assert Mul(p, ss, Mul(p, x, x)) == Mul(p, X, X) by {
      MulRegroup(p, s, s, x, x);
      MulComm(p, s, x);
    }
    assert Mul(p, ss, Mul(p, z, z)) == One() by {
      MulRegroup(p, s, s, z, z);
      MulComm(p, s, z);
      MulOne(p, One());
    }
    assert Mul(p, ss, Mul(p, ax, z)) == Mul(p, a, X) by {
      MulRegroup(p, s, s, ax, z);
      MulComm(p, s, z);
      MulOne(p, Mul(p, s, ax));
      MulAssoc(p, s, a, x);
      MulComm(p, s, a);
      MulAssoc(p, a, s, x);
      MulComm(p, s, x);
    }
  }

  /** Scaling a point of order two by the inverse of z gives an abscissa that passes the test. */
  lemma OrderTwoUnderScaling(p: int, a: Elem, x: Elem, z: Elem, s: Elem)
    requires p > 1 && Valid(p, s) && Mul(p, z, s) == One()
    requires Mul(p, x, ProjectiveQuadratic(p, a, x, z)) == Zero()
    ensures OrderTwoTest(p, a, Mul(p, x, s)) == Zero()
  {
    var X, ss, q := Mul(p, x, s), Mul(p, s, s), ProjectiveQuadratic(p, a, x, z);
    InnerFactor(p, a, X);
    ScaledQuadratic(p, a, x, z, s);
    MulComm(p, x, s);
    MulRegroup(p, s, x, ss, q);
    MulZero(p, Mul(p, s, ss));
  }

  /**
   The corrected construction accepts every kernel of order two: ValueError can only come
   from a singular codomain.
   */
  lemma CorrectedAcceptsOrderTwoKernels(g: IsogenyFormulas, K: Point)
    requires GoodPoint(K) && HasOrderTwo(K) && Normalize(K).Ok?
    ensures NewTwoIsogenyCorrected(g, K).Err? ==> NewTwoIsogenyCorrected(g, K).error == SingularCurve
  {
    var p, a := Modulus(K.E), K.E.A.v;
    var s := Inverse(p, K.z).value;
    NormalizeWith(K, s);
    OrderTwoUnderScaling(p, a, K.x, K.z, s);
  }

  /**
   The kernel names the point it was given. On a curve `Curve` accepts the shortcut never
   reaches a successful construction, so the as-written normal form is the corrected one.
   */
  lemma KernelIsGivenPoint(g: IsogenyFormulas, K: Point)
    requires GoodPoint(K) && NewCurve(K.E.A).Ok? && NewTwoIsogeny(g, K).Ok?
    ensures PointEquals(K, NewTwoIsogeny(g, K).value.kernel) == Ok(true)
  {
    if HitsShortcut(K) {
      ShortcutKernelsRejected(g, K);
      assert false;
    }
    NormalizeAsWrittenOffShortcut(K);
    NormalizeKeepsClass(K);
  }

  /** The corrected construction's kernel names the given point on every curve. */
  lemma CorrectedKernelIsGivenPoint(g: IsogenyFormulas, K: Point)
    requires GoodPoint(K) && NewTwoIsogenyCorrected(g, K).Ok?
    ensures PointEquals(K, NewTwoIsogenyCorrected(g, K).value.kernel) == Ok(true)
  {
    NormalizeKeepsClass(K);
  }

  /**
   The shortcut's effect on points of order two: on the curve with A == -(x^2 + z^2), a
   finite (x : z) with x == 1/z has order two, yet `_normalize` turns it into (1 : 1) and the
   isogeny is refused, while the corrected construction accepts it. Over F_7(i) the curve
   A = 1 and the point (4 : 2), which is (2, 0), are such an input.
   */
  lemma ShortcutRejectsOrderTwoKernel(g: IsogenyFormulas, K: Point)
    requires GoodPoint(K) && HitsShortcut(K) && NewCurve(K.E.A).Ok?
    requires K.E.A.v == Neg(Modulus(K.E), Add(Modulus(K.E), Mul(Modulus(K.E), K.x, K.x), Mul(Modulus(K.E), K.z, K.z)))
    ensures HasOrderTwo(K)
    ensures NewTwoIsogeny(g, K) == Err(NotOrderTwo)
    ensures NewTwoIsogenyCorrected(g, K) != Err(NotOrderTwo)
  {
    ShortcutPointHasOrderTwo(K);
    ShortcutKernelsRejected(g, K);
    NormalizeWith(K, K.x);
    CorrectedAcceptsOrderTwoKernels(g, K);
  }

  /** With x z == 1 and A == -(x^2 + z^2), x^2 + A x z + z^2 vanishes. */
  lemma ShortcutPointHasOrderTwo(K: Point)
    requires GoodPoint(K) && HitsShortcut(K)
    requires K.E.A.v == Neg(Modulus(K.E), Add(Modulus(K.E), Mul(Modulus(K.E), K.x, K.x), Mul(Modulus(K.E), K.z, K.z)))
    ensures HasOrderTwo(K)
  {
    var p, a, x, z := Modulus(K.E), K.E.A.v, K.x, K.z;
    var xx, zz := Mul(p, x, x), Mul(p, z, z);
    var S := Add(p, xx, zz);
    assert Mul(p, Mul(p, a, x), z) == a by {
      MulAssoc(p, a, x, z);
      MulComm(p, x, z);
      MulOne(p, a);
    }
    assert Add(p, Add(p, xx, a), zz) == Add(p, S, a) by {
      AddAssoc(p, xx, a, zz);
      AddComm(p, a, zz);
      AddAssoc(p, xx, zz, a);
    }
    assert Add(p, S, a) == Zero() by {
      NegNeg(p, S);
      AddZeroIff(p, S, a);
    }
    MulZero(p, x);
  }


  /**
   Conversely every affine point (x : 1) with x^3 + A x^2 + x == 0, that is every point
   (x, 0) of order two, is accepted as it is; only a singular codomain can make the
   construction fail.
   */
  lemma AffineOrderTwoAccepted(g: IsogenyFormulas, K: Point)
    requires GoodPoint(K) && K.z == One()
    requires MontgomeryRhs(Modulus(K.E), K.E.A.v, K.x) == Zero()
    ensures NewTwoIsogeny(g, K).Err? ==> NewTwoIsogeny(g, K).error == SingularCurve
    ensures NewTwoIsogeny(g, K).Ok? ==> NewTwoIsogeny(g, K).value.kernel == K
  {
    NormalizeAsWrittenAffine(K);
  }

  /** The point (0 : 1), which is (0, 0) on every Montgomery curve, has order two. */
  lemma OriginHasOrderTwo(E: Curve)
    requires GoodCurve(E)
    ensures GoodPoint(Point(E, Zero(), One()))
    ensures MontgomeryRhs(Modulus(E), E.A.v, Zero()) == Zero()
  {
    var p := Modulus(E);
    SmallResidues(p);
    HornerForm(p, E.A.v, Zero());
    MulZero(p, Add(p, Mul(p, Zero(), Add(p, E.A.v, Zero())), One()));
  }

  /**
   `TwoIsogeny.__call__`: the open image formula applied to (x : z), coerced into a point of
   the codomain. The source does not check that the point lies on the domain; an image
   (0 : 0) raises ValueError.
   */
  function Evaluate(g: IsogenyFormulas, phi: TwoIsogeny, P: Point): (r: Result<Point>)
    requires GoodIsogeny(phi)
    ensures r.Err? ==> r.error == InvalidProjectivePoint
    ensures r.Ok? ==> GoodPoint(r.value) && r.value.E == phi.codomain
  {
    var (X, Z) := g.image(phi.kind, phi.domain.A.v, phi.kernel.x, P.x, P.z);
    NewPoint(phi.codomain, Elt(InField(phi.codomain, X)), Elt(InField(phi.codomain, Z)))
  }

  /** The image depends on the coordinates of the point only, not on the curve it names. */
  lemma EvaluateIgnoresCurve(g: IsogenyFormulas, phi: TwoIsogeny, P: Point, E: Curve)
    requires GoodIsogeny(phi)
    ensures Evaluate(g, phi, Point(E, P.x, P.z)) == Evaluate(g, phi, P)
  {
  }

  /* ---------------- chains ---------------- */

  /** An isogeny chain: its steps, the curve it starts on and the curve it ends on. */
  datatype Chain = Chain(steps: seq<TwoIsogeny>, domain: Curve, codomain: Curve)

  /**
   The open `IsogenyChain._compute(K, n)`: the steps of a chain of length n with kernel K.
   It constructs 2-isogenies, so it may raise.
   */
  type ChainBuilder = (Point, nat) -> Result<seq<TwoIsogeny>>

  /** Every step is a 2-isogeny of the model. */
  predicate GoodSteps(steps: seq<TwoIsogeny>) {
    forall i :: 0 <= i < |steps| ==> GoodIsogeny(steps[i])
  }

  /** Each step starts where the previous one ends, the first on E. */
  predicate Connected(E: Curve, steps: seq<TwoIsogeny>) {
    (|steps| > 0 ==> steps[0].domain == E)
    && forall i :: 0 <= i < |steps| - 1 ==> steps[i + 1].domain == steps[i].codomain
  }

  /** The last step of a connected chain of good steps ends on a curve over the field of E. */
  lemma ChainStaysInField(E: Curve, steps: seq<TwoIsogeny>)
    requires GoodSteps(steps) && Connected(E, steps) && |steps| > 0
    ensures steps[|steps| - 1].codomain.A.gf == E.A.gf
  {
    StepInField(E, steps, |steps| - 1);
  }

  lemma {:induction false} StepInField(E: Curve, steps: seq<TwoIsogeny>, i: nat)
    requires GoodSteps(steps) && Connected(E, steps) && i < |steps|
    ensures steps[i].codomain.A.gf == E.A.gf
    decreases i
  {
    assert GoodIsogeny(steps[i]);
    if i > 0 {
      StepInField(E, steps, i - 1);
    }
  }

  /** A chain: good steps, ending where its last step ends. */
  predicate GoodChain(phi: Chain) {
    GoodSteps(phi.steps) && |phi.steps| > 0
    && phi.codomain == phi.steps[|phi.steps| - 1].codomain
  }

  /**
   `IsogenyChain.__init__`: n >= 1 is asserted before anything else; the codomain is that of
   the last step, so an empty list of steps raises IndexError.
   */
  function NewChain(build: ChainBuilder, K: Point, n: int): (r: Result<Chain>)
    ensures n < 1 ==> r == Err(AssertionFailed)
    ensures n >= 1 ==> (r.Err? <==> build(K, n).Err? || build(K, n).value == [])
    ensures n >= 1 && build(K, n).Ok? && build(K, n).value == [] ==> r == Err(EmptyChain)
    ensures r.Ok? ==> r.value.steps == build(K, n).value && r.value.domain == K.E
    ensures r.Ok? && GoodSteps(r.value.steps) ==> GoodChain(r.value)
  {
    if n < 1 then Err(AssertionFailed)
    else
      var steps :- build(K, n);
      if |steps| == 0 then Err(EmptyChain)
      else Ok(Chain(steps, K.E, steps[|steps| - 1].codomain))
  }

  /** The strategy returns steps that are 2-isogenies of the model (it builds them with NewTwoIsogeny). */
  ghost predicate YieldsGoodSteps(build: ChainBuilder) {
    forall K: Point, n: nat {:trigger build(K, n)} :: build(K, n).Ok? ==> GoodSteps(build(K, n).value)
  }

  /**
   What the chain strategy promises: n good steps, connected, starting on the curve of K.
   The length assertion of `test_isogenychain` checks the first part.
   */
  ghost predicate BuildsChains(build: ChainBuilder) {
    forall K: Point, n: nat {:trigger build(K, n)} :: build(K, n).Ok? ==>
      |build(K, n).value| == n && GoodSteps(build(K, n).value) && Connected(K.E, build(K, n).value)
  }

  /**
   With a strategy that keeps its promise, a chain of length n >= 1 that is built has n steps,
   runs from the curve of K, and ends where its last step ends.
   */
  lemma ChainHasRequestedLength(build: ChainBuilder, K: Point, n: int)
    requires BuildsChains(build) && n >= 1 && build(K, n).Ok?
    ensures NewChain(build, K, n).Ok?
    ensures |NewChain(build, K, n).value.steps| == n
    ensures GoodChain(NewChain(build, K, n).value)
    ensures Connected(K.E, NewChain(build, K, n).value.steps)
  {
    assert |build(K, n).value| == n;
  }

  /** Pushing a point through the steps in order; the first failing step's error propagates. */
  function ApplySteps(g: IsogenyFormulas, steps: seq<TwoIsogeny>, P: Point): (r: Result<Point>)
    requires GoodSteps(steps)
    ensures steps == [] ==> r == Ok(P)
    ensures r.Err? ==> r.error == InvalidProjectivePoint
    ensures r.Ok? && steps != [] ==> GoodPoint(r.value) && r.value.E == steps[|steps| - 1].codomain
    decreases |steps|
  {
    if steps == [] then Ok(P)
    else
      var Q :- Evaluate(g, steps[0], P);
      ApplySteps(g, steps[1..], Q)
  }

  /** `IsogenyChain.__call__`: the image of P lies on the codomain of the chain. */
  function ApplyChain(g: IsogenyFormulas, phi: Chain, P: Point): (r: Result<Point>)
    requires GoodChain(phi)
    ensures r.Err? ==> r.error == InvalidProjectivePoint
    ensures r.Ok? ==> GoodPoint(r.value) && r.value.E == phi.codomain
  {
    ApplySteps(g, phi.steps, P)
  }

  /** Continue a computation that may already have failed. */
  function Then(g: IsogenyFormulas, R: Result<Point>, steps: seq<TwoIsogeny>): Result<Point>
    requires GoodSteps(steps)
  {
    match R
    case Ok(Q) => ApplySteps(g, steps, Q)
    case Err(e) => Err(e)
  }

  /** Applying s1 + s2 is applying s1, then s2: a chain is the composition of its parts. */
  lemma {:induction false} ApplyStepsAppend(g: IsogenyFormulas, s1: seq<TwoIsogeny>,
                                            s2: seq<TwoIsogeny>, P: Point)
    requires GoodSteps(s1) && GoodSteps(s2)
    ensures GoodSteps(s1 + s2)
    ensures ApplySteps(g, s1 + s2, P) == Then(g, ApplySteps(g, s1, P), s2)
    decreases |s1|
  {
    if s1 == [] {
      assert s1 + s2 == s2;
    } else {
      assert (s1 + s2)[1..] == s1[1..] + s2;
      assert (s1 + s2)[0] == s1[0];
      var R := Evaluate(g, s1[0], P);
      if R.Ok? {
        ApplyStepsAppend(g, s1[1..], s2, R.value);
      }
    }
  }

  /** A one-step chain is its step. */
  lemma ApplySingleStep(g: IsogenyFormulas, phi: TwoIsogeny, P: Point)
    requires GoodIsogeny(phi)
    ensures GoodSteps([phi])
    ensures ApplySteps(g, [phi], P) == Evaluate(g, phi, P)
  {
    var R := Evaluate(g, phi, P);
    assert [phi][1..] == [];
  }
}

=== FILE: magic.dfy ===
/**
 The x-only building blocks of the verifier in magic.py: the three-point ladder that
 computes x(P + sQ) from x(P), x(Q) and x(P - Q), the x-only point difference that
 recovers x(P - Q) (or x(P + Q)) from x(P) and x(Q) with one square root, and their
 composition into the kernel point P + sQ.

 The ladder is correct relative to the x-only formulas, which curve.py leaves open: a
 naming relation reads points of the curve as x-coordinates of multiples aP + bQ, and the
 formulas are assumed to double and add names as x-only arithmetic does, where it is
 defined. One point may carry many names, so formulas with finitely many values meet the
 assumptions (`GridFormulasMeetHypotheses`).
 */
module Magic {
  import opened Errors
  import opened ModArith
  import opened Fp2
  import opened Fp2Pow
  import opened Field
  import opened Curve

  /* ---------------- the bits of the scalar ---------------- */

  /** `binary`: the bits of s, least significant first; there are none for s <= 0. */
  function Bits(s: int): (bs: seq<nat>)
    ensures forall i :: 0 <= i < |bs| ==> bs[i] <= 1
    ensures bs == [] <==> s <= 0
    decreases if s > 0 then s else 0
  {
    if s <= 0 then [] else [s % 2] + Bits(s / 2)
  }

  /** The number a sequence of bits, least significant first, denotes: the sum of bs[i] 2^i. */
  function BitsValue(bs: seq<nat>): nat {
    if bs == [] then 0 else bs[0] + 2 * BitsValue(bs[1..])
  }

  /** There are as many bits as `s.bit_length()` counts. */
  lemma {:induction false} BitsLength(s: int)
    ensures |Bits(s)| == BitLength(s)
    decreases if s > 0 then s else 0
  {
    if s > 0 {
      BitsLength(s / 2);
    }
  }

  /** The bits of a positive s denote s. */
  lemma {:induction false} BitsDenoteScalar(s: int)
    ensures BitsValue(Bits(s)) == if s > 0 then s else 0
    decreases if s > 0 then s else 0
  {
    if s > 0 {
      BitsDenoteScalar(s / 2);
      assert Bits(s)[1..] == Bits(s / 2);
    }
  }

  /* ---------------- the ladder ---------------- */

  /** The test `P.z == 1` on a point with a canonical z; only a finite point passes it. */
  function IsAffine(P: Point): (r: bool)
    ensures r ==> IsFinite(P)
  {
    P.z == One()
  }

  /** Comparing z with the integer 1 through the field's `==` is the test `IsAffine`. */
  lemma AffineTest(P: Point)
    requires GoodPoint(P)
    ensures Equals(FieldElement(P.E.A.gf, P.z), Int(1)) == Ok(IsAffine(P))
  {
    var p := Modulus(P.E);
    SmallResidues(p);
    ReduceValid(p, One());
    if Equiv(p, P.z, One()) {
      ReduceEquiv(p, P.z, One());
      ReduceValid(p, P.z);
    }
  }

  /**
   The loop of `three_point_ladder` over the remaining bits: bit 1 replaces P1 by
   xADD(P0, P1, P2), bit 0 replaces P2 by xADD(P0, P2, P1), and either way P0 is doubled
   next. The first failing call ends the loop with its error.
   */
  function LadderSteps(f: XFormulas, E: Curve, bits: seq<nat>, P0: Point, P1: Point, P2: Point)
    : (r: Result<Point>)
    requires GoodCurve(E) && GoodCurve(P0.E) && GoodCurve(P1.E) && GoodCurve(P2.E)
    ensures bits == [] ==> r == Ok(P1)
    ensures bits != [] ==> (r.Ok? <==> P0.E == E && P1.E == E && P2.E == E)
    ensures bits != [] && r.Ok? ==> r.value.E == E
    ensures r.Err? ==> r.error == FieldMismatch || r.error == NotOnThisCurve
    decreases |bits|
  {
    if bits == [] then Ok(P1)
    else if bits[0] == 1 then
      var P1' :- XAdd(f, E, P0, P1, P2);
      var P0' := XDbl(f, E, P0).value;
      LadderSteps(f, E, bits[1..], P0', P1', P2)
    else
      var P2' :- XAdd(f, E, P0, P2, P1);
      var P0' := XDbl(f, E, P0).value;
      LadderSteps(f, E, bits[1..], P0', P1, P2')
  }

  /**
   `three_point_ladder(P, Q, PmQ, s)`: AssertionError unless all three points are affine;
   then the loop runs over the bits of s from (P0, P1, P2) == (Q, P, PmQ) on the curve of
   P and returns P1.
   */
  function ThreePointLadder(f: XFormulas, P: Point, Q: Point, PmQ: Point, s: int): (r: Result<Point>)
    requires GoodPoint(P) && GoodPoint(Q) && GoodPoint(PmQ)
    ensures !IsAffine(P) || !IsAffine(Q) || !IsAffine(PmQ) ==> r == Err(AssertionFailed)
    ensures IsAffine(P) && IsAffine(Q) && IsAffine(PmQ) && s <= 0 ==> r == Ok(P)
    ensures IsAffine(P) && IsAffine(Q) && IsAffine(PmQ) && s > 0
            ==> (r.Ok? <==> Q.E == P.E && PmQ.E == P.E)
    ensures r.Ok? ==> r.value.E == P.E
  {
    if !IsAffine(P) || !IsAffine(Q) || !IsAffine(PmQ) then Err(AssertionFailed)
    else LadderSteps(f, P.E, Bits(s), Q, P, PmQ)
  }

  /* ---------------- symbolic points ---------------- */

  /** The point a P + b Q, for a fixed basis P, Q of the 2^f-torsion. */
  datatype Sym = Sym(a: int, b: int)

  function SymAdd(u: Sym, v: Sym): Sym {
    Sym(u.a + v.a, u.b + v.b)
  }

  function SymSub(u: Sym, v: Sym): Sym {
    Sym(u.a - v.a, u.b - v.b)
  }

  /** n or -n. */
  function Signed(flip: bool, n: int): int {
    if flip then -n else n
  }

  /**
   `names(R, u)`: R is the x-coordinate of u.a P + u.b Q. An x-coordinate forgets the sign
   and multiples of 2^f, so one point carries many names: every +-u modulo 2^f.
   */
  type Naming = (Point, Sym) -> bool

  /** x(T) is neither infinity nor 0: the differences for which xADD is defined. */
  predicate Generic(T: Point) {
    IsFinite(T) && T.x != Zero()
  }

  /**
   A point whose P part is odd has order 2^f >= 4, so it is neither the identity (1 : 0)
   nor the point (0 : 1) of order two.
   */
  ghost predicate OddNamesGeneric(names: Naming) {
    forall R: Point, u: Sym {:trigger names(R, u)} :: names(R, u) && u.a % 2 == 1 ==> Generic(R)
  }

  /** Doubling a point named u gives a point named 2u. */
  ghost predicate DoublesLabels(f: XFormulas, E: Curve, names: Naming) {
    forall R: Point, u: Sym {:trigger names(DblPoint(f, E, R), SymAdd(u, u))} ::
      R.E == E && names(R, u) ==> names(DblPoint(f, E, R), SymAdd(u, u))
  }

  /**
   Differential addition: with R named r, S named s and a generic difference T named t,
   where t is s - r or s + r, the result is named 2s - t, that is r + s or s - r. These are
   x(R + S) from x(R - S) and x(R - S) from x(R + S), which is what xADD computes.
   */
  ghost predicate AddsLabels(f: XFormulas, E: Curve, names: Naming) {
    forall R: Point, S: Point, T: Point, r: Sym, s: Sym, t: Sym
      {:trigger names(AddPoint(f, E, R, S, T), SymSub(SymAdd(s, s), t)), names(R, r)} ::
      R.E == E && S.E == E && T.E == E && Generic(T)
      && names(R, r) && names(S, s) && names(T, t) && (t == SymSub(s, r) || t == SymAdd(s, r))
      ==> names(AddPoint(f, E, R, S, T), SymSub(SymAdd(s, s), t))
  }

  /** Doubling P0 named u gives a point named u' == 2u. */
  lemma DoubleAtStep(f: XFormulas, E: Curve, names: Naming, P0: Point, u: Sym, u': Sym)
    requires DoublesLabels(f, E, names) && P0.E == E && names(P0, u) && u' == SymAdd(u, u)
    ensures names(DblPoint(f, E, P0), u')
  {
  }

  /** An addition whose difference has an odd P part is named 2s - t. */
  lemma AddAtStep(f: XFormulas, E: Curve, names: Naming, R: Point, S: Point, T: Point,
                  r: Sym, s: Sym, t: Sym, x: Sym)
    requires AddsLabels(f, E, names) && OddNamesGeneric(names)
    requires R.E == E && S.E == E && T.E == E
    requires names(R, r) && names(S, s) && names(T, t) && t.a % 2 == 1
    requires t == SymSub(s, r) || t == SymAdd(s, r)
    requires x == SymSub(SymAdd(s, s), t)
    ensures names(AddPoint(f, E, R, S, T), x)
  {
    assert Generic(T);
  }

  /** One loop iteration as the loop on the remaining bits. */
  lemma LadderStep(f: XFormulas, E: Curve, bits: seq<nat>, P0: Point, P1: Point, P2: Point)
    requires GoodCurve(E) && P0.E == E && P1.E == E && P2.E == E && bits != []
    ensures LadderSteps(f, E, bits, P0, P1, P2)
            == if bits[0] == 1
               then LadderSteps(f, E, bits[1..], DblPoint(f, E, P0), AddPoint(f, E, P0, P1, P2), P2)
               else LadderSteps(f, E, bits[1..], DblPoint(f, E, P0), P1, AddPoint(f, E, P0, P2, P1))
  {
  }

  /** pk (b + 2 v) == b pk + (2 pk) v */
  lemma ShiftedValue(pk: int, b: int, v: int)
    ensures pk * (b + 2 * v) == b * pk + (2 * pk) * v
  {
    IntDistribLeft(pk, b, 2 * v);
    IntMulAssoc(pk, 2, v);
  }

  /**
   The invariant of the ladder loop on names, with pk == 2^k and d == m - 2^k: P0, P1, P2
   are named 2^k Q, P + m Q and P + d Q, with the sign of Q flipped throughout when `flip`.
   */
  ghost predicate Labelled(names: Naming, P0: Point, P1: Point, P2: Point,
                           pk: int, m: int, d: int, flip: bool) {
    && pk >= 1 && d == m - pk
    && names(P0, Sym(0, Signed(flip, pk)))
    && names(P1, Sym(1, Signed(flip, m)))
    && names(P2, Sym(1, Signed(flip, d)))
  }

  /**
   The loop invariant: if P0, P1, P2 are named 2^k Q, P + m Q and P + d Q with
   d == m - 2^k (and pk == 2^k), the remaining bits bs leave P1 named
   P + (m + 2^k value(bs)) Q.
   */
  lemma {:induction false} LadderStepsFollowLabels(f: XFormulas, E: Curve, names: Naming,
      bits: seq<nat>, P0: Point, P1: Point, P2: Point, pk: int, m: int, d: int, flip: bool)
    requires GoodCurve(E) && P0.E == E && P1.E == E && P2.E == E
    requires DoublesLabels(f, E, names) && AddsLabels(f, E, names) && OddNamesGeneric(names)
    requires forall i :: 0 <= i < |bits| ==> bits[i] <= 1
    requires Labelled(names, P0, P1, P2, pk, m, d, flip)
    ensures LadderSteps(f, E, bits, P0, P1, P2).Ok?
    ensures names(LadderSteps(f, E, bits, P0, P1, P2).value,
                  Sym(1, Signed(flip, m + pk * BitsValue(bits))))
    decreases |bits|, 1
  {
    if bits == [] {
      assert m + pk * BitsValue(bits) == m;
    } else if bits[0] == 1 {
      LadderBitOne(f, E, names, bits, P0, P1, P2, pk, m, d, flip);
    } else {
      LadderBitZero(f, E, names, bits, P0, P1, P2, pk, m, d, flip);
    }
  }

  /** The invariant through an iteration on bit 1, then the rest of the loop. */
  lemma {:induction false} LadderBitOne(f: XFormulas, E: Curve, names: Naming,
      bits: seq<nat>, P0: Point, P1: Point, P2: Point, pk: int, m: int, d: int, flip: bool)
    requires GoodCurve(E) && P0.E == E && P1.E == E && P2.E == E
    requires DoublesLabels(f, E, names) && AddsLabels(f, E, names) && OddNamesGeneric(names)
    requires forall i :: 0 <= i < |bits| ==> bits[i] <= 1
    requires Labelled(names, P0, P1, P2, pk, m, d, flip)
    requires bits != [] && bits[0] == 1
    ensures LadderSteps(f, E, bits, P0, P1, P2).Ok?
    ensures names(LadderSteps(f, E, bits, P0, P1, P2).value,
                  Sym(1, Signed(flip, m + pk * BitsValue(bits))))
    decreases |bits|, 0
  {
    var rest := bits[1..];
    var pk', m' := 2 * pk, m + pk;
    var P0', P1' := DblPoint(f, E, P0), AddPoint(f, E, P0, P1, P2);
    var r, s, t := Sym(0, Signed(flip, pk)), Sym(1, Signed(flip, m)), Sym(1, Signed(flip, d));
    DoubleAtStep(f, E, names, P0, r, Sym(0, Signed(flip, pk')));
    AddAtStep(f, E, names, P0, P1, P2, r, s, t, Sym(1, Signed(flip, m')));
    LadderStep(f, E, bits, P0, P1, P2);
    LadderStepsFollowLabels(f, E, names, rest, P0', P1', P2, pk', m', d, flip);
    ShiftedValue(pk, 1, BitsValue(rest));
    assert m + pk * BitsValue(bits) == m' + pk' * BitsValue(rest);
  }

  /** The invariant through an iteration on bit 0, then the rest of the loop. */
  lemma {:induction false} LadderBitZero(f: XFormulas, E: Curve, names: Naming,
      bits: seq<nat>, P0: Point, P1: Point, P2: Point, pk: int, m: int, d: int, flip: bool)
    requires GoodCurve(E) && P0.E == E && P1.E == E && P2.E == E
    requires DoublesLabels(f, E, names) && AddsLabels(f, E, names) && OddNamesGeneric(names)
    requires forall i :: 0 <= i < |bits| ==> bits[i] <= 1
    requires Labelled(names, P0, P1, P2, pk, m, d, flip)
    requires bits != [] && bits[0] == 0
    ensures LadderSteps(f, E, bits, P0, P1, P2).Ok?
    ensures names(LadderSteps(f, E, bits, P0, P1, P2).value,
                  Sym(1, Signed(flip, m + pk * BitsValue(bits))))
    decreases |bits|, 0
  {
    var rest := bits[1..];
    var pk', d' := 2 * pk, m - 2 * pk;
    var P0', P2' := DblPoint(f, E, P0), AddPoint(f, E, P0, P2, P1);
    var r, s, t := Sym(0, Signed(flip, pk)), Sym(1, Signed(flip, d)), Sym(1, Signed(flip, m));
    DoubleAtStep(f, E, names, P0, r, Sym(0, Signed(flip, pk')));
    AddAtStep(f, E, names, P0, P2, P1, r, s, t, Sym(1, Signed(flip, d')));
    LadderStep(f, E, bits, P0, P1, P2);
    LadderStepsFollowLabels(f, E, names, rest, P0', P1, P2', pk', m, d', flip);
    ShiftedValue(pk, 0, BitsValue(rest));
    assert m + pk * BitsValue(bits) == m + pk' * BitsValue(rest);
  }

  /**
   The ladder computes the kernel point: for affine P, Q on one curve and a third affine
   point named P - Q, it returns a point named P + sQ. When the third point is P + Q
   instead (`flip`), reading Q as -Q, which names the same x-coordinate, makes it P - (-Q),
   and the result is named P - sQ.
   */
  lemma ThreePointLadderComputesKernel(f: XFormulas, names: Naming, P: Point, Q: Point,
                                       PmQ: Point, s: nat, flip: bool)
    requires GoodPoint(P) && GoodPoint(Q) && GoodPoint(PmQ)
    requires IsAffine(P) && IsAffine(Q) && IsAffine(PmQ)
    requires Q.E == P.E && PmQ.E == P.E
    requires DoublesLabels(f, P.E, names) && AddsLabels(f, P.E, names) && OddNamesGeneric(names)
    requires names(P, Sym(1, 0)) && names(Q, Sym(0, Signed(flip, 1)))
    requires names(PmQ, Sym(1, Signed(flip, -1)))
    ensures ThreePointLadder(f, P, Q, PmQ, s).Ok?
    ensures names(ThreePointLadder(f, P, Q, PmQ, s).value, Sym(1, Signed(flip, s)))
  {
    assert Signed(flip, 0) == 0;
    LadderStepsFollowLabels(f, P.E, names, Bits(s), Q, P, PmQ, 1, 0, -1, flip);
    BitsDenoteScalar(s);
  }

  /* ---------------- formulas with finitely many values ---------------- */

  /** The point u.a P + u.b Q of the group (Z/4)^2, written as (u.a + u.b i : 1) mod 4. */
  function GridPoint(u: Sym): Elem {
    Elem(u.a % 4, u.b % 4)
  }

  function GridNames(R: Point, u: Sym): bool {
    R.x == GridPoint(u) && R.z == One()
  }

  /** Doubling in (Z/4)^2. */
  function GridDbl(A: Elem, x: Elem, z: Elem): (Elem, Elem) {
    (GridPoint(Sym(2 * x.re, 2 * x.im)), One())
  }

  /** 2S - T in (Z/4)^2: S + R when T == S - R, and S - R when T == S + R. */
  function GridAdd(x1: Elem, z1: Elem, x2: Elem, z2: Elem, x3: Elem, z3: Elem): (Elem, Elem) {
    (GridPoint(Sym(2 * x2.re - x3.re, 2 * x2.im - x3.im)), One())
  }

  function GridFormulas(): XFormulas {
    XFormulas(GridDbl, GridAdd)
  }

  /** (2 (a mod 4) - (b mod 4)) and 2a - b agree mod 4. */
  lemma GridResidue(a: int, b: int)
    ensures (2 * (a % 4) - b % 4) % 4 == (2 * a - b) % 4
  {
    var x := 2 * (a % 4) - b % 4;
    assert 2 * a - b == x + (2 * (a / 4) - b / 4) * 4;
    ModAddMultiple(x, 2 * (a / 4) - b / 4, 4);
  }

  /**
   The hypotheses of the ladder lemmas are met by formulas whose values repeat: on the
   group (Z/4)^2 the grid formulas respect `DoublesLabels`, `AddsLabels` and
   `OddNamesGeneric`, and doubling the point named Q twice or three times gives the
   same point.
   */
  lemma GridFormulasMeetHypotheses(E: Curve)
    ensures DoublesLabels(GridFormulas(), E, GridNames)
    ensures AddsLabels(GridFormulas(), E, GridNames)
    ensures OddNamesGeneric(GridNames)
    ensures GridNames(Point(E, I(), One()), Sym(0, 1))
    ensures var Q2 := DblPoint(GridFormulas(), E, DblPoint(GridFormulas(), E, Point(E, I(), One())));
            DblPoint(GridFormulas(), E, Q2) == Q2
  {
    GridDoubles(E);
    GridAdds(E);
    GridOddGeneric();
  }

  /**
   Every hypothesis of `ThreePointLadderComputesKernel` holds at once for the grid formulas
   on the affine points (1 : 1), (i : 1) and (1 + 3i : 1) of a curve over p > 3, named P, Q
   and P - Q: the ladder returns the point (1 + (s mod 4) i : 1) named P + sQ.
   */
  lemma GridLadderComputesKernel(E: Curve, s: nat)
    requires GoodCurve(E) && Modulus(E) > 3
    ensures var P, Q, PmQ := Point(E, One(), One()), Point(E, I(), One()), Point(E, Elem(1, 3), One());
            && ThreePointLadder(GridFormulas(), P, Q, PmQ, s).Ok?
            && ThreePointLadder(GridFormulas(), P, Q, PmQ, s).value == Point(E, Elem(1, s % 4), One())
  {
    var P, Q, PmQ := Point(E, One(), One()), Point(E, I(), One()), Point(E, Elem(1, 3), One());
    GridFormulasMeetHypotheses(E);
    assert GridNames(PmQ, Sym(1, Signed(false, -1)));
    ThreePointLadderComputesKernel(GridFormulas(), GridNames, P, Q, PmQ, s, false);
    assert ThreePointLadder(GridFormulas(), P, Q, PmQ, s).value.E == E;
  }

  lemma GridDoubles(E: Curve)
    ensures DoublesLabels(GridFormulas(), E, GridNames)
  {
    var f := GridFormulas();
    forall R: Point, u: Sym | R.E == E && GridNames(R, u)
      ensures GridNames(DblPoint(f, E, R), SymAdd(u, u))
    {
      GridResidue(u.a, 0);
      GridResidue(u.b, 0);
    }
  }

  lemma GridAdds(E: Curve)
    ensures AddsLabels(GridFormulas(), E, GridNames)
  {
    var f := GridFormulas();
    forall R: Point, S: Point, T: Point, s: Sym, t: Sym | GridNames(S, s) && GridNames(T, t)
      ensures GridNames(AddPoint(f, E, R, S, T), SymSub(SymAdd(s, s), t))
    {
      GridAddResidue(S.x, T.x, s, t);
    }
  }

  /** The grid addition on points named s and t gives the point named 2s - t. */
  lemma GridAddResidue(x2: Elem, x3: Elem, s: Sym, t: Sym)
    requires x2 == GridPoint(s) && x3 == GridPoint(t)
    ensures GridPoint(Sym(2 * x2.re - x3.re, 2 * x2.im - x3.im)) == GridPoint(SymSub(SymAdd(s, s), t))
  {
    GridResidue(s.a, t.a);
    GridResidue(s.b, t.b);
  }

  lemma GridOddGeneric()
    ensures OddNamesGeneric(GridNames)
  {
    forall R: Point, u: Sym | GridNames(R, u) && u.a % 2 == 1
      ensures Generic(R)
    {
      assert u.a % 4 != 0;
    }
  }

  /* ---------------- the point difference ---------------- */

  /** t1 = (x1 x2 + 1)(x1 + x2) + 2 A x1 x2, in the order `point_difference` computes it. */
  function CrossTerm(p: int, a: Elem, x1: Elem, x2: Elem): Elem
    requires p > 1
  {
    var t2 := Mul(p, x1, x2);
    Add(p, Mul(p, Add(p, t2, One()), Add(p, x1, x2)), Double(p, Mul(p, t2, a)))
  }

  /** t1^2 - ((x1 - x2)(x1 x2 - 1))^2, the value whose square root `point_difference` takes. */
  function Discriminant(p: int, a: Elem, x1: Elem, x2: Elem): Elem
    requires p > 1
  {
    var c := Mul(p, Sub(p, x1, x2), Sub(p, Mul(p, x1, x2), One()));
    Sub(p, Square(p, CrossTerm(p, a, x1, x2)), Square(p, c))
  }

  /**
   The quadratic (x1 - x2)^2 X^2 - 2 t1 X + (x1 x2 - 1)^2 whose two roots are x(P + Q) and
   x(P - Q) for affine points with x-coordinates x1 and x2 on the curve with coefficient a.
   */
  function DifferenceQuadratic(p: int, a: Elem, x1: Elem, x2: Elem, X: Elem): Elem
    requires p > 1
  {
    var d := Sub(p, x1, x2);
    var e := Sub(p, Mul(p, x1, x2), One());
    var t1 := CrossTerm(p, a, x1, x2);
    Add(p, Sub(p, Mul(p, Mul(p, d, d), Mul(p, X, X)), Mul(p, Double(p, t1), X)), Mul(p, e, e))
  }

  /**
   `point_difference(xP, xQ)`: AssertionError unless both points are affine and on the
   same curve (comparing the curves raises TypeError across fields); the arithmetic on
   the two x-coordinates follows in `AffineDifference`.
   */
  function PointDifference(xP: Point, xQ: Point): (r: Result<Point>)
    requires GoodPoint(xP) && GoodPoint(xQ)
    ensures !IsAffine(xP) || !IsAffine(xQ) ==> r == Err(AssertionFailed)
    ensures IsAffine(xP) && IsAffine(xQ) && xP.E != xQ.E
            ==> r == Err(if xP.E.A.gf != xQ.E.A.gf then FieldMismatch else AssertionFailed)
    ensures IsAffine(xP) && IsAffine(xQ) && xP.E == xQ.E ==> r == AffineDifference(xP.E, xP.x, xQ.x)
    ensures r.Ok? ==> xQ.E == xP.E
  {
    if !IsAffine(xP) || !IsAffine(xQ) then Err(AssertionFailed)
    else
      var same :- CurveEquals(xP.E, xQ.E);
      if !same then Err(AssertionFailed)
      else AffineDifference(xP.E, xP.x, xQ.x)
  }

  /**
   The arithmetic of `point_difference` on affine x-coordinates x1 and x2: AssertionError
   unless the discriminant is a square; `sqrt` may still raise, and the final division
   raises ZeroDivisionError when (x1 - x2)^2 has no inverse. The result
   (t0 + t1) / (x1 - x2)^2, with t0 the square root, is returned as an affine point of E,
   and it is a root of the quadratic whose roots are x(P + Q) and x(P - Q).
   */
  function AffineDifference(E: Curve, x1: Elem, x2: Elem): (r: Result<Point>)
    requires GoodCurve(E) && Valid(Modulus(E), x1) && Valid(Modulus(E), x2)
    ensures !IsSquare(Modulus(E), Discriminant(Modulus(E), E.A.v, x1, x2)) ==> r == Err(AssertionFailed)
    ensures r.Err? ==> r.error in {AssertionFailed, NotASquare, ZeroDivision}
    ensures r.Ok? ==> GoodPoint(r.value) && r.value.E == E && IsAffine(r.value)
    ensures r.Ok? ==> DifferenceQuadratic(Modulus(E), E.A.v, x1, x2, r.value.x) == Zero()
  {
    var p, a := Modulus(E), E.A.v;
    var z := Square(p, Sub(p, x1, x2));
    var t1 := CrossTerm(p, a, x1, x2);
    var disc := Discriminant(p, a, x1, x2);
    if !IsSquare(p, disc) then Err(AssertionFailed)
    else
      var root :- Sqrt(p, disc);
      var w :- Inverse(p, z);
      var X := Mul(p, Add(p, root, t1), w);
      DifferenceIsRoot(p, a, x1, x2, root, w);
      ReduceValid(p, X);
      NewAffinePoint(E, Elt(FieldElement(E.A.gf, X)))
  }

  /** The value `point_difference` returns is a root of the quadratic. */
  lemma DifferenceIsRoot(p: int, a: Elem, x1: Elem, x2: Elem, root: Elem, w: Elem)
    requires p > 1 && Valid(p, root) && Valid(p, w)
    requires Mul(p, root, root) == Discriminant(p, a, x1, x2)
    requires Mul(p, Square(p, Sub(p, x1, x2)), w) == One()
    ensures DifferenceQuadratic(p, a, x1, x2, Mul(p, Add(p, root, CrossTerm(p, a, x1, x2)), w)) == Zero()
  {
    var d := Sub(p, x1, x2);
    var e := Sub(p, Mul(p, x1, x2), One());
    var z, c := Mul(p, d, d), Mul(p, e, e);
    var t := CrossTerm(p, a, x1, x2);
    var y := Add(p, root, t);
    var X := Mul(p, y, w);
    var q := DifferenceQuadratic(p, a, x1, x2, X);
    assert Mul(p, z, X) == y by {
      UnitCancels(p, z, w, y);
    }
    assert Mul(p, z, c) == Square(p, Mul(p, d, e)) by {
      MulRegroup(p, d, e, d, e);
    }
    assert Sub(p, Mul(p, y, y), Mul(p, Double(p, t), y)) == Sub(p, Mul(p, root, root), Mul(p, t, t)) by {
      MulSubRight(p, y, Double(p, t), y);
      SumMinusDouble(p, root, t);
      DifferenceOfSquares(p, root, t);
    }
    assert Mul(p, z, q) == Zero() by {
      ScaleQuadratic(p, z, X, t, c);
      SubtractAndRestore(p, Mul(p, t, t), Mul(p, z, c));
    }
    assert q == Zero() by {
      MulComm(p, z, w);
      UnitCancels(p, w, z, q);
      MulZero(p, w);
    }
  }

  /** z (w y) == y when z w == 1 and y is canonical. */
  lemma UnitCancels(p: int, z: Elem, w: Elem, y: Elem)
    requires p > 1 && Valid(p, y)
    requires Mul(p, z, w) == One()
    ensures Mul(p, z, Mul(p, y, w)) == y
    ensures Mul(p, w, Mul(p, z, y)) == y
  {
    MulComm(p, y, w);
    MulAssoc(p, z, w, y);
    MulComm(p, z, w);
    MulAssoc(p, w, z, y);
    MulOne(p, y);
  }

  /** z (z x^2 - 2 t x + c) == (z x)^2 - 2 t (z x) + z c */
  lemma ScaleQuadratic(p: int, z: Elem, x: Elem, t: Elem, c: Elem)
    requires p > 1
    ensures Mul(p, z, Add(p, Sub(p, Mul(p, z, Mul(p, x, x)), Mul(p, Double(p, t), x)), c))
            == Add(p, Sub(p, Mul(p, Mul(p, z, x), Mul(p, z, x)), Mul(p, Double(p, t), Mul(p, z, x))),
                   Mul(p, z, c))
  {
    var tt := Double(p, t);
    MulDistrib(p, z, Sub(p, Mul(p, z, Mul(p, x, x)), Mul(p, tt, x)), c);
    MulSub(p, z, Mul(p, z, Mul(p, x, x)), Mul(p, tt, x));
    assert Mul(p, z, Mul(p, z, Mul(p, x, x))) == Mul(p, Mul(p, z, x), Mul(p, z, x)) by {
      MulAssoc(p, z, z, Mul(p, x, x));
      MulRegroup(p, z, x, z, x);
    }
    assert Mul(p, z, Mul(p, tt, x)) == Mul(p, tt, Mul(p, z, x)) by {
      MulAssoc(p, z, tt, x);
      MulComm(p, z, tt);
      MulAssoc(p, tt, z, x);
    }
  }

  /**
   Equal x-coordinates make the division fail: (x - x)^2 == 0 has no inverse. Nothing is
   returned, and when the discriminant passes and `sqrt` finds its root, the error is the
   ZeroDivisionError of the division.
   */
  lemma DifferenceOfEqualX(E: Curve, x: Elem)
    requires GoodCurve(E) && Valid(Modulus(E), x)
    ensures AffineDifference(E, x, x).Err?
    ensures IsSquare(Modulus(E), Discriminant(Modulus(E), E.A.v, x, x))
            && Sqrt(Modulus(E), Discriminant(Modulus(E), E.A.v, x, x)).Ok?
            ==> AffineDifference(E, x, x) == Err(ZeroDivision)
  {
    var p := Modulus(E);
    var z := Square(p, Sub(p, x, x));
    assert Inverse(p, z).Err? by {
      InvertibleIsNonzero(p, z);
      SubSelf(p, x);
      MulZero(p, Zero());
    }
  }

  /** With x1 == x2 the subtracted square vanishes and the discriminant is t1^2. */
  lemma EqualXDiscriminant(p: int, a: Elem, x: Elem)
    requires p > 1
    ensures Discriminant(p, a, x, x) == Square(p, CrossTerm(p, a, x, x))
  {
    var c := Mul(p, Sub(p, x, x), Sub(p, Mul(p, x, x), One()));
    assert c == Zero() by {
      SubSelf(p, x);
      MulZero(p, Sub(p, Mul(p, x, x), One()));
    }
    assert Square(p, c) == Zero() by {
      MulZero(p, Zero());
    }
    SubZeroRight(p, Square(p, CrossTerm(p, a, x, x)));
  }

  /** y - 0 == y on a canonical y. */
  lemma SubZeroRight(p: int, y: Elem)
    requires p > 1 && Valid(p, y)
    ensures Sub(p, y, Zero()) == y
  {
    SubAddCancel(p, y, Zero());
    AddZero(p, Sub(p, y, Zero()));
    ReduceValid(p, y);
  }

  /**
   Over a field that `Field(p)` accepts, under the root hypotheses, equal x-coordinates
   always pass the square test and `sqrt` (the discriminant is t1^2), so the failure is the
   ZeroDivisionError of the division by (x - x)^2 == 0.
   */
  lemma DifferenceOfEqualXIsDivision(E: Curve, x: Elem)
    requires GoodCurve(E) && Valid(Modulus(E), x)
    requires IsPrime(Modulus(E)) && Modulus(E) % 4 == 3 && RootHypotheses(Modulus(E))
    ensures AffineDifference(E, x, x) == Err(ZeroDivision)
  {
    var p := Modulus(E);
    var disc := Discriminant(p, E.A.v, x, x);
    assert IsSquare(p, disc) && Sqrt(p, disc).Ok? by {
      var t1 := CrossTerm(p, E.A.v, x, x);
      EqualXDiscriminant(p, E.A.v, x);
      SqrtExponents(p);
      assert LagrangeOrder(p) && Valid(p, t1);
      SquaresPassEulerCriterion(p, t1);
      SquaresHaveRoots(p, disc);
    }
    DifferenceOfEqualX(E, x);
  }

  /**
   Over a prime field with i^2 == -1 irreducible, the only way the arithmetic fails for
   different x-coordinates is at the discriminant: when it is a square and `sqrt` finds
   its root, a point is returned.
   */
  lemma DifferenceSucceeds(E: Curve, x1: Elem, x2: Elem)
    requires GoodCurve(E) && Valid(Modulus(E), x1) && Valid(Modulus(E), x2)
    requires IsPrime(Modulus(E)) && MinusOneIsNonSquare(Modulus(E))
    requires x1 != x2
    requires IsSquare(Modulus(E), Discriminant(Modulus(E), E.A.v, x1, x2))
    requires Sqrt(Modulus(E), Discriminant(Modulus(E), E.A.v, x1, x2)).Ok?
    ensures AffineDifference(E, x1, x2).Ok?
  {
    var p := Modulus(E);
    var d := Sub(p, x1, x2);
    SubZeroIff(p, x1, x2);
    var z := Mul(p, d, d);
    assert z != Zero() by {
      if z == Zero() {
        NoZeroDivisors(p, d, d);
      }
    }
    NonzeroIsInvertible(p, z);
  }

  /* ---------------- the kernel point ---------------- */

  /**
   `get_kernel_point(xP, xQ, s)`: both points are normalized by `_normalize` as written (in
   place, in the source), then the ladder runs on them and their difference. The identity
   normalizes to (1 : 0), which is not affine, so an identity input ends in an
   AssertionError.
   */
  function GetKernelPoint(f: XFormulas, xP: Point, xQ: Point, s: int): (r: Result<Point>)
    requires GoodPoint(xP) && GoodPoint(xQ)
    ensures r.Ok? ==> r.value.E == xP.E
    ensures !IsFinite(xP) || !IsFinite(xQ) ==> r.Err?
  {
    var P :- NormalizeAsWritten(xP);
    var Q :- NormalizeAsWritten(xQ);
    NormalizedIsGood(xP);
    NormalizedIsGood(xQ);
    KernelOfNormalized(f, P, Q, s)
  }

  /** `get_kernel_point` as intended: the points normalized by the corrected `Normalize`. */
  function GetKernelPointCorrected(f: XFormulas, xP: Point, xQ: Point, s: int): (r: Result<Point>)
    requires GoodPoint(xP) && GoodPoint(xQ)
    ensures r.Ok? ==> r.value.E == xP.E
    ensures !IsFinite(xP) || !IsFinite(xQ) ==> r.Err?
  {
    var P :- Normalize(xP);
    var Q :- Normalize(xQ);
    NormalizedIsGood(xP);
    NormalizedIsGood(xQ);
    KernelOfNormalized(f, P, Q, s)
  }

  /** When neither input sits in the shortcut position the two agree. */
  lemma GetKernelPointOffShortcut(f: XFormulas, xP: Point, xQ: Point, s: int)
    requires GoodPoint(xP) && GoodPoint(xQ) && !HitsShortcut(xP) && !HitsShortcut(xQ)
    ensures GetKernelPoint(f, xP, xQ, s) == GetKernelPointCorrected(f, xP, xQ, s)
  {
    NormalizeAsWrittenOffShortcut(xP);
    NormalizeAsWrittenOffShortcut(xQ);
  }

  /**
   In the shortcut position the ladder starts from (1 : 1) instead of the normal form of
   xP: the call returns what it returns on the point (1 : 1).
   */
  lemma GetKernelPointAtShortcut(f: XFormulas, xP: Point, xQ: Point, s: int)
    requires GoodPoint(xP) && GoodPoint(xQ) && HitsShortcut(xP)
    ensures GoodPoint(Point(xP.E, One(), One()))
    ensures GetKernelPoint(f, xP, xQ, s) == GetKernelPoint(f, Point(xP.E, One(), One()), xQ, s)
  {
    var U := Point(xP.E, One(), One());
    assert GoodPoint(U) by {
      SmallResidues(Modulus(xP.E));
    }
    ShortcutNormalForm(xP);
    NormalizeAsWrittenAffine(U);
    SameNormalFormSameKernel(f, xP, U, xQ, s);
  }

  /** `get_kernel_point` sees its first input only through that input's normal form. */
  lemma SameNormalFormSameKernel(f: XFormulas, xP: Point, xP': Point, xQ: Point, s: int)
    requires GoodPoint(xP) && GoodPoint(xP') && GoodPoint(xQ)
    requires NormalizeAsWritten(xP) == NormalizeAsWritten(xP')
    ensures GetKernelPoint(f, xP, xQ, s) == GetKernelPoint(f, xP', xQ, s)
  {
  }

  /** The part of `get_kernel_point` after the normalization. */
  function KernelOfNormalized(f: XFormulas, P: Point, Q: Point, s: int): (r: Result<Point>)
    requires GoodPoint(P) && GoodPoint(Q)
    ensures r.Ok? ==> r.value.E == P.E
    ensures !IsAffine(P) || !IsAffine(Q) ==> r == Err(AssertionFailed)
  {
    var PmQ :- PointDifference(P, Q);
    ThreePointLadder(f, P, Q, PmQ, s)
  }

  /** A normalized point is a point of the curve again. */
  lemma NormalizedIsGood(P: Point)
    requires GoodPoint(P)
    ensures Normalize(P).Ok? ==> GoodPoint(Normalize(P).value)
    ensures NormalizeAsWritten(P).Ok? ==> GoodPoint(NormalizeAsWritten(P).value)
  {
  }

  /**
   The inputs' state after the call, their normal forms, lead to the same result: a second
   call on the points the first call has normalized returns what the first call returned.
   */
  lemma GetKernelPointOnNormalizedInputs(f: XFormulas, xP: Point, xQ: Point, s: int)
    requires GoodPoint(xP) && GoodPoint(xQ)
    requires NormalizeAsWritten(xP).Ok? && NormalizeAsWritten(xQ).Ok?
    ensures GoodPoint(NormalizeAsWritten(xP).value) && GoodPoint(NormalizeAsWritten(xQ).value)
    ensures GetKernelPoint(f, NormalizeAsWritten(xP).value, NormalizeAsWritten(xQ).value, s)
            == GetKernelPoint(f, xP, xQ, s)
  {
    NormalizedIsGood(xP);
    NormalizedIsGood(xQ);
    NormalizeAsWrittenIdempotent(xP);
    NormalizeAsWrittenIdempotent(xQ);
  }

  /**
   The kernel point is P + sQ: if P and Q normalize (as `_normalize` is written) to points
   named P and Q, and their difference is named P - Q, the result is named P + sQ for every
   s >= 0. When the difference is P + Q instead (`flip`), Q is read as -Q and the result is
   named P - sQ.
   */
  lemma GetKernelPointComputesKernel(f: XFormulas, names: Naming, xP: Point, xQ: Point,
                                     s: nat, flip: bool)
    requires GoodPoint(xP) && GoodPoint(xQ)
    requires NormalizeAsWritten(xP).Ok? && NormalizeAsWritten(xQ).Ok?
    requires PointDifference(NormalizeAsWritten(xP).value, NormalizeAsWritten(xQ).value).Ok?
    requires DoublesLabels(f, xP.E, names) && AddsLabels(f, xP.E, names) && OddNamesGeneric(names)
    requires names(NormalizeAsWritten(xP).value, Sym(1, 0))
    requires names(NormalizeAsWritten(xQ).value, Sym(0, Signed(flip, 1)))
    requires names(PointDifference(NormalizeAsWritten(xP).value, NormalizeAsWritten(xQ).value).value,
                   Sym(1, Signed(flip, -1)))
    ensures GetKernelPoint(f, xP, xQ, s).Ok?
    ensures names(GetKernelPoint(f, xP, xQ, s).value, Sym(1, Signed(flip, s)))
  {
    var P, Q := NormalizeAsWritten(xP).value, NormalizeAsWritten(xQ).value;
    var PmQ := PointDifference(P, Q).value;
    ThreePointLadderComputesKernel(f, names, P, Q, PmQ, s, flip);
  }
}

=== FILE: modarith.dfy ===
/**
 Integer facts the field arithmetic rests on: Euclidean division and congruences,
 primality, powers of two and bit lengths, and the modular inverse that Python's
 three-argument `pow(s, -1, p)` computes (here by the extended Euclidean algorithm).
 */
module ModArith {
  import opened Errors

  /* ---------------- division and congruence ---------------- */

  lemma MulAtLeast(a: int, m: int)
    requires a >= 1 && m > 0
    ensures a * m >= m
  {
  }

  /** The only multiple of m strictly between -m and m is 0. */
  lemma SmallMultipleIsZero(d: int, m: int)
    requires m > 0
    requires -m < d * m < m
    ensures d == 0
  {
    if d >= 1 {
      MulAtLeast(d, m);
      assert false;
    } else if d <= -1 {
      MulAtLeast(-d, m);
      assert false;
    }
  }

  /** Euclidean division is unique: any decomposition x == q*m + r with 0 <= r < m is THE one. */
  lemma ModUnique(x: int, q: int, r: int, m: int)
    requires m > 0
    requires x == q * m + r
    requires 0 <= r < m
    ensures x % m == r
    ensures x / m == q
  {
    var q', r' := x / m, x % m;
    assert (q' - q) * m == r - r';
    SmallMultipleIsZero(q' - q, m);
  }

  lemma ModAddMultiple(x: int, k: int, m: int)
    requires m > 0
    ensures (x + k * m) % m == x % m
  {
    ModUnique(x + k * m, x / m + k, x % m, m);
  }

  /** Reducing a factor first does not change a product modulo m. */
  lemma ModMulLeft(a: int, b: int, m: int)
    requires m > 0
    ensures ((a % m) * b) % m == (a * b) % m
  {
    var q := a / m;
    assert a * b == (a % m) * b + (q * b) * m by {
      assert a == q * m + a % m;
    }
    ModAddMultiple((a % m) * b, q * b, m);
  }

  lemma ModMulRight(a: int, b: int, m: int)
    requires m > 0
    ensures (a * (b % m)) % m == (a * b) % m
  {
    ModMulLeft(b, a, m);
  }

  /** Reducing a summand first does not change a sum modulo m. */
  lemma ModAddLeft(a: int, b: int, m: int)
    requires m > 0
    ensures ((a % m) + b) % m == (a + b) % m
  {
    ModAddMultiple((a % m) + b, a / m, m);
  }

  lemma ModAddRight(a: int, b: int, m: int)
    requires m > 0
    ensures (a + (b % m)) % m == (a + b) % m
  {
    ModAddLeft(b, a, m);
  }

  lemma ModOfMultiple(g: int, k: int)
    requires g > 0
    ensures (g * k) % g == 0
  {
    ModUnique(g * k, k, 0, g);
  }

  /** A common divisor of a and b divides every integer combination of them. */
  lemma DividesCombination(g: int, a: int, b: int, u: int, v: int)
    requires g > 0
    requires a % g == 0 && b % g == 0
    ensures (u * a + v * b) % g == 0
  {
    var ka, kb := a / g, b / g;
    assert a == g * ka;
    assert b == g * kb;
    assert u * a + v * b == g * (u * ka + v * kb);
    ModOfMultiple(g, u * ka + v * kb);
  }

  /** A positive divisor of a positive number is at most that number. */
  lemma DivisorAtMost(g: int, n: int)
    requires g > 0 && n > 0
    requires n % g == 0
    ensures g <= n
  {
    var k := n / g;
    assert n == g * k;
    assert k != 0;
    MulAtLeast(k, g);
  }

  /** x and y are congruent modulo m. */
  predicate Cong(m: int, x: int, y: int)
    requires m > 0
  {
    x % m == y % m
  }

  lemma CongReduce(m: int, x: int)
    requires m > 0
    ensures Cong(m, x % m, x)
  {
    ModUnique(x % m, 0, x % m, m);
  }

  lemma CongMul(m: int, x: int, x': int, y: int, y': int)
    requires m > 0
    requires Cong(m, x, x') && Cong(m, y, y')
    ensures Cong(m, x * y, x' * y')
  {
    assert (x * y) % m == (x' * y) % m by {
      ModMulLeft(x, y, m);
      ModMulLeft(x', y, m);
    }
    assert (x' * y) % m == (x' * y') % m by {
      ModMulRight(x', y, m);
      ModMulRight(x', y', m);
    }
  }

  lemma CongAdd(m: int, x: int, x': int, y: int, y': int)
    requires m > 0
    requires Cong(m, x, x') && Cong(m, y, y')
    ensures Cong(m, x + y, x' + y')
  {
    assert (x + y) % m == (x' + y) % m by {
      ModAddLeft(x, y, m);
      ModAddLeft(x', y, m);
    }
    assert (x' + y) % m == (x' + y') % m by {
      ModAddRight(x', y, m);
      ModAddRight(x', y', m);
    }
  }

  lemma CongNeg(m: int, x: int, x': int)
    requires m > 0
    requires Cong(m, x, x')
    ensures Cong(m, -x, -x')
  {
    CongMul(m, x, x', -1, -1);
  }

  lemma CongSub(m: int, x: int, x': int, y: int, y': int)
    requires m > 0
    requires Cong(m, x, x') && Cong(m, y, y')
    ensures Cong(m, x - y, x' - y')
  {
    CongNeg(m, y, y');
    CongAdd(m, x, x', -y, -y');
  }

  /* ---------------- integer ring identities ---------------- */

  lemma IntMulAssoc(x: int, y: int, z: int)
    ensures (x * y) * z == x * (y * z)
  {
  }

  lemma IntDistribLeft(x: int, y: int, z: int)
    ensures x * (y + z) == x * y + x * z
    ensures x * (y - z) == x * y - x * z
  {
  }

  lemma IntDistribRight(x: int, y: int, z: int)
    ensures (x + y) * z == x * z + y * z
    ensures (x - y) * z == x * z - y * z
  {
  }

  lemma IntMulNeg(x: int, y: int)
    ensures x * (-y) == -(x * y)
    ensures (-x) * y == -(x * y)
  {
  }

  lemma IntSquareOfSum(x: int, y: int)
    ensures (x + y) * (x + y) == x * x + 2 * (x * y) + y * y
    ensures (x - y) * (x - y) == x * x - 2 * (x * y) + y * y
  {
  }

  /** (x*u)*(y*v) == (x*v)*(y*u) and (x*u)*(x*u) == (x*x)*(u*u): regrouping four factors. */
  lemma IntRegroup(x: int, y: int, u: int, v: int)
    ensures (x * u) * (y * v) == (x * v) * (y * u)
    ensures (x * u) * (x * u) == (x * x) * (u * u)
  {
  }

  /* ---------------- primality ---------------- */

  predicate Divides(d: int, n: int)
    requires d != 0
  {
    n % d == 0
  }

  /** The predicate `gmpy2.is_prime` decides (up to its probabilistic error). */
  predicate IsPrime(n: int) {
    n >= 2 && forall d :: 2 <= d < n ==> !Divides(d, n)
  }

  /* ---------------- powers of two and bit lengths ---------------- */

  function Pow2(n: nat): (r: nat)
    ensures r >= 1
  {
    if n == 0 then 1 else 2 * Pow2(n - 1)
  }

  /** Python's `int.bit_length()` of a non-negative integer (0 for n <= 0). */
  function BitLength(n: int): nat
    decreases if n > 0 then n else 0
  {
    if n <= 0 then 0 else 1 + BitLength(n / 2)
  }

  /** The bit length of a positive n is the k with 2^(k-1) <= n < 2^k. */
  lemma {:induction false} BitLengthBounds(n: int)
    requires n > 0
    ensures BitLength(n) >= 1
    ensures Pow2(BitLength(n) - 1) <= n < Pow2(BitLength(n))
    decreases n
  {
    if n / 2 > 0 {
      BitLengthBounds(n / 2);
    }
  }

  /** Bit k of a non-negative n, as `(n >> k) & 1` reads it. */
  function Bit(n: nat, k: nat): nat {
    (n / Pow2(k)) % 2
  }

  /** Shifting right by k is shifting right by k + 1, doubling, and putting bit k back. */
  lemma ShiftStep(n: nat, k: nat)
    ensures n / Pow2(k) == 2 * (n / Pow2(k + 1)) + Bit(n, k)
  {
    var m := Pow2(k);
    assert Pow2(k + 1) == 2 * m;
    var q, r := n / (2 * m), n % (2 * m);
    assert n == q * (2 * m) + r;
    var b, s := r / m, r % m;
    QuotientBelowTwo(r, m);
    assert n == (2 * q + b) * m + s by {
      assert r == b * m + s;
      IntDistribRight(2 * q, b, m);
      IntMulAssoc(2, q, m);
      IntMulAssoc(q, 2, m);
    }
    ModUnique(n, 2 * q + b, s, m);
    ModUnique(2 * q + b, q, b, 2);
  }

  lemma QuotientBelowTwo(r: int, m: int)
    requires m > 0 && 0 <= r < 2 * m
    ensures 0 <= r / m < 2
  {
    if r < m {
      ModUnique(r, 0, r, m);
    } else {
      ModUnique(r, 1, r - m, m);
    }
  }

  /** Shifting n right by its bit length leaves nothing. */
  lemma ShiftPastTop(n: nat)
    ensures n / Pow2(BitLength(n)) == 0
  {
    if n > 0 {
      BitLengthBounds(n);
    }
    ModUnique(n, 0, n, Pow2(BitLength(n)));
  }

  /** 2^(m + n) == 2^m 2^n */
  lemma {:induction false} Pow2Add(m: nat, n: nat)
    ensures Pow2(m + n) == Pow2(m) * Pow2(n)
    decreases n
  {
    if n > 0 {
      Pow2Add(m, n - 1);
      IntMulAssoc(2, Pow2(m), Pow2(n - 1));
      IntMulAssoc(Pow2(m), 2, Pow2(n - 1));
    }
  }

  /* ---------------- extended Euclid and the modular inverse ---------------- */

  /** Bezout data: a*x + b*y == g where g is the gcd. */
  datatype Bezout = Bezout(g: int, x: int, y: int)

  function ExtendedGcd(a: nat, b: nat): (r: Bezout)
    ensures a * r.x + b * r.y == r.g
    ensures r.g >= 0
    ensures (a > 0 || b > 0) ==> r.g > 0
    ensures r.g > 0 ==> a % r.g == 0 && b % r.g == 0
    decreases b
  {
    if b == 0 then Bezout(a, 1, 0)
    else
      var r := ExtendedGcd(b, a % b);
      var q := a / b;
      GcdStep(a, b, q, a % b, r);
      Bezout(r.g, r.y, r.x - q * r.y)
  }

  /** The Bezout data for (b, a mod b) give Bezout data for (a, b). */
  lemma GcdStep(a: nat, b: nat, q: int, m: nat, r: Bezout)
    requires b > 0 && q == a / b && m == a % b
    requires b * r.x + m * r.y == r.g
    requires r.g > 0
    requires b % r.g == 0 && m % r.g == 0
    ensures a * r.y + b * (r.x - q * r.y) == r.g
    ensures a % r.g == 0
  {
    assert a == q * b + m;
    BezoutStep(a, b, q, m, r.x, r.y, r.g);
    DividesCombination(r.g, b, m, q, 1);
    assert q * b + 1 * m == a;
  }

  /** One step of extended Euclid: from b*x + m*y == g and a == q*b + m, a*y + b*(x - q*y) == g. */
  lemma BezoutStep(a: int, b: int, q: int, m: int, x: int, y: int, g: int)
    requires a == q * b + m
    requires b * x + m * y == g
    ensures a * y + b * (x - q * y) == g
  {
    IntDistribRight(q * b, m, y);
    IntDistribLeft(b, x, q * y);
    IntRegroup(q, b, b, y);
    assert (q * b) * y == b * (q * y);
  }

  /** v is a multiplicative inverse of s modulo p. */
  predicate IsInverse(s: int, v: int, p: int)
    requires p > 1
  {
    (s * v) % p == 1
  }

  /**
   Python's `pow(s, -1, p)`: the inverse of s modulo p in [0, p), failing when s and p
   are not coprime (the source turns that ValueError into a ZeroDivisionError).
   */
  function ModInverse(s: int, p: int): (r: Result<int>)
    requires p > 1
    ensures r.Ok? ==> 0 <= r.value < p && IsInverse(s, r.value, p)
    ensures r.Err? ==> r.error == ZeroDivision && forall v :: !IsInverse(s, v, p)
    ensures IsPrime(p) ==> (r.Err? <==> s % p == 0)
  {
    var b := ExtendedGcd(s % p, p);
    if b.g == 1 then
      InverseFromCombination(s, b.x, b.y, p);
      CombinationRulesOutZero(s, b.x, b.y, p);
      Ok(b.x % p)
    else
      NoInverseWithCommonDivisor(s, b.g, p);
      PrimeCoprimality(s, p, b);
      Err(ZeroDivision)
  }

  /** Bezout's identity (s mod p)*x + p*y == 1 makes x mod p an inverse of s. */
  lemma InverseFromCombination(s: int, x: int, y: int, p: int)
    requires p > 1
    requires (s % p) * x + p * y == 1
    ensures IsInverse(s, x % p, p)
  {
    var t := (s % p) * x;
    assert (s * (x % p)) % p == t % p by {
      ModMulRight(s, x, p);
      ModMulLeft(s, x, p);
    }
    var k := -y;
    assert t == 1 + k * p;
    assert t % p == 1 by {
      ModAddMultiple(1, k, p);
      ModUnique(1, 0, 1, p);
    }
  }

  /** When (s mod p)*x + p*y == 1, s is not a multiple of p. */
  lemma CombinationRulesOutZero(s: int, x: int, y: int, p: int)
    requires p > 1
    requires (s % p) * x + p * y == 1
    ensures s % p != 0
  {
    if s % p == 0 {
      assert p * y == 1;
      ModOfMultiple(p, y);
      ModUnique(1, 0, 1, p);
      assert false;
    }
  }

  /** A common divisor g > 1 of (s mod p) and p rules out every inverse of s. */
  lemma NoInverseWithCommonDivisor(s: int, g: int, p: int)
    requires p > 1 && g > 1
    requires (s % p) % g == 0 && p % g == 0
    ensures forall v :: !IsInverse(s, v, p)
  {
    forall v
      ensures !IsInverse(s, v, p)
    {
      if (s * v) % p == 1 {
        var k := (s * v) / p;
        var q := s / p;
        var a := s % p;
        assert s == q * p + a;
        assert s * v == k * p + 1;
        assert s * v == q * p * v + a * v;
        assert 1 == v * a + (q * v - k) * p;
        DividesCombination(g, a, p, v, q * v - k);
        ModUnique(1, 0, 1, g);
        assert false;
      }
    }
  }

  lemma PrimeCoprimality(s: int, p: int, b: Bezout)
    requires p > 1
    requires b == ExtendedGcd(s % p, p) && b.g != 1
    ensures IsPrime(p) ==> s % p == 0
  {
    if IsPrime(p) {
      var g := b.g;
      DivisorAtMost(g, p);
      if g < p {
        assert Divides(g, p);
      }
      assert g == p;
      ModUnique(s % p, 0, s % p, p);
    }
  }
}

=== FILE: sqisign.dfy ===
/**
 The verification side of the SQIsign skeleton (sqisign.py): the public parameters, hashing
 a message to a scalar and to a kernel point, walking a response path of isogeny chains
 given as kernel x-coordinates (uncompressed) or as scalars in a deterministic basis
 (compressed), recomputing the challenge curve, and comparing the two curves. SHA-256, the
 deterministic basis of the 2^f-torsion and the chain strategy are parameters.
 */
module Sqisign {
  import opened Errors
  import opened ModArith
  import opened Fp2
  import opened Field
  import opened Curve
  import opened Magic
  import opened Isogeny

  /* ---------------- public parameters ---------------- */

  /** f = 1 << 7: every chain of the protocol has f steps, and 2^f divides p + 1. */
  const F: nat := 128

  const Cofactor: nat := 0xb34281e63cfdf2985b9f1f5de85f0f51

  /** p = (cof << f) - 1 */
  const Prime: int := Cofactor * Pow2(F) - 1

  /** The powers of two the byte strings and the exponent f use. */
  lemma SmallPowersOfTwo()
    ensures Pow2(7) == 128
    ensures Pow2(8) == 256
  {
    assert Pow2(2) == 4 by { Pow2Add(1, 1); }
    assert Pow2(4) == 16 by { Pow2Add(2, 2); }
    assert Pow2(7) == 128 by { Pow2Add(4, 3); }
    Pow2Add(4, 4);
  }

  /** 2^32 and 2^128 as literals. */
  lemma LargePowersOfTwo()
    ensures Pow2(32) == 0x1_0000_0000
    ensures Pow2(128) == 0x1_0000_0000_0000_0000_0000_0000_0000_0000
  {
    SmallPowersOfTwo();
    SquarePowerOfTwo(8, 0x100);
    SquarePowerOfTwo(16, 0x1_0000);
    SquarePowerOfTwo(32, 0x1_0000_0000);
    SquarePowerOfTwo(64, 0x1_0000_0000_0000_0000);
  }

  lemma SquarePowerOfTwo(k: nat, v: nat)
    requires Pow2(k) == v
    ensures Pow2(2 * k) == v * v
  {
    Pow2Add(k, k);
  }

  /**
   The shape of p: f is 1 << 7, p = 3 (mod 4) as `Field` demands, and since the cofactor is
   odd, 2^f is the largest power of two dividing p + 1.
   */
  lemma ParameterShape()
    ensures F == Pow2(7)
    ensures Prime > 1 && Prime % 4 == 3
    ensures Prime + 1 == Cofactor * Pow2(F) && Cofactor % 2 == 1
  {
    SmallPowersOfTwo();
    LargePowersOfTwo();
  }

  /** `Field(p)` succeeds for the parameter p exactly when p is prime. */
  lemma ParameterField()
    ensures NewField(Prime).Ok? <==> IsPrime(Prime)
    ensures NewField(Prime).Ok? ==> NewField(Prime).value == Field(Prime)
  {
    ParameterShape();
  }

  /* ---------------- hashing ---------------- */

  newtype Byte = b: int | 0 <= b < 256

  /** 256^(k + 1) == 256 * 256^k */
  lemma ByteShift(k: nat)
    ensures Pow2(8 * (k + 1)) == 256 * Pow2(8 * k)
  {
    Pow2Add(8 * k, 8);
    SmallPowersOfTwo();
  }

  /** `int.from_bytes(bs, 'big')`: the value of a big-endian byte string. */
  function FromBytes(bs: seq<Byte>): (n: nat)
    ensures n < Pow2(8 * |bs|)
  {
    if bs == [] then 0
    else
      var m := FromBytes(bs[..|bs| - 1]);
      ByteShift(|bs| - 1);
      assert m * 256 <= (Pow2(8 * (|bs| - 1)) - 1) * 256;
      m * 256 + bs[|bs| - 1] as int
  }

  /** The k-byte big-endian string of n, the inverse of FromBytes. */
  function ToBytes(n: nat, k: nat): (bs: seq<Byte>)
    requires n < Pow2(8 * k)
    ensures |bs| == k
  {
    if k == 0 then []
    else
      ByteShift(k - 1);
      ModUnique(n, n / 256, n % 256, 256);
      assert n / 256 < Pow2(8 * (k - 1));
      ToBytes(n / 256, k - 1) + [(n % 256) as Byte]
  }

  lemma {:induction false} FromBytesOfToBytes(n: nat, k: nat)
    requires n < Pow2(8 * k)
    ensures FromBytes(ToBytes(n, k)) == n
    decreases k
  {
    if k > 0 {
      var bs := ToBytes(n, k);
      ByteShift(k - 1);
      ModUnique(n, n / 256, n % 256, 256);
      assert bs[..k - 1] == ToBytes(n / 256, k - 1);
      FromBytesOfToBytes(n / 256, k - 1);
    }
  }

  lemma {:induction false} ToBytesOfFromBytes(bs: seq<Byte>)
    ensures ToBytes(FromBytes(bs), |bs|) == bs
    decreases |bs|
  {
    if bs != [] {
      var k := |bs|;
      var n, m, b := FromBytes(bs), FromBytes(bs[..k - 1]), bs[k - 1] as int;
      assert n / 256 == m && n % 256 == b by {
        ModUnique(m * 256 + b, m, b, 256);
      }
      assert ToBytes(n, k) == ToBytes(m, k - 1) + [bs[k - 1]];
      ToBytesOfFromBytes(bs[..k - 1]);
      assert bs == bs[..k - 1] + [bs[k - 1]];
    }
  }

  /** Big-endian concatenation: the value of a + b is a shifted past b, plus b. */
  lemma {:induction false} FromBytesAppend(a: seq<Byte>, b: seq<Byte>)
    ensures FromBytes(a + b) == FromBytes(a) * Pow2(8 * |b|) + FromBytes(b)
    decreases |b|
  {
    if b != [] {
      var k := |b|;
      assert (a + b)[..|a + b| - 1] == a + b[..k - 1];
      assert (a + b)[|a + b| - 1] == b[k - 1];
      FromBytesAppend(a, b[..k - 1]);
      ByteShift(k - 1);
      var x, y := FromBytes(a), FromBytes(b[..k - 1]);
      var t := Pow2(8 * (k - 1));
      calc {
        FromBytes(a + b);
        (x * t + y) * 256 + b[k - 1] as int;
        { IntDistribRight(x * t, y, 256); IntMulAssoc(x, t, 256); }
        x * (t * 256) + (y * 256 + b[k - 1] as int);
        x * Pow2(8 * k) + FromBytes(b);
      }
    } else {
      assert a + b == a;
    }
  }

  /** `hash_to_integer`: the SHA-256 digest as a big-endian integer, reduced modulo 2^f. */
  function HashToInteger(sha256: seq<Byte> -> seq<Byte>, message: seq<Byte>): (s: nat)
    ensures s < Pow2(F)
  {
    FromBytes(sha256(message)) % Pow2(F)
  }

  /**
   Reducing modulo 2^128 keeps exactly the last sixteen bytes of the digest (for SHA-256, its
   second half).
   */
  lemma HashKeepsLastSixteenBytes(sha256: seq<Byte> -> seq<Byte>, message: seq<Byte>)
    requires |sha256(message)| >= 16
    ensures HashToInteger(sha256, message) == FromBytes(sha256(message)[|sha256(message)| - 16..])
  {
    var d := sha256(message);
    var hi, lo := d[..|d| - 16], d[|d| - 16..];
    assert d == hi + lo;
    FromBytesAppend(hi, lo);
    ModUnique(FromBytes(d), FromBytes(hi), FromBytes(lo), Pow2(8 * 16));
  }

  /* ---------------- the open parts of the protocol ---------------- */

  /**
   The parts sqisign.py leaves open or imports: the x-only formulas, the deterministic basis
   (xP, xQ) of the 2^f-torsion of a curve, the chain strategy and SHA-256.
   */
  datatype Scheme = Scheme(
    xf: XFormulas,
    basis: Curve -> (Point, Point),
    strategy: ChainBuilder,
    sha256: seq<Byte> -> seq<Byte>)

  /** The basis is made of points of the curve it is computed for. */
  ghost predicate GoodBasis(basis: Curve -> (Point, Point)) {
    forall E: Curve {:trigger basis(E)} :: GoodCurve(E) ==>
      GoodPoint(basis(E).0) && GoodPoint(basis(E).1) && basis(E).0.E == E && basis(E).1.E == E
  }

  ghost predicate GoodScheme(sch: Scheme) {
    GoodBasis(sch.basis) && YieldsGoodSteps(sch.strategy)
  }

  /* ---------------- kernels and chains ---------------- */

  /** `hash_message`: the kernel xP + s xQ for the scalar s the message hashes to. */
  function HashMessage(sch: Scheme, E: Curve, message: seq<Byte>): (r: Result<Point>)
    requires GoodCurve(E) && GoodScheme(sch)
    ensures r.Ok? ==> r.value.E == E
  {
    var (P, Q) := sch.basis(E);
    GetKernelPoint(sch.xf, P, Q, HashToInteger(sch.sha256, message))
  }

  /**
   With formulas that act on names as x-only arithmetic does, the hashed kernel is named
   P + sQ (or P - sQ when the difference is P + Q) where s is the hash of the message,
   below 2^f.
   */
  lemma HashMessageComputesKernel(sch: Scheme, names: Naming, E: Curve, message: seq<Byte>,
                                  flip: bool)
    requires GoodCurve(E) && GoodScheme(sch)
    requires NormalizeAsWritten(sch.basis(E).0).Ok? && NormalizeAsWritten(sch.basis(E).1).Ok?
    requires PointDifference(NormalizeAsWritten(sch.basis(E).0).value,
                             NormalizeAsWritten(sch.basis(E).1).value).Ok?
    requires DoublesLabels(sch.xf, E, names) && AddsLabels(sch.xf, E, names)
    requires OddNamesGeneric(names)
    requires names(NormalizeAsWritten(sch.basis(E).0).value, Sym(1, 0))
    requires names(NormalizeAsWritten(sch.basis(E).1).value, Sym(0, Signed(flip, 1)))
    requires names(PointDifference(NormalizeAsWritten(sch.basis(E).0).value,
                                   NormalizeAsWritten(sch.basis(E).1).value).value,
                   Sym(1, Signed(flip, -1)))
    ensures HashMessage(sch, E, message).Ok?
    ensures names(HashMessage(sch, E, message).value,
                  Sym(1, Signed(flip, HashToInteger(sch.sha256, message))))
    ensures HashToInteger(sch.sha256, message) < Pow2(F)
  {
    var (P, Q) := sch.basis(E);
    assert P.E == E;
    GetKernelPointComputesKernel(sch.xf, names, P, Q, HashToInteger(sch.sha256, message), flip);
  }

  /** `IsogenyChain(K, n).codomain` */
  function ChainCodomain(build: ChainBuilder, K: Point, n: int): (r: Result<Curve>)
    requires YieldsGoodSteps(build)
    ensures r.Ok? ==> GoodCurve(r.value)
    ensures n < 1 ==> r == Err(AssertionFailed)
  {
    var phi :- NewChain(build, K, n);
    assert GoodSteps(build(K, n).value);
    Ok(phi.codomain)
  }

  /** With a strategy that keeps its promise, the codomain is over the field of the kernel. */
  lemma ChainCodomainInField(build: ChainBuilder, K: Point, n: int)
    requires YieldsGoodSteps(build) && BuildsChains(build)
    requires ChainCodomain(build, K, n).Ok?
    ensures ChainCodomain(build, K, n).value.A.gf == K.E.A.gf
  {
    ChainHasRequestedLength(build, K, n);
    ChainStaysInField(K.E, build(K, n).value);
  }

  /* ---------------- responses ---------------- */

  /** Every element among the operands is a canonical element of its field. */
  predicate CanonicalOperands(xs: seq<Operand>) {
    forall i :: 0 <= i < |xs| ==> (xs[i].Elt? ==> Canonical(xs[i].e))
  }

  /**
   `compute_uncompressed_response`: each block is the x-coordinate of a kernel on the
   current curve; the walk moves to the codomain of the chain of length f it generates.
   */
  function UncompressedResponse(build: ChainBuilder, E: Curve, blocks: seq<Operand>): (r: Result<Curve>)
    requires GoodCurve(E) && YieldsGoodSteps(build) && CanonicalOperands(blocks)
    ensures blocks == [] ==> r == Ok(E)
    ensures r.Ok? ==> GoodCurve(r.value)
    decreases |blocks|
  {
    if blocks == [] then Ok(E)
    else
      var K :- NewAffinePoint(E, blocks[0]);
      var E' :- ChainCodomain(build, K, F);
      UncompressedResponse(build, E', blocks[1..])
  }

  /** A response walked in two parts is the walk of the whole. */
  lemma {:induction false} UncompressedResponseAppend(build: ChainBuilder, E: Curve,
                                                      b1: seq<Operand>, b2: seq<Operand>)
    requires GoodCurve(E) && YieldsGoodSteps(build)
    requires CanonicalOperands(b1) && CanonicalOperands(b2)
    ensures CanonicalOperands(b1 + b2)
    ensures UncompressedResponse(build, E, b1 + b2)
            == (var R := UncompressedResponse(build, E, b1);
                if R.Ok? then UncompressedResponse(build, R.value, b2) else R)
    decreases |b1|
  {
    assert CanonicalOperands(b1 + b2) by {
      forall i | 0 <= i < |b1 + b2|
        ensures (b1 + b2)[i].Elt? ==> Canonical((b1 + b2)[i].e)
      {
        if i >= |b1| {
          assert (b1 + b2)[i] == b2[i - |b1|];
        }
      }
    }
    if b1 == [] {
      assert b1 + b2 == b2;
    } else {
      assert (b1 + b2)[0] == b1[0];
      assert (b1 + b2)[1..] == b1[1..] + b2;
      var K := NewAffinePoint(E, b1[0]);
      if K.Ok? {
        var E' := ChainCodomain(build, K.value, F);
        if E'.Ok? {
          UncompressedResponseAppend(build, E'.value, b1[1..], b2);
        }
      }
    }
  }

  /** With a strategy that keeps its promise, the response curve is over the field of E. */
  lemma {:induction false} UncompressedResponseInField(build: ChainBuilder, E: Curve,
                                                       blocks: seq<Operand>)
    requires GoodCurve(E) && YieldsGoodSteps(build) && BuildsChains(build)
    requires CanonicalOperands(blocks)
    requires UncompressedResponse(build, E, blocks).Ok?
    ensures UncompressedResponse(build, E, blocks).value.A.gf == E.A.gf
    decreases |blocks|
  {
    if blocks != [] {
      var K := NewAffinePoint(E, blocks[0]).value;
      ChainCodomainInField(build, K, F);
      UncompressedResponseInField(build, ChainCodomain(build, K, F).value, blocks[1..]);
    }
  }

  /** The kernel of one compressed block: P + sQ in the basis, with P and Q swapped on request. */
  function BlockKernel(sch: Scheme, E: Curve, swap: bool, s: int): (r: Result<Point>)
    requires GoodCurve(E) && GoodScheme(sch)
    ensures r.Ok? ==> r.value.E == E
  {
    var (P, Q) := sch.basis(E);
    if swap then GetKernelPoint(sch.xf, Q, P, s) else GetKernelPoint(sch.xf, P, Q, s)
  }

  /**
   `compute_compressed_response`: each block (swap, s) names the kernel P + sQ (or Q + sP)
   in the deterministic basis of the current curve.
   */
  function CompressedResponse(sch: Scheme, E: Curve, blocks: seq<(bool, int)>): (r: Result<Curve>)
    requires GoodCurve(E) && GoodScheme(sch)
    ensures blocks == [] ==> r == Ok(E)
    ensures r.Ok? ==> GoodCurve(r.value)
    decreases |blocks|
  {
    if blocks == [] then Ok(E)
    else
      var K :- BlockKernel(sch, E, blocks[0].0, blocks[0].1);
      var E' :- ChainCodomain(sch.strategy, K, F);
      CompressedResponse(sch, E', blocks[1..])
  }

  lemma {:induction false} CompressedResponseAppend(sch: Scheme, E: Curve,
                                                    b1: seq<(bool, int)>, b2: seq<(bool, int)>)
    requires GoodCurve(E) && GoodScheme(sch)
    ensures CompressedResponse(sch, E, b1 + b2)
            == (var R := CompressedResponse(sch, E, b1);
                if R.Ok? then CompressedResponse(sch, R.value, b2) else R)
    decreases |b1|
  {
    if b1 == [] {
      assert b1 + b2 == b2;
    } else {
      assert (b1 + b2)[0] == b1[0];
      assert (b1 + b2)[1..] == b1[1..] + b2;
      var K := BlockKernel(sch, E, b1[0].0, b1[0].1);
      if K.Ok? {
        var E' := ChainCodomain(sch.strategy, K.value, F);
        if E'.Ok? {
          CompressedResponseAppend(sch, E'.value, b1[1..], b2);
        }
      }
    }
  }

  lemma {:induction false} CompressedResponseInField(sch: Scheme, E: Curve, blocks: seq<(bool, int)>)
    requires GoodCurve(E) && GoodScheme(sch) && BuildsChains(sch.strategy)
    requires CompressedResponse(sch, E, blocks).Ok?
    ensures CompressedResponse(sch, E, blocks).value.A.gf == E.A.gf
    decreases |blocks|
  {
    if blocks != [] {
      var K := BlockKernel(sch, E, blocks[0].0, blocks[0].1).value;
      ChainCodomainInField(sch.strategy, K, F);
      CompressedResponseInField(sch, ChainCodomain(sch.strategy, K, F).value, blocks[1..]);
    }
  }

  /**
   Swapping exchanges the roles of the basis points: with names for which the basis is
   (P, Q) and their difference is P - Q, a block (false, s) is named P + sQ, and with names
   for the swapped basis (Q, P) a block (true, s) is named Q + sP; `flip` as in
   `GetKernelPointComputesKernel`.
   */
  lemma BlockKernelComputesKernel(sch: Scheme, names: Naming, E: Curve, swap: bool, s: nat,
                                  flip: bool)
    requires GoodCurve(E) && GoodScheme(sch)
    requires NormalizeAsWritten(sch.basis(E).0).Ok? && NormalizeAsWritten(sch.basis(E).1).Ok?
    requires DoublesLabels(sch.xf, E, names) && AddsLabels(sch.xf, E, names)
    requires OddNamesGeneric(names)
    requires var (P, Q) := (NormalizeAsWritten(sch.basis(E).0).value,
                            NormalizeAsWritten(sch.basis(E).1).value);
             var (P', Q') := if swap then (Q, P) else (P, Q);
             PointDifference(P', Q').Ok?
             && names(P', Sym(1, 0)) && names(Q', Sym(0, Signed(flip, 1)))
             && names(PointDifference(P', Q').value, Sym(1, Signed(flip, -1)))
    ensures BlockKernel(sch, E, swap, s).Ok?
    ensures names(BlockKernel(sch, E, swap, s).value, Sym(1, Signed(flip, s)))
  {
    var (P, Q) := sch.basis(E);
    assert P.E == E && Q.E == E;
    if swap {
      GetKernelPointComputesKernel(sch.xf, names, Q, P, s, flip);
    } else {
      GetKernelPointComputesKernel(sch.xf, names, P, Q, s, flip);
    }
  }

  /* ---------------- verification ---------------- */

  /** `recompute_challenge`: the codomain of the 128-step chain whose kernel the message hashes to. */
  function RecomputeChallenge(sch: Scheme, E: Curve, message: seq<Byte>): (r: Result<Curve>)
    requires GoodCurve(E) && GoodScheme(sch)
    ensures r.Ok? ==> GoodCurve(r.value)
  {
    var K :- HashMessage(sch, E, message);
    ChainCodomain(sch.strategy, K, 128)
  }

  /**
   `verify_uncompressed_signature`: the public key and the commitment curve of the signature
   are built first (ValueError for singular coefficients), then the response is walked and
   the challenge recomputed, and the signature is accepted when the two curves are equal.
   */
  function VerifyUncompressed(sch: Scheme, pk: FieldElement, blocks: seq<Operand>,
                              commitment: FieldElement, message: seq<Byte>): (r: Result<bool>)
    requires GoodScheme(sch) && Canonical(pk) && Canonical(commitment) && CanonicalOperands(blocks)
    ensures NewCurve(pk).Err? ==> r == Err(SingularCurve)
    ensures NewCurve(pk).Ok? && NewCurve(commitment).Err? ==> r == Err(SingularCurve)
  {
    var EA :- NewCurve(pk);
    var E1 :- NewCurve(commitment);
    var response :- UncompressedResponse(sch.strategy, EA, blocks);
    var challenge :- RecomputeChallenge(sch, E1, message);
    CurveEquals(response, challenge)
  }

  /**
   A signature is accepted exactly when both curves are nonsingular and the response walk
   ends on the recomputed challenge curve.
   */
  lemma VerifyUncompressedAccepts(sch: Scheme, pk: FieldElement, blocks: seq<Operand>,
                                  commitment: FieldElement, message: seq<Byte>)
    requires GoodScheme(sch) && Canonical(pk) && Canonical(commitment) && CanonicalOperands(blocks)
    ensures VerifyUncompressed(sch, pk, blocks, commitment, message) == Ok(true)
            <==> NewCurve(pk).Ok? && NewCurve(commitment).Ok?
                 && UncompressedResponse(sch.strategy, Curve(pk), blocks).Ok?
                 && RecomputeChallenge(sch, Curve(commitment), message).Ok?
                 && UncompressedResponse(sch.strategy, Curve(pk), blocks).value
                    == RecomputeChallenge(sch, Curve(commitment), message).value
  {
  }

  /**
   With a strategy that keeps its promise and both coefficients in one field, comparing the
   curves never raises: verification answers whenever both walks succeed.
   */
  lemma VerifyUncompressedDecides(sch: Scheme, pk: FieldElement, blocks: seq<Operand>,
                                  commitment: FieldElement, message: seq<Byte>)
    requires GoodScheme(sch) && Canonical(pk) && Canonical(commitment) && CanonicalOperands(blocks)
    requires BuildsChains(sch.strategy) && pk.gf == commitment.gf
    requires NewCurve(pk).Ok? && NewCurve(commitment).Ok?
    ensures VerifyUncompressed(sch, pk, blocks, commitment, message).Ok?
            <==> UncompressedResponse(sch.strategy, Curve(pk), blocks).Ok?
                 && RecomputeChallenge(sch, Curve(commitment), message).Ok?
  {
    var R := UncompressedResponse(sch.strategy, Curve(pk), blocks);
    var C := RecomputeChallenge(sch, Curve(commitment), message);
    if R.Ok? && C.Ok? {
      UncompressedResponseInField(sch.strategy, Curve(pk), blocks);
      ChallengeInField(sch, Curve(commitment), message);
    }
  }

  /** The challenge curve is over the field of the commitment curve. */
  lemma ChallengeInField(sch: Scheme, E: Curve, message: seq<Byte>)
    requires GoodCurve(E) && GoodScheme(sch) && BuildsChains(sch.strategy)
    requires RecomputeChallenge(sch, E, message).Ok?
    ensures RecomputeChallenge(sch, E, message).value.A.gf == E.A.gf
  {
    var K := HashMessage(sch, E, message).value;
    ChainCodomainInField(sch.strategy, K, 128);
  }

  /** `verify_compressed_signature`: as the uncompressed check, with the compressed response. */
  function VerifyCompressed(sch: Scheme, pk: FieldElement, blocks: seq<(bool, int)>,
                            commitment: FieldElement, message: seq<Byte>): (r: Result<bool>)
    requires GoodScheme(sch) && Canonical(pk) && Canonical(commitment)
    ensures NewCurve(pk).Err? ==> r == Err(SingularCurve)
    ensures NewCurve(pk).Ok? && NewCurve(commitment).Err? ==> r == Err(SingularCurve)
  {
    var EA :- NewCurve(pk);
    var E1 :- NewCurve(commitment);
    var response :- CompressedResponse(sch, EA, blocks);
    var challenge :- RecomputeChallenge(sch, E1, message);
    CurveEquals(response, challenge)
  }

  lemma VerifyCompressedAccepts(sch: Scheme, pk: FieldElement, blocks: seq<(bool, int)>,
                                commitment: FieldElement, message: seq<Byte>)
    requires GoodScheme(sch) && Canonical(pk) && Canonical(commitment)
    ensures VerifyCompressed(sch, pk, blocks, commitment, message) == Ok(true)
            <==> NewCurve(pk).Ok? && NewCurve(commitment).Ok?
                 && CompressedResponse(sch, Curve(pk), blocks).Ok?
                 && RecomputeChallenge(sch, Curve(commitment), message).Ok?
                 && CompressedResponse(sch, Curve(pk), blocks).value
                    == RecomputeChallenge(sch, Curve(commitment), message).value
  {
  }

  lemma VerifyCompressedDecides(sch: Scheme, pk: FieldElement, blocks: seq<(bool, int)>,
                                commitment: FieldElement, message: seq<Byte>)
    requires GoodScheme(sch) && Canonical(pk) && Canonical(commitment)
    requires BuildsChains(sch.strategy) && pk.gf == commitment.gf
    requires NewCurve(pk).Ok? && NewCurve(commitment).Ok?
    ensures VerifyCompressed(sch, pk, blocks, commitment, message).Ok?
            <==> CompressedResponse(sch, Curve(pk), blocks).Ok?
                 && RecomputeChallenge(sch, Curve(commitment), message).Ok?
  {
    var R := CompressedResponse(sch, Curve(pk), blocks);
    var C := RecomputeChallenge(sch, Curve(commitment), message);
    if R.Ok? && C.Ok? {
      CompressedResponseInField(sch, Curve(pk), blocks);
      ChallengeInField(sch, Curve(commitment), message);
    }
  }
}
